=== FILE: README.md ===
# Fleet management: trip and maintenance lifecycle

A Dafny model of a fleet management web application. It covers:

- the local-store reducer `appReducer`;
- the pages that decide which reducer actions may fire: trips, drivers, vehicles and maintenance;
- the API-backed trips page, which runs the same checks;
- the generic table of the API front end (search, sort, pages);
- both dashboards;
- the role-based route table and the sidebar.

Every state is an immutable record of sequences: vehicles, drivers, trips, maintenance logs, expenses and users. The reducer is a total function `Store.Reduce`. The clock reading `Date.now()`, which the reducer uses for fresh ids and timestamps, is an explicit parameter `now`. The state `RESET_DATA` restores is a parameter `initial`. The pages take the current day `today` as an ISO date string. Date strings are compared with the code-unit order that JavaScript's string `<` uses.

The reducer itself checks nothing about statuses or odometer readings. The row buttons of the trips page are the only guard. `Lifecycle` composes "press a row button, then reduce", and states the lifecycle properties for that composition only:

- statuses only move forward;
- a finished trip stays finished;
- completing twice counts once;
- dispatching and then cancelling restores the vehicle and driver.

It also states, as lemmas, the gaps that remain.

Modules, one per source concern:

- `Basics`: option type, filter, count, find, update and sum over sequences.
- `Text`: JavaScript string order, ASCII lower-casing, `includes`, and number printing.
- `Sorting`: the stable sort behind `Array.prototype.sort`.
- `Fleet`: the records, the status strings of the backend schemas, and actions.
- `Store`: the reducer.
- `Allocation`: the license and capacity checks that both trips pages share.
- `TripsPage`, `FrontendTripsPage`, `Lifecycle`: the trips pages and their composition with the reducer.
- `DriversPage`, `VehiclesPage`, `MaintenancePage`: the other editing pages.
- `DataTable`: the table of the API front end.
- `Metrics`, `Kpis`, `Dashboard`, `FrontendDashboard`: the dashboards.
- `Routes`, `Sidebar`: the route table and the navigation menu.

Where the code disagrees with what its UI text and comments say, the model follows the code:

- **The actions column is shown to every role.** The API-backed trips page asks for its actions column to be hidden from roles other than Admin and Manager. The table never reads that flag (see Findings).
- **Trip creation does not check status itself.** Creation requires an Available vehicle and an On Duty driver only through the selection lists. The check chain looks the ids up among all records (`Lifecycle.SelectionImpliesStatus`).
- **One vehicle can be dispatched twice.** Nothing stops two Draft trips of the same vehicle from both being dispatched (`Lifecycle.SameVehicleDispatchedTwice`).
- **The odometer can run backwards.** Completing a trip accepts any end reading and copies it onto the vehicle (`Lifecycle.CompleteAcceptsAnyReading`).
- **Completing one service log frees the vehicle.** This happens even while another log for that vehicle is still In Progress (`MaintenancePage.CompletingOneOfTwoOpenLogs`).
- **The service form offers vehicles that are On Trip.** Its pool leaves out only Retired vehicles.
- **Editing a vehicle can undo a status change.** The edit writes back the status the vehicle had when the dialog was opened.
- **The `/login` redirect of `ProtectedRoute` is unreachable.** The layout renders the login page for any unauthenticated visitor first (`Routes.LoginRedirectUnreachable`).
- **The API dashboard drops some trips even with every filter on "All".** It leaves out trips, logs and expenses whose vehicle id names no registered vehicle.
- **The two dashboards compute utilisation differently.** The local dashboard divides by every vehicle, Retired ones included. The API dashboard divides by the non-Retired vehicles, so its figure is never lower (`FrontendDashboard.UtilisationAtLeastLocal`).

## Model

| member | source | states |
|---|---|---|
| Store.TripById | src/context/AppContext.jsx:64 | the trip lookup finds a trip with the id exactly when one exists, and returns the first stored trip carrying that id |
| Store.UserByCredentials | src/context/AppContext.jsx:31 | login finds a user exactly when some user has both the email and the password, and returns the first such user |
| Store.Login | src/context/AppContext.jsx:30-34 | only the session changes; unknown credentials leave the state unchanged; known ones sign in a stored user with those credentials |
| Store.Logout | src/context/AppContext.jsx:35-36 | only the session changes, and it ends signed out with no user |
| Store.AddVehicleTo | src/context/AppContext.jsx:39-40 | appends exactly one vehicle with a fresh `v` id, keeps every earlier vehicle in place, and touches no other collection |
| Store.UpdateVehicleIn | src/context/AppContext.jsx:41-42 | the vehicles carrying the payload's id become the payload; all others and all other collections are unchanged |
| Store.DeleteVehicleFrom | src/context/AppContext.jsx:43-44 | removes exactly the vehicles with the id and keeps the rest in order |
| Store.SetVehicleStatusIn | src/context/AppContext.jsx:45-46 | only the status of the vehicles with the id changes |
| Store.AddDriverTo | src/context/AppContext.jsx:49-50 | appends exactly one driver with a fresh `d` id and keeps every earlier driver |
| Store.UpdateDriverIn | src/context/AppContext.jsx:51-52 | drivers with other ids are unchanged; matching drivers take the edited name, phone, license data and safety score, and keep their status, trip counter and join date |
| Store.DeleteDriverFrom | src/context/AppContext.jsx:53-54 | removes exactly the drivers with the id and keeps the rest in order |
| Store.SetDriverStatusIn | src/context/AppContext.jsx:55-56 | only the status of the drivers with the id changes |
| Store.CreateTripIn | src/context/AppContext.jsx:59-62 | appends exactly one Draft trip with id `t` followed by the clock reading, no completion time, stamped `now`, carrying every payload field; vehicles and drivers untouched |
| Store.FreshIdInjective | src/context/AppContext.jsx:60 | two ids stamped with the same prefix are equal only when stamped at the same clock reading |
| Store.CreateTripKeepsIdsUnique | src/context/AppContext.jsx:59-62 | when every trip so far was stamped at an earlier reading, trip ids stay unique and the new id finds the new trip |
| Store.DispatchTripIn | src/context/AppContext.jsx:63-72 | an unknown id changes nothing; otherwise the trip becomes Dispatched and its vehicle and driver On Trip, whatever the trip's prior status |
| Store.CompleteTripIn | src/context/AppContext.jsx:73-82 | an unknown id changes nothing; otherwise the trip is Completed with the end reading, its vehicle Available at that reading, and its driver On Duty with exactly one more completed trip |
| Store.CancelTripIn | src/context/AppContext.jsx:83-92 | an unknown id changes nothing; the trip is always Cancelled; vehicle and driver revert to Available and On Duty only if the trip was Dispatched, otherwise they are untouched |
| Store.AddMaintenanceIn | src/context/AppContext.jsx:95-100 | appends one In Progress log with id `m` followed by the clock reading, carrying every payload field, and sends that vehicle, and only it, In Shop |
| Store.CompleteMaintenanceIn | src/context/AppContext.jsx:101-106 | the log is Completed and its vehicle Available, regardless of other open logs |
| Store.AddExpenseTo | src/context/AppContext.jsx:109-110 | appends exactly one expense with a fresh `e` id |
| Store.DeleteExpenseFrom | src/context/AppContext.jsx:111-112 | removes exactly the expenses with the id and keeps the rest in order |
| Store.AddThenDeleteExpense | src/context/AppContext.jsx:109-112 | deleting the expense just added, under an id no earlier expense carries, gives back the expenses as they were |
| Store.ExpenseAddDeleteThroughReducer | src/context/AppContext.jsx:109-112 | the same round trip through the reducer actions, the delete at any later time, leaves the whole state unchanged |
| Store.ResetRestoresData | src/context/AppContext.jsx:114-115 | a reset restores every collection of the initial state, keeps the session, and is idempotent |
| Store.LoginThenLogout | src/context/AppContext.jsx:30-36 | signing in and then out leaves every record as it was and ends signed out |
| Text.NatToStringRoundTrip | src/context/AppContext.jsx:40 | the decimal digits of a clock reading read back as that reading, which `Store.FreshIdInjective` uses to tell stamped ids apart |
| Allocation.LicenseValid | src/pages/TripsPage.jsx:21-27 | false for a missing driver, an expiry before today, or a missing category; true otherwise |
| Allocation.ExpiringTodayStillValid | src/pages/TripsPage.jsx:24 | a license expiring today is valid exactly for its categories |
| Allocation.ValidityFollowsExpiryOrder | src/pages/TripsPage.jsx:24-25 | a license dated after today is valid exactly for its categories; one dated before today for none |
| Allocation.VehicleById | src/pages/TripsPage.jsx:32 | the form's vehicle is found exactly when a vehicle has that id, and it is the first vehicle with that id |
| Allocation.DriverById | src/pages/TripsPage.jsx:33 | the form's driver is found exactly when a driver has that id, and it is the first driver with that id |
| Allocation.Validate | src/pages/TripsPage.jsx:36-38 | reports the first failing check in the order missing selection, capacity, license, and passes exactly when all three hold |
| Allocation.FullLoadAccepted | src/pages/TripsPage.jsx:37 | a cargo equal to the vehicle's limit passes |
| Allocation.SelectableVehicles | src/pages/TripsPage.jsx:18 | the offered vehicles are exactly the Available ones, in registry order |
| Allocation.SelectableDrivers | src/pages/TripsPage.jsx:19 | the offered drivers are exactly the On Duty ones, in registry order |
| Allocation.OfferedActions | src/pages/TripsPage.jsx:62-70 | Dispatch only for Draft, Complete only for Dispatched, Cancel only for Draft or Dispatched |
| TripsPage.HandleCreate | src/pages/TripsPage.jsx:29-43 | rejects exactly when the check chain fails, with its error; otherwise fires `CREATE_TRIP` carrying the form's vehicle, driver, origin, destination and cargo weight, with start reading the vehicle's odometer, no end reading, and revenue defaulting to 0 |
| TripsPage.HandleComplete | src/pages/TripsPage.jsx:45-50 | an empty end reading fires nothing; otherwise `COMPLETE_TRIP` for the row with that reading |
| TripsPage.RowAction | src/pages/TripsPage.jsx:62-70 | a button fires only when rendered for the row's status, and fires the action for the row's own id |
| FrontendTripsPage.HandleCreate | frontend/src/pages/TripsPage.jsx:35-57 | each early return sends nothing and clears `isSaving`; a passing form posts a Draft trip with the form's vehicle, driver, origin, destination and cargo weight, the vehicle's odometer, and revenue defaulting to 0 |
| FrontendTripsPage.CreateAs | frontend/src/pages/TripsPage.jsx:134-138 | only Admin and Manager can reach the create form; for them the outcome is the check chain's |
| FrontendTripsPage.OnlyManagersPostTrips | frontend/src/pages/TripsPage.jsx:21-22 | every posted trip comes from a managing role; a Dispatcher never posts |
| FrontendTripsPage.HandleComplete | frontend/src/pages/TripsPage.jsx:68-81 | an empty end reading sends nothing; otherwise the completion request for the row |
| FrontendTripsPage.VisibleActionsAsWritten | frontend/src/pages/TripsPage.jsx:110-124 | as rendered, the buttons follow the row's status alone |
| FrontendTripsPage.ActionsShownToEveryRole | frontend/src/pages/TripsPage.jsx:111 | a role meant to be kept out of the actions column still gets Dispatch on a Draft row |
| FrontendTripsPage.VisibleActions | frontend/src/pages/TripsPage.jsx:21-22 | intended: each button appears iff the role is Admin or Manager and the row's status offers it |
| FrontendTripsPage.IntendedActionsRestrictRendered | frontend/src/pages/TripsPage.jsx:110-124 | the intended buttons are the rendered ones for Admin and Manager, none for other roles |
| FrontendTripsPage.RowRequestAsWritten | frontend/src/pages/TripsPage.jsx:59-91 | a request is sent only for a rendered button and is addressed to that row's trip; completing sends the entered reading; cancelling needs confirmation |
| FrontendTripsPage.RowRequest | frontend/src/pages/TripsPage.jsx:59-91 | with the column hidden as intended, only managing roles send requests, each addressed to the row's trip |
| FrontendTripsPage.CreateAgreesWithLocalPage | frontend/src/pages/TripsPage.jsx:27-48 | both trips pages reject the same forms with the same error and otherwise create the same trip |
| Lifecycle.UiStepAdvances | src/pages/TripsPage.jsx:62-70 | through the buttons, trip statuses only move along Draft→Dispatched→Completed or to Cancelled; ids, vehicles and drivers of trips never change |
| Lifecycle.TerminalStaysTerminal | src/pages/TripsPage.jsx:62-70 | a Completed or Cancelled trip keeps its status through any button press |
| Lifecycle.CompleteTwiceCountsOnce | src/context/AppContext.jsx:73-82 | completing through the page twice raises the driver's trip counter by exactly one |
| Lifecycle.DispatchRow | src/context/AppContext.jsx:63-72 | with unique trip ids, dispatching a row changes exactly that trip, its vehicle and its driver |
| Lifecycle.CancelDispatchedRow | src/context/AppContext.jsx:83-92 | cancelling a Dispatched row frees exactly its vehicle and driver |
| Lifecycle.DispatchThenCancelRestores | src/context/AppContext.jsx:63-92 | dispatch then cancel restores every vehicle and driver when the vehicle was Available and the driver On Duty |
| Lifecycle.UiDispatchThenCancel | src/pages/TripsPage.jsx:62-69 | the same round trip through the row buttons |
| Lifecycle.SameVehicleDispatchedTwice | src/pages/TripsPage.jsx:62-63 | two Draft trips of one vehicle can both be dispatched: the second Dispatch button stays offered while the vehicle is On Trip |
| Lifecycle.CompleteAcceptsAnyReading | src/pages/TripsPage.jsx:45-50 | any end reading completes the trip and becomes the vehicle's odometer |
| Lifecycle.CreateThroughPage | src/pages/TripsPage.jsx:29-43 | a submitted form appends one Draft trip that fits its vehicle, has a licensed driver and starts at the vehicle's odometer |
| Lifecycle.SelectionImpliesStatus | src/pages/TripsPage.jsx:18-19 | ids picked from the selection lists name an Available vehicle and an On Duty driver |
| DriversPage.ToggleCategory | src/pages/DriversPage.jsx:40-45 | toggles membership of the category and leaves every other category's membership as it was |
| DriversPage.ToggleTwiceRestoresMembership | src/pages/DriversPage.jsx:40-45 | toggling twice restores which categories are listed |
| DriversPage.ToggleOnOffIsIdentity | src/pages/DriversPage.jsx:40-45 | toggling an absent category on and off gives back the same list |
| DriversPage.HandleSave | src/pages/DriversPage.jsx:29-38 | an edit patches the edited driver's id with the form's name, phone, license data and safety score; a new driver carries the same form fields, is On Duty with no completed trips and joins today |
| DriversPage.AddDriverThroughPage | src/pages/DriversPage.jsx:35 | a new driver is appended On Duty with zero trips and a fresh id |
| DriversPage.EditDriverThroughPage | src/pages/DriversPage.jsx:33 | an edit changes only the matching drivers' data and keeps their status and trip counter |
| DriversPage.CompletionRate | src/pages/DriversPage.jsx:47-52 | the dash exactly when the driver has no trips, otherwise the driver's Completed share as a percentage rounded half up, within 0..100 |
| DriversPage.CompletionRateExtremes | src/pages/DriversPage.jsx:47-52 | all trips Completed gives 100, none Completed gives 0 |
| DriversPage.CompletingTripKeepsShare | src/pages/DriversPage.jsx:48-50 | marking one trip Completed keeps each driver's trip count and never lowers the Completed count |
| DriversPage.CompletingTripNeverLowersRate | src/pages/DriversPage.jsx:47-52 | completing a trip never lowers a driver's rate and never turns a dash into a rate or back |
| DriversPage.ExpiredAgreesWithAllocation | src/pages/DriversPage.jsx:74 | a flagged driver is valid for no vehicle; an unflagged one exactly for the listed categories |
| DriversPage.ExpiryPersists | src/pages/DriversPage.jsx:74 | a driver flagged today stays flagged on every later day |
| DriversPage.SafetyColour | src/pages/DriversPage.jsx:83 | green from 85, amber from 70 below 85, red below 70 |
| DriversPage.SafetyColourMonotone | src/pages/DriversPage.jsx:83 | a higher score never shows a worse colour |
| DriversPage.StatusTargets | src/pages/DriversPage.jsx:102-108 | no buttons for an On Trip driver; otherwise On Duty, Off Duty and Suspended except the current status |
| DriversPage.StatusButton | src/pages/DriversPage.jsx:102-108 | a button fires only when rendered, setting that driver's status |
| DriversPage.StatusButtonsLeaveOnTrip | src/pages/DriversPage.jsx:102-108 | the buttons never move a driver into or out of On Trip |
| VehiclesPage.HandleSave | src/pages/VehiclesPage.jsx:18-27 | both carry the form's name, model, plate, type, region, capacity, odometer and cost (0 when empty); an edit keeps the vehicle's id and snapshot status; a new vehicle is Available and acquired today |
| VehiclesPage.AddVehicleThroughPage | src/pages/VehiclesPage.jsx:24 | a new vehicle is appended Available with a fresh id |
| VehiclesPage.EditVehicleThroughPage | src/pages/VehiclesPage.jsx:22 | an edit overwrites only the vehicles with the edited id, writing back the snapshot status |
| VehiclesPage.RetireTarget | src/pages/VehiclesPage.jsx:30 | Retired becomes Available and every other status Retired |
| VehiclesPage.RetireTwice | src/pages/VehiclesPage.jsx:30 | two toggles restore Available or Retired, but turn On Trip and In Shop into Available |
| VehiclesPage.ToggleRetire | src/pages/VehiclesPage.jsx:29-31 | the toggle sets the row's own id to the toggled status |
| VehiclesPage.ToggleRetireTwice | src/pages/VehiclesPage.jsx:29-31 | toggling a row twice through the reducer touches no other vehicle |
| VehiclesPage.DeleteButton | src/pages/VehiclesPage.jsx:46 | the delete button targets the row's own id |
| VehiclesPage.DeleteThroughPage | src/pages/VehiclesPage.jsx:46 | deleting removes exactly the vehicles with that id |
| MaintenancePage.ServicePool | src/pages/MaintenancePage.jsx:22 | the service form offers exactly the non-Retired vehicles, in order |
| MaintenancePage.PoolKeepsVehiclesOnTrip | src/pages/MaintenancePage.jsx:22 | a vehicle On Trip is still offered |
| MaintenancePage.HandleAdd | src/pages/MaintenancePage.jsx:15-20 | the payload carries the form's vehicle, service type, description, service date, next due date and numeric cost, and no status |
| MaintenancePage.LogServiceThroughPage | src/pages/MaintenancePage.jsx:17 | logging appends one In Progress log and sends only that vehicle In Shop |
| MaintenancePage.MarkComplete | src/pages/MaintenancePage.jsx:39-40 | offered exactly for In Progress logs, carrying the log's own id and vehicle id |
| MaintenancePage.MarkCompleteEffect | src/pages/MaintenancePage.jsx:39-40 | Mark Complete closes only that log and frees only its vehicle; on a closed log nothing happens |
| MaintenancePage.CompletingOneOfTwoOpenLogs | src/context/AppContext.jsx:101-106 | with two open logs on one vehicle, completing one frees the vehicle while the other stays open |
| MaintenancePage.ServiceRoundTrip | src/pages/MaintenancePage.jsx:15-40 | logging a service on an Available vehicle and completing it restores every vehicle record |
| DataTable.Stringify | frontend/src/components/ui/DataTable.jsx:14 | strings stay as they are; numbers print in decimal |
| DataTable.Search | frontend/src/components/ui/DataTable.jsx:11-16 | an order-preserving subsequence holding exactly the rows some column matches, or all rows for an empty search |
| DataTable.EmptySearchKeepsAll | frontend/src/components/ui/DataTable.jsx:12 | an empty search keeps every row |
| DataTable.NoAccessorNeverMatches | frontend/src/components/ui/DataTable.jsx:13 | a column without an accessor never matches a non-empty search |
| DataTable.SearchIgnoresCase | frontend/src/components/ui/DataTable.jsx:14 | searching for the lower-case form gives the same rows |
| DataTable.SortCell | frontend/src/components/ui/DataTable.jsx:22-23 | a column without an accessor reads as undefined |
| DataTable.CompareRows | frontend/src/components/ui/DataTable.jsx:18-28 | no order without a selected column; a null left cell compares greater and a null right cell smaller |
| DataTable.DescendingNegatesAscending | frontend/src/components/ui/DataTable.jsx:24-27 | for two values, descending is ascending negated; a null left cell compares greater in both directions |
| DataTable.SortRows | frontend/src/components/ui/DataTable.jsx:18-28 | the sorted rows are a permutation of the filtered rows |
| DataTable.UnsortedKeepsOrder | frontend/src/components/ui/DataTable.jsx:19-21 | with no column, or an unknown one, the order is kept |
| DataTable.SortPutsNullsLast | frontend/src/components/ui/DataTable.jsx:24-25 | rows with a null cell come after all the others |
| DataTable.SortsNumbers | frontend/src/components/ui/DataTable.jsx:26-27 | numeric columns sort ascending or descending by value |
| DataTable.SortsStrings | frontend/src/components/ui/DataTable.jsx:26-27 | text columns sort ascending or descending by string order |
| DataTable.TotalPages | frontend/src/components/ui/DataTable.jsx:30 | the page count is the ceiling of rows over page size |
| DataTable.PageOf | frontend/src/components/ui/DataTable.jsx:31 | a page holds at most page-size rows; pages in range are non-empty, those past the end empty |
| DataTable.PagesCoverAll | frontend/src/components/ui/DataTable.jsx:30-31 | the pages one after another give back the sorted rows |
| DataTable.PrevPage | frontend/src/components/ui/DataTable.jsx:78 | steps back one page, stopping at the first |
| DataTable.NextPage | frontend/src/components/ui/DataTable.jsx:80 | steps forward one page, stopping at the last |
| DataTable.PagerStaysInRange | frontend/src/components/ui/DataTable.jsx:76-80 | previous and next keep the page within 0 to the last page |
| DataTable.HandleSort | frontend/src/components/ui/DataTable.jsx:33-36 | the current column flips direction; a new column is selected ascending |
| DataTable.SortTwiceRestores | frontend/src/components/ui/DataTable.jsx:33-36 | clicking the current column twice restores the state |
| DataTable.HeaderClick | frontend/src/components/ui/DataTable.jsx:54 | only sortable headers react to a click |
| DataTable.SetSearch | frontend/src/components/ui/DataTable.jsx:44 | a new search resets the page to the first |
| DataTable.View | frontend/src/components/ui/DataTable.jsx:31 | at most page-size rows are on screen |
| DataTable.ViewShowsMatches | frontend/src/components/ui/DataTable.jsx:11-31 | every row on screen is a data row that matches the search |
| DataTable.NewSearchShowsFirstPage | frontend/src/components/ui/DataTable.jsx:44 | after a search some row matches, the first page shows at least one row |
| Kpis.StatusCount | src/pages/DashboardPage.jsx:20-22 | a status count never exceeds the fleet |
| Kpis.StatusCountZero | src/pages/DashboardPage.jsx:20-22 | a count is zero exactly when no vehicle has the status |
| Kpis.StatusCountsCover | src/pages/DashboardPage.jsx:27-31 | the four status counts sum to at most the fleet, and to all of it when every status is in the schema |
| Kpis.Utilisation | src/pages/DashboardPage.jsx:23 | 0 for an empty fleet, otherwise the On Trip share as a percentage rounded half up, within 0..100 |
| Kpis.UtilisationExtremes | src/pages/DashboardPage.jsx:23 | a fully used fleet reads 100 and an idle one 0 |
| Kpis.OnDutyDrivers | src/pages/DashboardPage.jsx:25 | the count never exceeds the drivers |
| Kpis.OnDutyDriversOnlyCountsWorking | src/pages/DashboardPage.jsx:25 | zero exactly when no driver is On Duty or On Trip |
| Kpis.SliceFor | src/pages/DashboardPage.jsx:27-32 | a status has a slice exactly when its count is positive, and the slice shows that count |
| Kpis.StatusData | src/pages/DashboardPage.jsx:27-32 | at most four slices |
| Kpis.StatusDataSlices | frontend/src/pages/DashboardPage.jsx:74-79 | no slice is zero, and each slice shows its status count |
| Kpis.StatusDataNames | src/pages/DashboardPage.jsx:27-32 | every schema status with vehicles has its slice |
| Kpis.StatusDataTotal | src/pages/DashboardPage.jsx:27-32 | dropping empty slices loses nothing: the slices sum to the four counts |
| Kpis.TripCount | src/pages/DashboardPage.jsx:34-39 | a trip count never exceeds the trips |
| Kpis.TripsByStatus | src/pages/DashboardPage.jsx:34-39 | four bars in the order Draft, Dispatched, Completed, Cancelled, each showing its count |
| Kpis.TripCountsCover | src/pages/DashboardPage.jsx:34-39 | the bars sum to at most the trips, and to all of them when every status is in the schema |
| Kpis.RecentTrips | src/pages/DashboardPage.jsx:48 | the list has five trips, or all of them when there are fewer |
| Kpis.SortedNewestFirst | src/pages/DashboardPage.jsx:48 | the sort orders trips newest first |
| Kpis.RecentTripsPrefix | src/pages/DashboardPage.jsx:48 | the list is the first entries of the sorted trips |
| Kpis.RecentTripsNewestFirst | frontend/src/pages/DashboardPage.jsx:95 | the list is ordered newest first |
| Kpis.RecentTripsKnown | src/pages/DashboardPage.jsx:48 | the list shows only stored trips |
| Kpis.RecentTripsMissNothingNewer | src/pages/DashboardPage.jsx:48 | no trip newer than the oldest one shown is left out |
| Kpis.CompletedRevenueAppend | frontend/src/pages/DashboardPage.jsx:145 | the Completed revenue adds up over any split of the trips |
| Kpis.CompletedRevenueIgnoresOpenTrips | frontend/src/pages/DashboardPage.jsx:145 | trips that are not Completed add no revenue |
| Kpis.TruthyRevenueIsTotal | src/pages/DashboardPage.jsx:79 | skipping trips without revenue changes nothing: the total is every trip's revenue, whatever its status |
| Kpis.FuelCostAppend | src/pages/DashboardPage.jsx:41 | an expense adds its cost to the fuel total exactly when it is a Fuel expense |
| Kpis.MaintenanceCostAppend | src/pages/DashboardPage.jsx:42 | a log adds its cost to the maintenance total |
| Metrics.RoundPercent | src/pages/DashboardPage.jsx:23 | `Math.round(100 * part / whole)`, rounding half up, and within 0..100 when the part does not exceed the whole |
| Metrics.RoundPercentAntitone | frontend/src/pages/DashboardPage.jsx:65 | a larger denominator never gives a larger percentage |
| Sorting.Sort | src/pages/DashboardPage.jsx:48 | the result is a permutation of the input |
| Sorting.SortOrdered | frontend/src/components/ui/DataTable.jsx:18-28 | under a consistent comparator, the result is ordered |
| Sorting.SortKeepsTies | frontend/src/components/ui/DataTable.jsx:19 | when the comparator never orders one element before another, the input order is kept |
| Dashboard.FilteredVehicles | src/pages/DashboardPage.jsx:15-18 | an order-preserving subsequence holding exactly the vehicles both filters select |
| Dashboard.NoFilterSelectsAll | src/pages/DashboardPage.jsx:15-18 | with both filters on "All" every vehicle is selected |
| Dashboard.Summarise | src/pages/DashboardPage.jsx:20-48 | KPI counts over all vehicles within the fleet; utilisation 0 for no vehicles, otherwise the rounded On Trip share of all vehicles, within 0..100; revenue is every trip's revenue |
| Dashboard.ChipPanelShownEmpty | src/pages/DashboardPage.jsx:146 | as written, a status filter matching nothing shows an empty panel, while a type filter matching nothing shows none |
| Dashboard.ChipPanelShownIffMatches | src/pages/DashboardPage.jsx:146-148 | intended: the panel shows exactly when a filter is active and some vehicle passes it |
| FrontendDashboard.FilteredVehicles | frontend/src/pages/DashboardPage.jsx:41-45 | an order-preserving subsequence holding exactly the vehicles all three filters select, "All" imposing nothing |
| FrontendDashboard.RegionNarrowsLocal | frontend/src/pages/DashboardPage.jsx:41-45 | the selection is the local dashboard's type-and-status selection narrowed to the region |
| FrontendDashboard.VehicleIds | frontend/src/pages/DashboardPage.jsx:47 | the id set holds exactly the ids of the vehicles |
| FrontendDashboard.FilteredTrips | frontend/src/pages/DashboardPage.jsx:49-51 | a trip is kept, in order, iff its vehicle id belongs to a selected vehicle |
| FrontendDashboard.FilteredMaintenance | frontend/src/pages/DashboardPage.jsx:53-55 | a log is kept, in order, iff its vehicle id belongs to a selected vehicle |
| FrontendDashboard.FilteredExpenses | frontend/src/pages/DashboardPage.jsx:57-59 | an expense is kept, in order, iff its vehicle id belongs to a selected vehicle |
| FrontendDashboard.UnfilteredTripsAreThoseOfRegisteredVehicles | frontend/src/pages/DashboardPage.jsx:47-51 | with no filters a trip is kept exactly when its vehicle is registered |
| FrontendDashboard.TotalActive | frontend/src/pages/DashboardPage.jsx:64 | the non-Retired count never exceeds the vehicles |
| FrontendDashboard.OnTripWithinActive | frontend/src/pages/DashboardPage.jsx:61-64 | vehicles On Trip never outnumber the non-Retired ones |
| FrontendDashboard.Summarise | frontend/src/pages/DashboardPage.jsx:61-145 | counts within the non-Retired vehicles, which are within the selection; utilisation 0 with none active, otherwise the rounded On Trip share of the active vehicles, within 0..100; revenue of Completed selected trips |
| FrontendDashboard.ActiveCountsWithin | frontend/src/pages/DashboardPage.jsx:61-64 | Available, On Trip and In Shop together never exceed the non-Retired vehicles |
| FrontendDashboard.UtilisationAtLeastLocal | frontend/src/pages/DashboardPage.jsx:65 | never below the local dashboard's figure, and equal to it when no vehicle is Retired |
| FrontendDashboard.ActiveIsAllButRetired | frontend/src/pages/DashboardPage.jsx:64 | the non-Retired and Retired counts add up to the selection |
| Routes.Protect | src/App.jsx:14-19 | unauthenticated goes to /login; a role outside the allowed list goes to "/"; otherwise the page renders |
| Routes.Lookup | src/App.jsx:30-36 | a route is found exactly when the table has its path |
| Routes.Navigate | src/App.jsx:21-50 | /login or no session renders the login page; every redirect goes to "/" |
| Routes.LoginRedirectUnreachable | src/App.jsx:16 | no navigation ever ends in the /login redirect |
| Routes.NavigateDecides | src/App.jsx:30-37 | a known path is decided by its route's guard; an unknown path redirects to "/" |
| Routes.UniquePaths | src/App.jsx:30-36 | no two routes share a path |
| Routes.HomeAlwaysRenders | src/App.jsx:30 | the dashboard renders for every signed-in user |
| Routes.RoleRestrictions | src/App.jsx:33-36 | maintenance renders only for Managers; expenses and analytics only for Managers and Financial Analysts |
| Sidebar.VisibleNav | src/components/layout/Sidebar.jsx:25-27 | items shown exactly when the role is listed, in menu order; none without a user |
| Sidebar.NavMatchesRoutes | src/components/layout/Sidebar.jsx:10-18 | the menu lists the routes' paths in order, each non-dashboard item with its route's roles, the dashboard for all four roles |
| Sidebar.VisibleIffRenders | src/components/layout/Sidebar.jsx:27 | for the four roles, an item is shown exactly when following it renders its page and hidden exactly when it redirects to "/" |

## Left out

- The backend is not part of this model. This covers the Express routes, Mongoose models, authentication, and the server-side trip and maintenance routes. Its schema files contribute only the status strings.
- The API front end's store is not part of this model. This covers `fetch`, `refreshData`, request failures and the `finally` that clears `isSaving`. `FrontendTripsPage.HandleCreate` stops at the request it sends.
- Persistence in `localStorage` is left out. The initial state is the parameter `initial`.
- The clock is left out. `Date.now()` and `new Date()` become the parameters `now` and `today`. ISO timestamps are integers, compared as the `Date` subtraction does.
- `Number()` parsing is left out. Forms carry parsed integers, and an empty optional field is `None`. `NaN` and fractional inputs are not modelled.
- Floating point is left out. `Math.round` of a ratio is exact rounding, half up, on integers.
- `localeCompare` is modelled as character order, and `toLowerCase` lowers ASCII letters only.
- Text.StrLess: compares Unicode scalar values where JavaScript compares UTF-16 code units. The two orders differ only for characters outside the Basic Multilingual Plane.
- DataTable.CompareRows: a number on the left compared with a non-number counts as equal. In JavaScript a numeric string is first converted (`5 - "3"` is 2), so such a pair is ordered by value there. Only a non-numeric string gives `NaN`, which the sort reads as 0. The value-order lemmas therefore assume a column of numbers only or strings only.
- DataTable.SortPutsNullsLast: holds for the model's stable insertion sort. Two null cells compare as 1 both ways, so the comparator is not consistent. `Array.prototype.sort` then leaves the order implementation-defined, so the lemma does not promise this for every JavaScript engine.
- Populated `vehicleId` objects (`t.vehicleId?._id`) are left out. Records carry plain ids.
- The reducer's default branch is left out, because every action is one of the modelled ones.
- `expiringDrivers` on the drivers page is left out, because it does millisecond arithmetic against the real clock.
- The API dashboard's mocked previous-month cost trend is left out.
- Rendering is left out: charts, modals, KPI cards, status pills, the login page, and the sidebar's collapse and mobile state. The expenses and analytics pages are left out apart from their routes.
- React Router's matching is reduced to exact path lookup with a catch-all.
- DataTable keeps its page when the sort or the data changes. The model states the page bounds only for steps taken with the pager.
- Dashboard.Summarise states bounds, the utilisation rounding and the revenue identity. The other figures are stated by the `Kpis` functions and lemmas it is built from.
- FrontendDashboard.Summarise likewise states bounds, the utilisation rounding and the revenue identity. The other figures are stated by the `Kpis` and `FrontendDashboard` functions and lemmas.

## Findings

| source | as written | input that shows it | evidently intended | confidence | as-written member | corrected member |
|---|---|---|---|---|---|---|
| src/pages/DashboardPage.jsx:146 | `filtered.length > 0 && typeFilter !== 'All' \|\| statusFilter !== 'All'` groups as `(A && B) \|\| C` | status filter "In Shop" with no vehicle In Shop shows an empty "Filtered Vehicles (0)" panel; a type filter matching nothing shows no panel | `filtered.length > 0 && (typeFilter !== 'All' \|\| statusFilter !== 'All')` | medium, not executed | Dashboard.ChipPanelShownEmpty | Dashboard.ChipPanelShownIffMatches |
| frontend/src/pages/TripsPage.jsx:111 | the actions column carries `hidden: !canManage`, but the table renders every column and never reads `hidden` | a Dispatcher viewing a Draft trip gets the Dispatch button | the actions column is rendered only for Admin and Manager, as the "New Trip" button already is | high, not executed | FrontendTripsPage.ActionsShownToEveryRole | FrontendTripsPage.IntendedActionsRestrictRendered |

=== FILE: allocation.dfy ===
/** The checks both trips pages run before creating a trip: the referenced
    vehicle and driver must exist, the cargo must fit, and the driver's
    license must be valid for the vehicle type on the given day. Both pages
    carry identical copies of `isLicenseValid` and of the check chain in
    `handleCreate`; they are defined once here. */
module Allocation {
  import opened Basics
  import opened Text
  import opened Fleet

  /** `isLicenseValid(driver, vehicleType)` with `today` (an ISO date string
      `YYYY-MM-DD`) passed in instead of read from the clock. */
  function LicenseValid(driver: Option<Driver>, vehicleType: string, today: string): (ok: bool)
    ensures driver.None? ==> !ok
    ensures driver.Some? && StrLess(driver.value.licenseExpiry, today) ==> !ok
    ensures driver.Some? && vehicleType !in driver.value.licenseCategories ==> !ok
    ensures (driver.Some? && !StrLess(driver.value.licenseExpiry, today)
             && vehicleType in driver.value.licenseCategories) ==> ok
  {
    match driver
    case None => false
    case Some(d) =>
      if StrLess(d.licenseExpiry, today) then false
      else if vehicleType !in d.licenseCategories then false
      else true
  }

  /** The comparison is strict, so a license that expires today is still
      valid today. */
  lemma ExpiringTodayStillValid(d: Driver, vehicleType: string, today: string)
    requires d.licenseExpiry == today
    ensures LicenseValid(Some(d), vehicleType, today) <==> vehicleType in d.licenseCategories
  {
    StrLessIrreflexive(today);
  }

  /** A license whose expiry date is later than today is valid for exactly
      the categories it lists, and one dated earlier is valid for none. */
  lemma ValidityFollowsExpiryOrder(d: Driver, vehicleType: string, today: string)
    ensures StrLess(today, d.licenseExpiry) ==>
      (LicenseValid(Some(d), vehicleType, today) <==> vehicleType in d.licenseCategories)
    ensures StrLess(d.licenseExpiry, today) ==> !LicenseValid(Some(d), vehicleType, today)
  {
    StrLessAsymmetric(today, d.licenseExpiry);
  }

  /** The create-trip form after its numeric fields have been parsed. An
      empty revenue field is `None`. */
  datatype TripForm = TripForm(
    vehicleId: string,
    driverId: string,
    origin: string,
    destination: string,
    cargoWeight: int,
    revenue: Option<int>)

  /** The message kinds `handleCreate` shows, with the values they quote. */
  datatype CreateError =
    | MissingSelection
    | CapacityExceeded(weight: int, limit: int)
    | LicenseInvalid(vehicleType: string)

  /** The first vehicle carrying the given id, if any. */
  function VehicleById(vehicles: seq<Vehicle>, id: string): (r: Option<Vehicle>)
    ensures r.None? <==> forall i :: 0 <= i < |vehicles| ==> vehicles[i].id != id
    ensures r.Some? ==> r.value in vehicles && r.value.id == id
    ensures r.Some? ==> exists k :: 0 <= k < |vehicles| && vehicles[k] == r.value
                                    && forall j :: 0 <= j < k ==> vehicles[j].id != id
  {
    Find(vehicles, (v: Vehicle) => v.id == id)
  }

  /** The first driver carrying the given id, if any. */
  function DriverById(drivers: seq<Driver>, id: string): (r: Option<Driver>)
    ensures r.None? <==> forall i :: 0 <= i < |drivers| ==> drivers[i].id != id
    ensures r.Some? ==> r.value in drivers && r.value.id == id
    ensures r.Some? ==> exists k :: 0 <= k < |drivers| && drivers[k] == r.value
                                    && forall j :: 0 <= j < k ==> drivers[j].id != id
  {
    Find(drivers, (d: Driver) => d.id == id)
  }

  /** The check chain of `handleCreate`: the first failing check is reported,
      in the order missing selection, capacity, license. `None` means every
      check passed. */
  function Validate(vehicles: seq<Vehicle>, drivers: seq<Driver>, form: TripForm, today: string): (r: Option<CreateError>)
    ensures var v, d := VehicleById(vehicles, form.vehicleId), DriverById(drivers, form.driverId);
      && (r == Some(MissingSelection) <==> v.None? || d.None?)
      && (v.Some? && d.Some? && form.cargoWeight > v.value.maxCapacity ==>
            r == Some(CapacityExceeded(form.cargoWeight, v.value.maxCapacity)))
      && (v.Some? && d.Some? && form.cargoWeight <= v.value.maxCapacity
          && !LicenseValid(d, v.value.vehicleType, today) ==>
            r == Some(LicenseInvalid(v.value.vehicleType)))
      && (r.None? <==> v.Some? && d.Some? && form.cargoWeight <= v.value.maxCapacity
                       && LicenseValid(d, v.value.vehicleType, today))
  {
    match (VehicleById(vehicles, form.vehicleId), DriverById(drivers, form.driverId))
    case (Some(v), Some(d)) =>
      if form.cargoWeight > v.maxCapacity then Some(CapacityExceeded(form.cargoWeight, v.maxCapacity))
      else if !LicenseValid(Some(d), v.vehicleType, today) then Some(LicenseInvalid(v.vehicleType))
      else None
    case _ => Some(MissingSelection)
  }

  /** A cargo exactly at the vehicle's limit passes the capacity check. */
  lemma FullLoadAccepted(vehicles: seq<Vehicle>, drivers: seq<Driver>, form: TripForm, today: string)
    requires VehicleById(vehicles, form.vehicleId).Some? && DriverById(drivers, form.driverId).Some?
    requires form.cargoWeight == VehicleById(vehicles, form.vehicleId).value.maxCapacity
    requires LicenseValid(DriverById(drivers, form.driverId), VehicleById(vehicles, form.vehicleId).value.vehicleType, today)
    ensures Validate(vehicles, drivers, form, today).None?
  {
  }

  /** The vehicles offered in the create form: the Available ones, in
      registry order. */
  function SelectableVehicles(vehicles: seq<Vehicle>): (r: seq<Vehicle>)
    ensures forall i :: 0 <= i < |r| ==> r[i].status == Available && r[i] in vehicles
    ensures forall i :: 0 <= i < |vehicles| && vehicles[i].status == Available ==> vehicles[i] in r
    ensures SubsequenceOf(r, vehicles)
  {
    Filter(vehicles, (v: Vehicle) => v.status == Available)
  }

  /** The drivers offered in the create form: the On Duty ones, in
      registry order. */
  function SelectableDrivers(drivers: seq<Driver>): (r: seq<Driver>)
    ensures forall i :: 0 <= i < |r| ==> r[i].status == OnDuty && r[i] in drivers
    ensures forall i :: 0 <= i < |drivers| && drivers[i].status == OnDuty ==> drivers[i] in r
    ensures SubsequenceOf(r, drivers)
  {
    Filter(drivers, (d: Driver) => d.status == OnDuty)
  }

  /** The three row actions of the trips table. */
  datatype TripAction = Dispatch | Complete | Cancel

  /** Whether a trip row with the given status renders the button. */
  predicate Offers(status: string, act: TripAction) {
    match act
    case Dispatch => status == Draft
    case Complete => status == Dispatched
    case Cancel => status == Draft || status == Dispatched
  }

  /** The action buttons rendered for a trip row with the given status, in
      the order they appear. */
  function OfferedActions(status: string): (r: seq<TripAction>)
    ensures forall act :: act in r <==> Offers(status, act)
    ensures |r| <= 2
  {
    (if status == Draft then [Dispatch] else [])
    + (if status == Dispatched then [Complete] else [])
    + (if status == Draft || status == Dispatched then [Cancel] else [])
  }
}

=== FILE: basics.dfy ===
/** Generic helpers over sequences that stand in for the JavaScript array
    methods the application relies on: `filter`, `find`, `map` with a
    conditional update, `reduce` into a sum, and `slice`. */
module Basics {

  /** A value that may be absent (JavaScript `null` / `undefined`). */
  datatype Option<+T> = None | Some(value: T) {
    function GetOr(default: T): T {
      match this
      case Some(v) => v
      case None => default
    }
  }

  /** `s.filter(p)`: the elements satisfying `p`, in their original order. */
  function Filter<T>(s: seq<T>, p: T -> bool): (r: seq<T>)
    ensures |r| <= |s|
    ensures forall i :: 0 <= i < |r| ==> p(r[i]) && r[i] in s
    ensures forall i :: 0 <= i < |s| && p(s[i]) ==> s[i] in r
    ensures SubsequenceOf(r, s)
  {
    if |s| == 0 then []
    else if p(s[0]) then [s[0]] + Filter(s[1..], p)
    else Filter(s[1..], p)
  }

  /** `r` is obtained from `s` by deleting elements, keeping the order. */
  ghost predicate SubsequenceOf<T>(r: seq<T>, s: seq<T>)
    decreases |s|
  {
    if |r| == 0 then true
    else if |s| == 0 then false
    else (r[0] == s[0] && SubsequenceOf(r[1..], s[1..])) || SubsequenceOf(r, s[1..])
  }

  /** The number of elements satisfying `p` (`s.filter(p).length`). */
  function Count<T>(s: seq<T>, p: T -> bool): (n: nat)
    ensures n <= |s|
  {
    |Filter(s, p)|
  }

  lemma {:induction false} CountAppend<T>(s: seq<T>, t: seq<T>, p: T -> bool)
    ensures Count(s + t, p) == Count(s, p) + Count(t, p)
  {
    if |s| == 0 {
      assert s + t == t;
    } else {
      assert (s + t)[1..] == s[1..] + t;
      CountAppend(s[1..], t, p);
    }
  }

  /** A weaker predicate counts at least as many elements. */
  lemma {:induction false} CountMonotone<T>(s: seq<T>, p: T -> bool, q: T -> bool)
    requires forall i :: 0 <= i < |s| && p(s[i]) ==> q(s[i])
    ensures Count(s, p) <= Count(s, q)
  {
    if |s| > 0 {
      CountMonotone(s[1..], p, q);
      assert Count(s, p) == (if p(s[0]) then 1 else 0) + Count(s[1..], p);
      assert Count(s, q) == (if q(s[0]) then 1 else 0) + Count(s[1..], q);
    }
  }

  /** Filtering distributes over concatenation. */
  lemma {:induction false} FilterAppend<T>(s: seq<T>, t: seq<T>, p: T -> bool)
    ensures Filter(s + t, p) == Filter(s, p) + Filter(t, p)
  {
    if |s| == 0 {
      assert s + t == t;
    } else {
      assert (s + t)[1..] == s[1..] + t;
      FilterAppend(s[1..], t, p);
    }
  }

  /** Filtering by one predicate and then another is filtering once by a
      predicate that holds where both do. */
  lemma {:induction false} FilterFilter<T>(s: seq<T>, p: T -> bool, q: T -> bool, both: T -> bool)
    requires forall i :: 0 <= i < |s| ==> both(s[i]) == (p(s[i]) && q(s[i]))
    ensures Filter(Filter(s, p), q) == Filter(s, both)
  {
    if |s| > 0 {
      FilterFilter(s[1..], p, q, both);
      if p(s[0]) {
        assert ([s[0]] + Filter(s[1..], p))[1..] == Filter(s[1..], p);
      }
    }
  }

  /** Filtering with a predicate that holds everywhere keeps the sequence. */
  lemma {:induction false} FilterAll<T>(s: seq<T>, p: T -> bool)
    requires forall i :: 0 <= i < |s| ==> p(s[i])
    ensures Filter(s, p) == s
  {
    if |s| > 0 {
      FilterAll(s[1..], p);
    }
  }

  /** Two predicates that agree on the elements of `s` filter it alike. */
  lemma {:induction false} FilterCongruent<T>(s: seq<T>, p: T -> bool, q: T -> bool)
    requires forall i :: 0 <= i < |s| ==> p(s[i]) == q(s[i])
    ensures Filter(s, p) == Filter(s, q)
  {
    if |s| > 0 {
      FilterCongruent(s[1..], p, q);
    }
  }

  /** `s.find(p)`: the first element satisfying `p`, if any. */
  function Find<T>(s: seq<T>, p: T -> bool): (r: Option<T>)
    ensures r.None? <==> forall i :: 0 <= i < |s| ==> !p(s[i])
    ensures r.Some? ==> p(r.value)
    ensures r.Some? ==> exists i :: (0 <= i < |s| && s[i] == r.value
                                     && forall j :: 0 <= j < i ==> !p(s[j]))
  {
    if |s| == 0 then None
    else if p(s[0]) then Some(s[0])
    else
      var r := Find(s[1..], p);
      assert r.Some? ==> exists i :: (1 <= i < |s| && s[i] == r.value
                                      && forall j :: 1 <= j < i ==> !p(s[j]));
      r
  }

  /** Apply `f` to exactly the elements `sel` picks, in place. */
  function Update<T>(s: seq<T>, sel: T -> bool, f: T -> T): (r: seq<T>)
    ensures |r| == |s|
    ensures forall i :: 0 <= i < |s| ==> r[i] == if sel(s[i]) then f(s[i]) else s[i]
  {
    if |s| == 0 then []
    else [if sel(s[0]) then f(s[0]) else s[0]] + Update(s[1..], sel, f)
  }

  /** An update whose selector matches nothing leaves the sequence as it was. */
  lemma UpdateNone<T>(s: seq<T>, sel: T -> bool, f: T -> T)
    requires forall i :: 0 <= i < |s| ==> !sel(s[i])
    ensures Update(s, sel, f) == s
  {
  }

  /** The total of `f` over the elements, starting from 0. */
  function Sum<T>(s: seq<T>, f: T -> int): int
  {
    if |s| == 0 then 0 else f(s[0]) + Sum(s[1..], f)
  }

  lemma {:induction false} SumAppend<T>(s: seq<T>, t: seq<T>, f: T -> int)
    ensures Sum(s + t, f) == Sum(s, f) + Sum(t, f)
  {
    if |s| == 0 {
      assert s + t == t;
    } else {
      assert (s + t)[1..] == s[1..] + t;
      SumAppend(s[1..], t, f);
    }
  }

  /** JavaScript `s.slice(from, to)` for non-negative bounds: both ends are
      clamped to the length, and an empty sequence results when they cross. */
  function Slice<T>(s: seq<T>, from: nat, to: nat): (r: seq<T>)
    ensures |r| <= |s|
    ensures from <= to <= |s| ==> r == s[from..to]
    ensures to <= from || |s| <= from ==> r == []
  {
    var hi := if to <= |s| then to else |s|;
    var lo := if from <= hi then from else hi;
    s[lo..hi]
  }

  /** Every id in `s` (read through `key`) occurs once. */
  ghost predicate UniqueKeys<T>(s: seq<T>, key: T -> string) {
    forall i, j :: 0 <= i < |s| && 0 <= j < |s| && key(s[i]) == key(s[j]) ==> i == j
  }
}

=== FILE: dashboard.dfy ===
/** The command centre of the local-store application
    (src/pages/DashboardPage.jsx). Its key figures and charts are computed
    over every record in the store; the type and status filters only drive
    the panel of vehicle chips at the bottom of the page. */
module Dashboard {
  import opened Basics
  import opened Fleet
  import opened Kpis
  import opened Metrics

  /** The filter value that means "no filter". */
  const All: string := "All"

  datatype Filters = Filters(typeFilter: string, statusFilter: string)

  predicate Selected(v: Vehicle, f: Filters) {
    (f.typeFilter == All || v.vehicleType == f.typeFilter) && (f.statusFilter == All || v.status == f.statusFilter)
  }

  /** `filtered`: the vehicles the two filters select, in registry order. */
  function FilteredVehicles(vehicles: seq<Vehicle>, f: Filters): (r: seq<Vehicle>)
    ensures SubsequenceOf(r, vehicles)
    ensures forall i :: 0 <= i < |r| ==> Selected(r[i], f)
    ensures forall i :: 0 <= i < |vehicles| && Selected(vehicles[i], f) ==> vehicles[i] in r
  {
    Filter(vehicles, (v: Vehicle) => Selected(v, f))
  }

  /** With both filters on "All" every vehicle is selected. */
  lemma NoFilterSelectsAll(vehicles: seq<Vehicle>)
    ensures FilteredVehicles(vehicles, Filters(All, All)) == vehicles
  {
    FilterAll(vehicles, (v: Vehicle) => Selected(v, Filters(All, All)));
  }

  /** The key figures on the page. */
  datatype Summary = Summary(
    activeFleet: nat,
    inShop: nat,
    available: nat,
    utilisation: int,
    pendingTrips: nat,
    onDutyDrivers: nat,
    revenue: int,
    fuelCost: int,
    maintenanceCost: int,
    statusData: seq<PieSlice>,
    tripsByStatus: seq<Bar>,
    recentTrips: seq<Trip>)

  /** The figures over the whole store. Utilisation divides the vehicles On
      Trip by every vehicle, Retired ones included; the revenue card adds
      up every trip's revenue, whatever the trip's status. */
  function Summarise(s: AppState): (r: Summary)
    ensures r.activeFleet + r.inShop + r.available <= |s.vehicles|
    ensures 0 <= r.utilisation <= 100
    ensures |s.vehicles| == 0 ==> r.utilisation == 0
    ensures |s.vehicles| > 0 ==> RoundedPercent(r.utilisation, r.activeFleet, |s.vehicles|)
    ensures r.onDutyDrivers <= |s.drivers| && r.pendingTrips <= |s.trips|
    ensures r.revenue == Sum(s.trips, (t: Trip) => t.revenue.GetOr(0))
    ensures |r.recentTrips| <= 5 && |r.statusData| <= 4 && |r.tripsByStatus| == 4
  {
    StatusCountsCover(s.vehicles);
    TruthyRevenueIsTotal(s.trips);
    var onTrip := StatusCount(s.vehicles, OnTrip);
    var u := Utilisation(onTrip, |s.vehicles|);
    Summary(onTrip, StatusCount(s.vehicles, InShop), StatusCount(s.vehicles, Available), u, TripCount(s.trips, Draft), OnDutyDrivers(s.drivers),
            TruthyRevenue(s.trips), FuelCost(s.expenses), MaintenanceCost(s.maintenance),
            StatusData(s.vehicles), TripsByStatus(s.trips), RecentTrips(s.trips))
  }

  /** The chip panel's condition as written: a non-empty selection, an
      active type filter and an active status filter are joined by `&&` and
      `||` without parentheses, so the status test alone is enough to show
      the panel. */
  predicate ChipPanelAsWritten(filtered: seq<Vehicle>, f: Filters) {
    (|filtered| > 0 && f.typeFilter != All) || f.statusFilter != All
  }

  /** With a status filter that matches nothing, the condition as written
      still shows the panel, headed "Filtered Vehicles (0)" and empty, while
      a type filter that matches nothing shows no panel. */
  lemma ChipPanelShownEmpty(vehicles: seq<Vehicle>, status: string, vehicleType: string)
    requires status != All && vehicleType != All
    requires forall i :: 0 <= i < |vehicles| ==> vehicles[i].status != status && vehicles[i].vehicleType != vehicleType
    ensures var f := Filters(All, status);
      FilteredVehicles(vehicles, f) == [] && ChipPanelAsWritten(FilteredVehicles(vehicles, f), f)
    ensures var g := Filters(vehicleType, All);
      FilteredVehicles(vehicles, g) == [] && !ChipPanelAsWritten(FilteredVehicles(vehicles, g), g)
  {
  }

  /** The panel as evidently intended: some filter is active and it selects
      at least one vehicle. */
  predicate ChipPanel(filtered: seq<Vehicle>, f: Filters) {
    |filtered| > 0 && (f.typeFilter != All || f.statusFilter != All)
  }

  /** With the intended condition the panel appears exactly when a filter is
      active and some vehicle passes it, for either filter alike. */
  lemma ChipPanelShownIffMatches(vehicles: seq<Vehicle>, f: Filters)
    ensures ChipPanel(FilteredVehicles(vehicles, f), f) <==>
      (f.typeFilter != All || f.statusFilter != All) && exists i :: 0 <= i < |vehicles| && Selected(vehicles[i], f)
  {
    var r := FilteredVehicles(vehicles, f);
    if |r| > 0 {
      assert r[0] in vehicles;
    }
  }
}

=== FILE: data_table.dfy ===
/** The generic table of the API-backed front end
    (frontend/src/components/ui/DataTable.jsx): a case-insensitive search over
    every column, a click-to-sort header, and fixed-size pages. The view is
    `data` filtered by the search, sorted by the selected column, and sliced
    to the current page. */
module DataTable {
  import opened Basics
  import opened Text
  import opened Sorting
  import opened Metrics

  /** A value read from a row by a column's accessor. */
  datatype Cell = Undefined | Null | Num(n: int) | Str(s: string)

  /** `va == null`: true for both `null` and `undefined`. */
  predicate IsNullCell(c: Cell) {
    c.Undefined? || c.Null?
  }

  /** `String(val)`. */
  function Stringify(c: Cell): (r: string)
    ensures c.Str? ==> r == c.s
    ensures c.Num? ==> r == IntToString(c.n)
  {
    match c
    case Undefined => "undefined"
    case Null => "null"
    case Num(n) => IntToString(n)
    case Str(s) => s
  }

  /** A column: its key, how a cell is read from a row (a property name is
      the accessor that reads that property), and whether its header sorts
      (every column does unless it says otherwise). */
  datatype Column<!Row> = Column(key: string, accessor: Option<Row -> Cell>, sortable: bool)

  /** The text the search looks at in one cell: `''` for a column without
      an accessor. */
  function SearchText<Row>(col: Column<Row>, row: Row): string {
    match col.accessor
    case None => ""
    case Some(f) => Stringify(f(row))
  }

  /** `columns.some(...)`: some column's lower-cased text contains the
      lower-cased search. */
  predicate RowMatches<Row>(columns: seq<Column<Row>>, row: Row, search: string) {
    exists i :: 0 <= i < |columns| && Includes(Lower(SearchText(columns[i], row)), Lower(search))
  }

  /** `filtered`: with an empty search every row, otherwise the rows some
      column of which matches, in their original order. */
  function Search<Row>(rows: seq<Row>, columns: seq<Column<Row>>, search: string): (r: seq<Row>)
    ensures SubsequenceOf(r, rows)
    ensures forall i :: 0 <= i < |r| ==> r[i] in rows && (search == "" || RowMatches(columns, r[i], search))
    ensures forall i :: 0 <= i < |rows| && (search == "" || RowMatches(columns, rows[i], search)) ==> rows[i] in r
  {
    Filter(rows, (row: Row) => search == "" || RowMatches(columns, row, search))
  }

  /** An empty search box hides nothing. */
  lemma EmptySearchKeepsAll<Row>(rows: seq<Row>, columns: seq<Column<Row>>)
    ensures Search(rows, columns, "") == rows
  {
    FilterAll(rows, (row: Row) => "" == "" || RowMatches(columns, row, ""));
  }

  /** A column without an accessor never matches a non-empty search. */
  lemma NoAccessorNeverMatches<Row>(col: Column<Row>, row: Row, search: string)
    requires col.accessor.None? && search != ""
    ensures !Includes(Lower(SearchText(col, row)), Lower(search))
  {
  }

  /** Lower-casing is idempotent. */
  lemma LowerIdempotent(s: string)
    ensures Lower(Lower(s)) == Lower(s)
  {
  }

  /** The search ignores case: typing the lower-case form of a search keeps
      exactly the same rows in the same order. */
  lemma SearchIgnoresCase<Row>(rows: seq<Row>, columns: seq<Column<Row>>, search: string)
    ensures Search(rows, columns, Lower(search)) == Search(rows, columns, search)
  {
    LowerIdempotent(search);
    assert Lower(search) == "" <==> search == "";
    FilterCongruent(rows, (row: Row) => Lower(search) == "" || RowMatches(columns, row, Lower(search)),
                          (row: Row) => search == "" || RowMatches(columns, row, search));
  }

  datatype Direction = Asc | Desc

  /** The cell the sort reads: `a[undefined]` for a column without an
      accessor. */
  function SortCell<Row>(col: Column<Row>, row: Row): (c: Cell)
    ensures col.accessor.None? ==> c == Undefined
  {
    match col.accessor
    case None => Undefined
    case Some(f) => f(row)
  }

  /** The comparison of two non-null cells: a numeric left cell is compared
      by subtraction, anything else by comparing both cells as strings. A
      number against a non-number compares as 0 here. JavaScript would first
      convert a numeric string to its value; only a non-numeric one gives
      NaN, which the sort treats as 0. */
  function CompareValues(va: Cell, vb: Cell): int {
    match va
    case Num(x) => if vb.Num? then x - vb.n else 0
    case _ => StrCompare(Stringify(va), Stringify(vb))
  }

  /** The sort comparator: no order without a selected column, nulls after
      everything else whichever the direction, and otherwise the value
      comparison, negated for a descending sort. */
  function CompareRows<Row>(columns: seq<Column<Row>>, sortCol: Option<string>, dir: Direction, a: Row, b: Row): (r: int)
    ensures sortCol.None? || sortCol == Some("") ==> r == 0
    ensures sortCol.Some? && sortCol.value != "" && Find(columns, (c: Column<Row>) => c.key == sortCol.value).Some? ==>
      var col := Find(columns, (c: Column<Row>) => c.key == sortCol.value).value;
      && (IsNullCell(SortCell(col, a)) ==> r == 1)
      && (!IsNullCell(SortCell(col, a)) && IsNullCell(SortCell(col, b)) ==> r == -1)
  {
    if sortCol.None? || sortCol.value == "" then 0
    else match Find(columns, (c: Column<Row>) => c.key == sortCol.value)
      case None => 0
      case Some(col) =>
        var va, vb := SortCell(col, a), SortCell(col, b);
        if IsNullCell(va) then 1
        else if IsNullCell(vb) then -1
        else if dir == Asc then CompareValues(va, vb)
        else -CompareValues(va, vb)
  }

  function Comparer<Row>(columns: seq<Column<Row>>, sortCol: Option<string>, dir: Direction): Comparator<Row> {
    (a: Row, b: Row) => CompareRows(columns, sortCol, dir, a, b)
  }

  /** `sorted`: a stable sort of the filtered rows. */
  function SortRows<Row>(rows: seq<Row>, columns: seq<Column<Row>>, sortCol: Option<string>, dir: Direction): (r: seq<Row>)
    ensures multiset(r) == multiset(rows)
  {
    Sort(rows, Comparer(columns, sortCol, dir))
  }

  /** Until a header is clicked, and for a key no column carries, the rows
      keep their original order. */
  lemma UnsortedKeepsOrder<Row>(rows: seq<Row>, columns: seq<Column<Row>>, sortCol: Option<string>, dir: Direction)
    requires sortCol.None? || sortCol == Some("") || Find(columns, (c: Column<Row>) => c.key == sortCol.value).None?
    ensures SortRows(rows, columns, sortCol, dir) == rows
  {
    SortKeepsTies(rows, Comparer(columns, sortCol, dir));
  }

  /** The comparator with column `col` selected. */
  ghost predicate Selects<Row>(columns: seq<Column<Row>>, sortCol: Option<string>, col: Column<Row>) {
    sortCol.Some? && sortCol.value != "" && Find(columns, (c: Column<Row>) => c.key == sortCol.value) == Some(col)
  }

  /** What the comparator does once column `col` is selected. */
  lemma CompareSelected<Row>(columns: seq<Column<Row>>, sortCol: Option<string>, dir: Direction, col: Column<Row>, a: Row, b: Row)
    requires Selects(columns, sortCol, col)
    ensures var va, vb := SortCell(col, a), SortCell(col, b);
      CompareRows(columns, sortCol, dir, a, b) ==
        if IsNullCell(va) then 1
        else if IsNullCell(vb) then -1
        else if dir == Asc then CompareValues(va, vb)
        else -CompareValues(va, vb)
  {
  }

  /** For two cells with values, descending order is ascending order
      reversed; a null left cell compares greater in both directions. */
  lemma DescendingNegatesAscending<Row>(columns: seq<Column<Row>>, sortCol: Option<string>, col: Column<Row>, a: Row, b: Row)
    requires Selects(columns, sortCol, col)
    ensures !IsNullCell(SortCell(col, a)) && !IsNullCell(SortCell(col, b)) ==>
      CompareRows(columns, sortCol, Desc, a, b) == -CompareRows(columns, sortCol, Asc, a, b)
    ensures IsNullCell(SortCell(col, a)) ==>
      CompareRows(columns, sortCol, Desc, a, b) == CompareRows(columns, sortCol, Asc, a, b) == 1
  {
  }

  /** Sorting by a column puts every row with a null or undefined cell after
      every row with a value, ascending and descending alike. */
  lemma SortPutsNullsLast<Row>(rows: seq<Row>, columns: seq<Column<Row>>, sortCol: Option<string>, dir: Direction, col: Column<Row>)
    requires Selects(columns, sortCol, col)
    ensures var r := SortRows(rows, columns, sortCol, dir);
      forall i, j :: 0 <= i < j < |r| && IsNullCell(SortCell(col, r[i])) ==> IsNullCell(SortCell(col, r[j]))
  {
    SortKeepsLastGroup(rows, Comparer(columns, sortCol, dir), (row: Row) => IsNullCell(SortCell(col, row)));
  }

  /** Two numeric cells in the order of direction `dir`. */
  predicate NumbersInOrder(va: Cell, vb: Cell, dir: Direction) {
    va.Num? && vb.Num? && if dir == Asc then va.n <= vb.n else va.n >= vb.n
  }

  /** Two text cells in the order of direction `dir`. */
  predicate TextsInOrder(va: Cell, vb: Cell, dir: Direction) {
    va.Str? && vb.Str? && if dir == Asc then !StrLess(vb.s, va.s) else !StrLess(va.s, vb.s)
  }

  /** With every cell of the selected column a number, the ascending sort
      puts the numbers in non-decreasing order and the descending sort in
      non-increasing order. */
  lemma SortsNumbers<Row>(rows: seq<Row>, columns: seq<Column<Row>>, sortCol: Option<string>, dir: Direction, col: Column<Row>)
    requires Selects(columns, sortCol, col)
    requires forall i :: 0 <= i < |rows| ==> SortCell(col, rows[i]).Num?
    ensures var r := SortRows(rows, columns, sortCol, dir);
      forall i, j :: 0 <= i < j < |r| ==> NumbersInOrder(SortCell(col, r[i]), SortCell(col, r[j]), dir)
  {
    var cmp := Comparer(columns, sortCol, dir);
    var le := (a: Row, b: Row) => NumbersInOrder(SortCell(col, a), SortCell(col, b), dir);
    var r := Sort(rows, cmp);
    forall a | a in r ensures a in rows && SortCell(col, a).Num? {
      assert a in multiset(rows);
    }
    forall a, b | a in rows && b in rows
      ensures cmp(a, b) == if dir == Asc then SortCell(col, a).n - SortCell(col, b).n
                           else SortCell(col, b).n - SortCell(col, a).n
    {
      CompareSelected(columns, sortCol, dir, col, a, b);
    }
    assert ConsistentOn(rows, cmp);
    SortOrdered(rows, cmp);
    assert forall a, b :: a in r && b in r && cmp(a, b) <= 0 ==> le(a, b);
    OrderedPairwise(r, cmp, le);
  }

  /** On text cells the comparator is consistent, and its verdict "not
      above" means the two texts are in the order of the direction, which is
      transitive. */
  lemma TextComparer<Row>(rows: seq<Row>, columns: seq<Column<Row>>, sortCol: Option<string>, dir: Direction, col: Column<Row>)
    requires Selects(columns, sortCol, col)
    requires forall i :: 0 <= i < |rows| ==> SortCell(col, rows[i]).Str?
    ensures ConsistentOn(rows, Comparer(columns, sortCol, dir))
    ensures forall a, b :: a in rows && b in rows && CompareRows(columns, sortCol, dir, a, b) <= 0 ==>
      TextsInOrder(SortCell(col, a), SortCell(col, b), dir)
    ensures forall a, b, c ::
      (a in rows && b in rows && c in rows &&
       TextsInOrder(SortCell(col, a), SortCell(col, b), dir) && TextsInOrder(SortCell(col, b), SortCell(col, c), dir))
      ==> TextsInOrder(SortCell(col, a), SortCell(col, c), dir)
  {
    var cmp := Comparer(columns, sortCol, dir);
    forall a, b | a in rows && b in rows
      ensures cmp(a, b) == if dir == Asc then StrCompare(SortCell(col, a).s, SortCell(col, b).s)
                           else -StrCompare(SortCell(col, a).s, SortCell(col, b).s)
      ensures cmp(b, a) == -cmp(a, b)
      ensures cmp(a, b) <= 0 ==> TextsInOrder(SortCell(col, a), SortCell(col, b), dir)
    {
      CompareSelected(columns, sortCol, dir, col, a, b);
      CompareSelected(columns, sortCol, dir, col, b, a);
      StrCompareProperties(SortCell(col, a).s, SortCell(col, b).s);
      StrLessAsymmetric(SortCell(col, a).s, SortCell(col, b).s);
    }
    forall a, b, c | a in rows && b in rows && c in rows &&
      TextsInOrder(SortCell(col, a), SortCell(col, b), dir) && TextsInOrder(SortCell(col, b), SortCell(col, c), dir)
      ensures TextsInOrder(SortCell(col, a), SortCell(col, c), dir)
    {
      var sa, sb, sc := SortCell(col, a).s, SortCell(col, b).s, SortCell(col, c).s;
      if dir == Asc {
        NotLessTransitive(sa, sb, sc);
      } else {
        NotLessTransitive(sc, sb, sa);
      }
    }
  }

  /** With every cell of the selected column a string, the ascending sort
      puts the strings in code-unit order and the descending sort in the
      reverse order. */
  lemma SortsStrings<Row>(rows: seq<Row>, columns: seq<Column<Row>>, sortCol: Option<string>, dir: Direction, col: Column<Row>)
    requires Selects(columns, sortCol, col)
    requires forall i :: 0 <= i < |rows| ==> SortCell(col, rows[i]).Str?
    ensures var r := SortRows(rows, columns, sortCol, dir);
      forall i, j :: 0 <= i < j < |r| ==> TextsInOrder(SortCell(col, r[i]), SortCell(col, r[j]), dir)
  {
    var cmp := Comparer(columns, sortCol, dir);
    var le := (a: Row, b: Row) => TextsInOrder(SortCell(col, a), SortCell(col, b), dir);
    var r := Sort(rows, cmp);
    forall a | a in r ensures a in rows {
      assert a in multiset(rows);
    }
    TextComparer(rows, columns, sortCol, dir, col);
    SortOrdered(rows, cmp);
    OrderedPairwise(r, cmp, le);
  }

  // ---------------------------------------------------------- pagination

  /** `Math.ceil(n / pageSize)`. */
  function TotalPages(n: nat, pageSize: nat): (r: nat)
    requires pageSize > 0
    ensures n <= r * pageSize
    ensures r > 0 ==> (r - 1) * pageSize < n
  {
    (n + pageSize - 1) / pageSize
  }

  /** The rows of page `page` (counting from 0): the `page`-th run of
      `pageSize` sorted rows, cut short at the end. */
  function PageOf<Row>(rows: seq<Row>, page: nat, pageSize: nat): (r: seq<Row>)
    requires pageSize > 0
    ensures |r| <= pageSize
    ensures page < TotalPages(|rows|, pageSize) ==> 0 < |r|
    ensures page >= TotalPages(|rows|, pageSize) ==> r == []
  {
    var r := Slice(rows, page * pageSize, (page + 1) * pageSize);
    assert page >= TotalPages(|rows|, pageSize) ==> |rows| <= page * pageSize by {
      if page >= TotalPages(|rows|, pageSize) {
        MultiplyMonotone(pageSize, TotalPages(|rows|, pageSize), page);
      }
    }
    assert page < TotalPages(|rows|, pageSize) ==> page * pageSize < |rows| by {
      if page < TotalPages(|rows|, pageSize) {
        MultiplyMonotone(pageSize, page, TotalPages(|rows|, pageSize) - 1);
      }
    }
    r
  }

  /** The first `k` pages, one after another. */
  function Pages<Row>(rows: seq<Row>, k: nat, pageSize: nat): seq<Row>
    requires pageSize > 0
  {
    if k == 0 then [] else Pages(rows, k - 1, pageSize) + PageOf(rows, k - 1, pageSize)
  }

  lemma {:induction false} PagesPrefix<Row>(rows: seq<Row>, k: nat, pageSize: nat)
    requires pageSize > 0
    ensures Pages(rows, k, pageSize) == rows[..if k * pageSize <= |rows| then k * pageSize else |rows|]
  {
    if k > 0 {
      PagesPrefix(rows, k - 1, pageSize);
      MultiplyMonotone(pageSize, k - 1, k);
      var lo := if (k - 1) * pageSize <= |rows| then (k - 1) * pageSize else |rows|;
      var hi := if k * pageSize <= |rows| then k * pageSize else |rows|;
      assert PageOf(rows, k - 1, pageSize) == rows[lo..hi];
      assert rows[..lo] + rows[lo..hi] == rows[..hi];
    }
  }

  /** Paging loses and repeats nothing: the pages from the first to the
      last, read in turn, are exactly the sorted rows. */
  lemma PagesCoverAll<Row>(rows: seq<Row>, pageSize: nat)
    requires pageSize > 0
    ensures Pages(rows, TotalPages(|rows|, pageSize), pageSize) == rows
  {
    PagesPrefix(rows, TotalPages(|rows|, pageSize), pageSize);
  }

  /** The pager is rendered only when there is more than one page. */
  predicate ShowPager(totalPages: nat) {
    totalPages > 1
  }

  /** The previous-page button: one page back, but not before the first. */
  function PrevPage(p: nat): (r: nat)
    ensures p > 0 ==> r == p - 1
    ensures p == 0 ==> r == 0
  {
    if p == 0 then 0 else p - 1
  }

  /** The next-page button: one page on, but not past the last. */
  function NextPage(p: nat, totalPages: nat): (r: int)
    ensures p + 1 < totalPages ==> r == p + 1
    ensures p + 1 >= totalPages ==> r == totalPages - 1
  {
    if p + 1 < totalPages then p + 1 else totalPages - 1
  }

  /** Stepping through the pager from a page in range stays in range. */
  lemma PagerStaysInRange(p: nat, totalPages: nat)
    requires ShowPager(totalPages) && p < totalPages
    ensures 0 <= PrevPage(p) < totalPages
    ensures 0 <= NextPage(p, totalPages) < totalPages
    ensures PrevPage(p) <= p <= NextPage(p, totalPages)
  {
  }

  // ------------------------------------------------------------- state

  /** The table's own state: search text, selected column, direction and
      page. */
  datatype TableState = TableState(search: string, sortCol: Option<string>, sortDir: Direction, page: nat)

  const Initial: TableState := TableState("", None, Asc, 0)

  /** `handleSort(key)`: the selected column flips direction; another column
      becomes selected, ascending. The page is kept. */
  function HandleSort(st: TableState, key: string): (r: TableState)
    ensures r.sortCol == Some(key) && r.search == st.search && r.page == st.page
    ensures st.sortCol == Some(key) ==> r.sortDir != st.sortDir
    ensures st.sortCol != Some(key) ==> r.sortDir == Asc
  {
    if st.sortCol == Some(key) then st.(sortDir := if st.sortDir == Asc then Desc else Asc)
    else st.(sortCol := Some(key), sortDir := Asc)
  }

  /** Clicking the same header twice restores the state. */
  lemma SortTwiceRestores(st: TableState, key: string)
    requires st.sortCol == Some(key)
    ensures HandleSort(HandleSort(st, key), key) == st
  {
  }

  /** A header click: only sortable headers react. */
  function HeaderClick<Row>(st: TableState, col: Column<Row>): (r: TableState)
    ensures !col.sortable ==> r == st
    ensures col.sortable ==> r == HandleSort(st, col.key)
  {
    if col.sortable then HandleSort(st, col.key) else st
  }

  /** Typing in the search box returns to the first page. */
  function SetSearch(st: TableState, text: string): (r: TableState)
    ensures r.search == text && r.page == 0
    ensures r.sortCol == st.sortCol && r.sortDir == st.sortDir
  {
    st.(search := text, page := 0)
  }

  /** The rows on screen. */
  function View<Row>(rows: seq<Row>, columns: seq<Column<Row>>, st: TableState, pageSize: nat): (r: seq<Row>)
    requires pageSize > 0
    ensures |r| <= pageSize
  {
    PageOf(SortRows(Search(rows, columns, st.search), columns, st.sortCol, st.sortDir), st.page, pageSize)
  }

  /** Every row on screen is a row of the data that matches the search. */
  lemma ViewShowsMatches<Row>(rows: seq<Row>, columns: seq<Column<Row>>, st: TableState, pageSize: nat)
    requires pageSize > 0
    ensures forall row :: row in View(rows, columns, st, pageSize) ==>
      row in rows && (st.search == "" || RowMatches(columns, row, st.search))
  {
    var filtered := Search(rows, columns, st.search);
    var sorted := SortRows(filtered, columns, st.sortCol, st.sortDir);
    forall row | row in View(rows, columns, st, pageSize)
      ensures row in filtered
    {
      assert row in sorted;
      assert row in multiset(sorted);
    }
  }

  /** After a new search the first page is shown, and it is non-empty
      whenever some row matches. */
  lemma NewSearchShowsFirstPage<Row>(rows: seq<Row>, columns: seq<Column<Row>>, st: TableState, text: string, pageSize: nat)
    requires pageSize > 0
    requires exists i :: 0 <= i < |rows| && (text == "" || RowMatches(columns, rows[i], text))
    ensures |View(rows, columns, SetSearch(st, text), pageSize)| > 0
  {
    var i :| 0 <= i < |rows| && (text == "" || RowMatches(columns, rows[i], text));
    var filtered := Search(rows, columns, text);
    assert rows[i] in filtered;
    var sorted := SortRows(filtered, columns, st.sortCol, st.sortDir);
    assert |sorted| == |filtered| > 0 by {
      assert |multiset(sorted)| == |multiset(filtered)|;
    }
    var pages := TotalPages(|sorted|, pageSize);
    assert 0 < |sorted| <= pages * pageSize;
    assert pages != 0;
    assert View(rows, columns, SetSearch(st, text), pageSize) == PageOf(sorted, 0, pageSize);
  }
}

=== FILE: drivers_page.dfy ===
/** The driver profiles page of the local-store application
    (src/pages/DriversPage.jsx): the create/edit form and its category
    toggle, the completion rate and expiry flag shown per row, the safety
    colour, and the status buttons. */
module DriversPage {
  import opened Basics
  import opened Text
  import opened Fleet
  import opened Store
  import opened Allocation
  import opened Metrics

  /** The driver form after `Number(form.safetyScore)`. */
  datatype DriverForm = DriverForm(
    name: string,
    phone: string,
    licenseCategories: seq<string>,
    licenseExpiry: string,
    safetyScore: int)

  /** The form `openAdd` shows: no categories and a safety score of 85. */
  const EmptyForm: DriverForm := DriverForm("", "", [], "", 85)

  /** `toggleCategory(cat)`: drop every copy of a listed category, or append
      an unlisted one. */
  function ToggleCategory(cats: seq<string>, cat: string): (r: seq<string>)
    ensures cat in r <==> cat !in cats
    ensures forall c :: c != cat ==> (c in r <==> c in cats)
    ensures cat !in cats ==> r == cats + [cat]
    ensures cat in cats ==> SubsequenceOf(r, cats)
  {
    if cat in cats then Filter(cats, (c: string) => c != cat) else cats + [cat]
  }

  /** Toggling the same category twice restores which categories are
      listed. */
  lemma ToggleTwiceRestoresMembership(cats: seq<string>, cat: string)
    ensures forall c :: c in ToggleCategory(ToggleCategory(cats, cat), cat) <==> c in cats
  {
  }

  /** Starting from a list without the category, toggling it on and off
      gives back exactly the list it started from. */
  lemma {:induction false} ToggleOnOffIsIdentity(cats: seq<string>, cat: string)
    requires cat !in cats
    ensures ToggleCategory(ToggleCategory(cats, cat), cat) == cats
  {
    var p := (c: string) => c != cat;
    FilterAppend(cats, [cat], p);
    FilterAll(cats, p);
    assert Filter([cat], p) == [];
  }

  /** `handleSave`: an edit sends the form fields as a patch under the edited
      driver's id; a new driver starts On Duty with no completed trips and
      joins today. The id of a new driver is assigned by the reducer, so the
      one carried here is a placeholder. */
  function HandleSave(editing: Option<Driver>, form: DriverForm, today: string): (r: Action)
    ensures editing.Some? <==> r.UpdateDriver?
    ensures editing.None? <==> r.AddDriver?
    ensures r.UpdateDriver? ==>
      && r.patch.id == editing.value.id
      && r.patch.name == form.name && r.patch.phone == form.phone
      && r.patch.licenseCategories == form.licenseCategories && r.patch.licenseExpiry == form.licenseExpiry
      && r.patch.safetyScore == form.safetyScore
    ensures r.AddDriver? ==>
      && r.driver.status == OnDuty && r.driver.tripsCompleted == 0 && r.driver.joinDate == today
      && r.driver.name == form.name && r.driver.phone == form.phone
      && r.driver.licenseCategories == form.licenseCategories && r.driver.licenseExpiry == form.licenseExpiry
      && r.driver.safetyScore == form.safetyScore
  {
    match editing
    case Some(d) =>
      UpdateDriver(DriverPatch(d.id, form.name, form.phone, form.licenseCategories, form.licenseExpiry, form.safetyScore))
    case None =>
      AddDriver(Driver("", form.name, form.phone, form.licenseCategories, form.licenseExpiry, form.safetyScore,
                       OnDuty, 0, today))
  }

  /** Saving a new driver and reducing appends one On Duty driver with a
      fresh id and no completed trips, keeping every earlier driver. */
  lemma AddDriverThroughPage(s: AppState, form: DriverForm, today: string, now: nat, initial: AppState)
    ensures var r := Reduce(s, HandleSave(None, form, today), now, initial);
      && |r.drivers| == |s.drivers| + 1 && r.drivers[..|s.drivers|] == s.drivers
      && r.drivers[|s.drivers|].id == FreshId("d", now)
      && r.drivers[|s.drivers|].status == OnDuty
      && r.drivers[|s.drivers|].tripsCompleted == 0
      && r.drivers[|s.drivers|].joinDate == today
      && r.vehicles == s.vehicles && r.trips == s.trips
  {
  }

  /** Saving an edit and reducing changes the license data of the drivers
      carrying the edited id and nothing else: their status and trip
      counter survive the edit. */
  lemma EditDriverThroughPage(s: AppState, d: Driver, form: DriverForm, today: string, now: nat, initial: AppState)
    ensures var r := Reduce(s, HandleSave(Some(d), form, today), now, initial);
      && |r.drivers| == |s.drivers|
      && r.vehicles == s.vehicles && r.trips == s.trips
      && (forall i :: 0 <= i < |s.drivers| && s.drivers[i].id != d.id ==> r.drivers[i] == s.drivers[i])
      && (forall i :: 0 <= i < |s.drivers| && s.drivers[i].id == d.id ==>
            && r.drivers[i].status == s.drivers[i].status
            && r.drivers[i].tripsCompleted == s.drivers[i].tripsCompleted
            && r.drivers[i].licenseCategories == form.licenseCategories
            && r.drivers[i].licenseExpiry == form.licenseExpiry)
  {
  }

  /** `getCompletionRate(driverId)`: `None` stands for the dash shown when
      the driver has no trips; otherwise the rounded share of the driver's
      trips that are Completed, to the nearest whole percent with halves
      rounded up. */
  function CompletionRate(trips: seq<Trip>, driverId: string): (r: Option<int>)
    ensures r.None? <==> forall i :: 0 <= i < |trips| ==> trips[i].driverId != driverId
    ensures r.Some? ==> 0 <= r.value <= 100
    ensures r.Some? ==>
      var mine := Filter(trips, (t: Trip) => t.driverId == driverId);
      var done := Count(mine, (t: Trip) => t.status == Completed);
      RoundedPercent(r.value, done, |mine|)
  {
    var mine := Filter(trips, (t: Trip) => t.driverId == driverId);
    if |mine| == 0 then None
    else Some(RoundPercent(Count(mine, (t: Trip) => t.status == Completed), |mine|))
  }

  /** A driver all of whose trips are Completed shows 100%, and one with
      trips but none Completed shows 0%. */
  lemma {:induction false} CompletionRateExtremes(trips: seq<Trip>, driverId: string)
    requires exists i :: 0 <= i < |trips| && trips[i].driverId == driverId
    ensures (forall i :: 0 <= i < |trips| && trips[i].driverId == driverId ==> trips[i].status == Completed)
            ==> CompletionRate(trips, driverId) == Some(100)
    ensures (forall i :: 0 <= i < |trips| && trips[i].driverId == driverId ==> trips[i].status != Completed)
            ==> CompletionRate(trips, driverId) == Some(0)
  {
    var mine := Filter(trips, (t: Trip) => t.driverId == driverId);
    var done := (t: Trip) => t.status == Completed;
    var i :| 0 <= i < |trips| && trips[i].driverId == driverId;
    assert trips[i] in mine;
    if forall i :: 0 <= i < |trips| && trips[i].driverId == driverId ==> trips[i].status == Completed {
      FilterAll(mine, done);
      RoundPercentExact(|mine|, |mine|, 100);
    }
    if forall i :: 0 <= i < |trips| && trips[i].driverId == driverId ==> trips[i].status != Completed {
      var c := Filter(mine, done);
      if |c| > 0 {
        assert c[0] in mine;
      }
      RoundPercentExact(0, |mine|, 0);
    }
  }

  /** Marking one trip Completed keeps a driver's trip list just as long
      and never shrinks its Completed part. */
  lemma {:induction false} CompletingTripKeepsShare(trips: seq<Trip>, k: nat, driverId: string)
    requires k < |trips|
    ensures var after := trips[k := trips[k].(status := Completed)];
      var byDriver := (t: Trip) => t.driverId == driverId;
      var done := (t: Trip) => t.status == Completed;
      && |Filter(after, byDriver)| == |Filter(trips, byDriver)|
      && Count(Filter(trips, byDriver), done) <= Count(Filter(after, byDriver), done)
  {
    var after := trips[k := trips[k].(status := Completed)];
    if k == 0 {
      assert after[1..] == trips[1..];
    } else {
      CompletingTripKeepsShare(trips[1..], k - 1, driverId);
      assert after[1..] == trips[1..][k - 1 := trips[k].(status := Completed)];
    }
  }

  /** Completing a trip never lowers any driver's completion rate, and does
      not change which drivers show a rate rather than a dash. */
  lemma CompletingTripNeverLowersRate(trips: seq<Trip>, k: nat, driverId: string)
    requires k < |trips|
    ensures var before, after := CompletionRate(trips, driverId), CompletionRate(trips[k := trips[k].(status := Completed)], driverId);
      && (before.Some? <==> after.Some?)
      && (before.Some? ==> before.value <= after.value)
  {
    var after := trips[k := trips[k].(status := Completed)];
    var byDriver := (t: Trip) => t.driverId == driverId;
    var done := (t: Trip) => t.status == Completed;
    CompletingTripKeepsShare(trips, k, driverId);
    var mine := Filter(trips, byDriver);
    if |mine| > 0 {
      RoundPercentMonotone(Count(mine, done), Count(Filter(after, byDriver), done), |mine|);
    }
  }

  /** The red expiry flag on a row: `licenseExpiry < today`. */
  predicate Expired(d: Driver, today: string) {
    StrLess(d.licenseExpiry, today)
  }

  /** The flag agrees with the trips page: a flagged driver cannot be
      assigned any vehicle, and an unflagged one can be assigned exactly the
      vehicle types on the license. */
  lemma ExpiredAgreesWithAllocation(d: Driver, vehicleType: string, today: string)
    ensures Expired(d, today) ==> !LicenseValid(Some(d), vehicleType, today)
    ensures !Expired(d, today) ==> (LicenseValid(Some(d), vehicleType, today) <==> vehicleType in d.licenseCategories)
  {
  }

  /** Once flagged, a driver stays flagged on every later day. */
  lemma ExpiryPersists(d: Driver, today: string, later: string)
    requires Expired(d, today) && StrLess(today, later)
    ensures Expired(d, later)
  {
    StrLessTransitive(d.licenseExpiry, today, later);
  }

  /** The colour of the safety score bar. */
  datatype Colour = Green | Amber | Red

  function SafetyColour(score: int): (c: Colour)
    ensures c == Green <==> score >= 85
    ensures c == Amber <==> 70 <= score < 85
    ensures c == Red <==> score < 70
  {
    if score >= 85 then Green else if score >= 70 then Amber else Red
  }

  function ColourRank(c: Colour): nat {
    match c
    case Red => 0
    case Amber => 1
    case Green => 2
  }

  /** A higher score never shows a worse colour. */
  lemma SafetyColourMonotone(a: int, b: int)
    requires a <= b
    ensures ColourRank(SafetyColour(a)) <= ColourRank(SafetyColour(b))
  {
  }

  /** The status buttons rendered on a row, in order: none for a driver On
      Trip; otherwise every one of On Duty, Off Duty and Suspended except the
      current status. */
  function StatusTargets(status: string): (r: seq<string>)
    ensures status == OnTrip ==> r == []
    ensures forall t :: t in r <==> status != OnTrip && t != status && (t == OnDuty || t == OffDuty || t == Suspended)
    ensures |r| <= 3
  {
    if status == OnTrip then []
    else (if status != OnDuty then [OnDuty] else [])
         + (if status != OffDuty then [OffDuty] else [])
         + (if status != Suspended then [Suspended] else [])
  }

  /** The action a status button on row `d` fires, if it is rendered. */
  function StatusButton(d: Driver, target: string): (r: Option<Action>)
    ensures r.Some? <==> target in StatusTargets(d.status)
    ensures r.Some? ==> r.value == SetDriverStatus(d.id, target)
  {
    if target in StatusTargets(d.status) then Some(SetDriverStatus(d.id, target)) else None
  }

  /** Pressing a status button on row `k` and reducing. */
  function StatusStep(s: AppState, k: nat, target: string, now: nat, initial: AppState): AppState
    requires k < |s.drivers|
  {
    match StatusButton(s.drivers[k], target)
    case None => s
    case Some(a) => Reduce(s, a, now, initial)
  }

  /** With unique driver ids, the status buttons never move a driver into or
      out of On Trip: that status belongs to the trip lifecycle. */
  lemma StatusButtonsLeaveOnTrip(s: AppState, k: nat, target: string, now: nat, initial: AppState)
    requires k < |s.drivers| && UniqueKeys(s.drivers, DriverKey)
    ensures var r := StatusStep(s, k, target, now, initial);
      && |r.drivers| == |s.drivers|
      && (forall i :: 0 <= i < |s.drivers| ==>
            && (s.drivers[i].status == OnTrip ==> r.drivers[i] == s.drivers[i])
            && (r.drivers[i].status == OnTrip ==> s.drivers[i].status == OnTrip))
  {
    if target in StatusTargets(s.drivers[k].status) {
      var r := Reduce(s, SetDriverStatus(s.drivers[k].id, target), now, initial);
      forall i | 0 <= i < |s.drivers| && s.drivers[i].id == s.drivers[k].id
        ensures i == k
      {
        assert DriverKey(s.drivers[i]) == DriverKey(s.drivers[k]);
      }
    }
  }
}

=== FILE: fleet.dfy ===
/** The records the application keeps: vehicles, drivers, trips, maintenance
    logs, expenses and users, plus the status and role strings it compares
    against. Statuses are kept as strings, as in the application, because the
    reducer and the pages test them with string equality and several of them
    contain a space. */
module Fleet {
  import opened Basics

  // Vehicle statuses (the enum of the vehicle schema).
  const Available: string := "Available"
  const OnTrip: string := "On Trip"
  const InShop: string := "In Shop"
  const Retired: string := "Retired"

  // Driver statuses (the enum of the driver schema; "On Trip" is shared).
  const OnDuty: string := "On Duty"
  const OffDuty: string := "Off Duty"
  const Suspended: string := "Suspended"

  // Trip statuses.
  const Draft: string := "Draft"
  const Dispatched: string := "Dispatched"
  const Completed: string := "Completed"
  const Cancelled: string := "Cancelled"

  // Maintenance statuses ("Completed" is shared with trips).
  const InProgress: string := "In Progress"

  // User roles.
  const Manager: string := "Manager"
  const Dispatcher: string := "Dispatcher"
  const SafetyOfficer: string := "Safety Officer"
  const FinancialAnalyst: string := "Financial Analyst"

  predicate IsVehicleStatus(s: string) {
    s == Available || s == OnTrip || s == InShop || s == Retired
  }

  predicate IsDriverStatus(s: string) {
    s == OnDuty || s == OffDuty || s == OnTrip || s == Suspended
  }

  predicate IsTripStatus(s: string) {
    s == Draft || s == Dispatched || s == Completed || s == Cancelled
  }

  /** `type` is spelled `vehicleType` because `type` is a Dafny keyword.
      Dates are ISO-8601 strings, as the forms produce them. */
  datatype Vehicle = Vehicle(
    id: string,
    name: string,
    model: string,
    licensePlate: string,
    vehicleType: string,
    maxCapacity: int,
    odometer: int,
    status: string,
    region: string,
    acquisitionCost: int,
    acquiredDate: string)

  datatype Driver = Driver(
    id: string,
    name: string,
    phone: string,
    licenseCategories: seq<string>,
    licenseExpiry: string,
    safetyScore: int,
    status: string,
    tripsCompleted: int,
    joinDate: string)

  /** `createdAt` and `completedAt` are clock instants (milliseconds); a
      missing revenue or end reading is `None` (JavaScript `null`). */
  datatype Trip = Trip(
    id: string,
    vehicleId: string,
    driverId: string,
    origin: string,
    destination: string,
    cargoWeight: int,
    revenue: Option<int>,
    startOdometer: int,
    endOdometer: Option<int>,
    status: string,
    createdAt: int,
    completedAt: Option<int>)

  /** The payload of a trip creation: a trip without id, status and
      timestamps, which the reducer assigns. */
  datatype TripDraft = TripDraft(
    vehicleId: string,
    driverId: string,
    origin: string,
    destination: string,
    cargoWeight: int,
    revenue: int,
    startOdometer: int,
    endOdometer: Option<int>)

  datatype Maintenance = Maintenance(
    id: string,
    vehicleId: string,
    serviceType: string,
    description: string,
    cost: int,
    serviceDate: string,
    nextDueDate: string,
    status: string)

  /** The payload of a service log: a record without id and status. */
  datatype MaintenanceDraft = MaintenanceDraft(
    vehicleId: string,
    serviceType: string,
    description: string,
    cost: int,
    serviceDate: string,
    nextDueDate: string)

  datatype Expense = Expense(
    id: string,
    vehicleId: string,
    tripId: Option<string>,
    expenseType: string,
    liters: int,
    cost: int,
    date: string)

  datatype User = User(id: string, name: string, email: string, password: string, role: string)

  datatype Auth = Auth(user: Option<User>, isAuthenticated: bool)

  /** The role of the signed-in user (`state.auth.user?.role`). */
  function RoleOf(auth: Auth): Option<string> {
    match auth.user
    case Some(u) => Some(u.role)
    case None => None
  }

  /** The fields the driver form edits; merged over the stored driver. */
  datatype DriverPatch = DriverPatch(
    id: string,
    name: string,
    phone: string,
    licenseCategories: seq<string>,
    licenseExpiry: string,
    safetyScore: int)

  datatype AppState = AppState(
    auth: Auth,
    vehicles: seq<Vehicle>,
    drivers: seq<Driver>,
    trips: seq<Trip>,
    maintenance: seq<Maintenance>,
    expenses: seq<Expense>,
    users: seq<User>)

  /** The actions the reducer understands, one per `action.type`. Payloads
      that the reducer spreads into a new record, adding a fresh id, are
      whole records whose `id` it overwrites. */
  datatype Action =
    | Login(email: string, password: string)
    | Logout
    | AddVehicle(vehicle: Vehicle)
    | UpdateVehicle(vehicle: Vehicle)
    | DeleteVehicle(vehicleId: string)
    | SetVehicleStatus(vehicleId: string, vehicleStatus: string)
    | AddDriver(driver: Driver)
    | UpdateDriver(patch: DriverPatch)
    | DeleteDriver(driverId: string)
    | SetDriverStatus(driverId: string, driverStatus: string)
    | CreateTrip(draft: TripDraft)
    | DispatchTrip(tripId: string)
    | CompleteTrip(tripId: string, endOdometer: int)
    | CancelTrip(tripId: string)
    | AddMaintenance(log: MaintenanceDraft)
    | CompleteMaintenance(logId: string, logVehicleId: string)
    | AddExpense(expense: Expense)
    | DeleteExpense(expenseId: string)
    | ResetData

  function VehicleKey(v: Vehicle): string { v.id }
  function DriverKey(d: Driver): string { d.id }
  function TripKey(t: Trip): string { t.id }
  function MaintenanceKey(m: Maintenance): string { m.id }
}

=== FILE: frontend_dashboard.dfy ===
/** The command centre of the API-backed application
    (frontend/src/pages/DashboardPage.jsx). Unlike the local dashboard, its
    type, status and region filters select a set of vehicles, and every
    figure on the page — trips, service logs and expenses included — is
    computed over the records of those vehicles only. */
module FrontendDashboard {
  import opened Basics
  import opened Fleet
  import opened Metrics
  import opened Kpis
  import Dashboard

  /** The local dashboard's type and status filters plus a region filter;
      "All" imposes nothing, as there. */
  datatype Filters = Filters(typeFilter: string, statusFilter: string, regionFilter: string)

  const NoFilters: Filters := Filters(Dashboard.All, Dashboard.All, Dashboard.All)

  /** The type and status part, which selects as the local dashboard does. */
  function Local(f: Filters): Dashboard.Filters {
    Dashboard.Filters(f.typeFilter, f.statusFilter)
  }

  predicate InRegion(v: Vehicle, f: Filters) {
    f.regionFilter == Dashboard.All || v.region == f.regionFilter
  }

  predicate Selected(v: Vehicle, f: Filters) {
    Dashboard.Selected(v, Local(f)) && InRegion(v, f)
  }

  /** `filteredVehicles`: the local dashboard's selection narrowed to the
      chosen region, in registry order. */
  function FilteredVehicles(vehicles: seq<Vehicle>, f: Filters): (r: seq<Vehicle>)
    ensures SubsequenceOf(r, vehicles)
    ensures forall i :: 0 <= i < |r| ==> Selected(r[i], f)
    ensures forall i :: 0 <= i < |vehicles| && Selected(vehicles[i], f) ==> vehicles[i] in r
  {
    RegionNarrowsLocal(vehicles, f);
    Filter(Dashboard.FilteredVehicles(vehicles, Local(f)), (v: Vehicle) => InRegion(v, f))
  }

  /** Narrowing the local selection by region selects, in order, exactly
      the vehicles all three filters select. */
  lemma RegionNarrowsLocal(vehicles: seq<Vehicle>, f: Filters)
    ensures Filter(Dashboard.FilteredVehicles(vehicles, Local(f)), (v: Vehicle) => InRegion(v, f))
         == Filter(vehicles, (v: Vehicle) => Selected(v, f))
  {
    var local := (v: Vehicle) => Dashboard.Selected(v, Local(f));
    var region := (v: Vehicle) => InRegion(v, f);
    var sel := (v: Vehicle) => Selected(v, f);
    assert Dashboard.FilteredVehicles(vehicles, Local(f)) == Filter(vehicles, local);
    FilterFilter(vehicles, local, region, sel);
  }

  /** `filteredVehicleIds`: the ids of the selected vehicles. */
  function VehicleIds(vehicles: seq<Vehicle>): (r: set<string>)
    ensures forall id :: id in r <==> exists i :: 0 <= i < |vehicles| && vehicles[i].id == id
  {
    set i | 0 <= i < |vehicles| :: vehicles[i].id
  }

  /** A record belongs to the selection when the vehicle it names is one of
      the selected vehicles. */
  predicate OfSelected(vehicleId: string, vehicles: seq<Vehicle>, f: Filters) {
    vehicleId in VehicleIds(FilteredVehicles(vehicles, f))
  }

  /** `filteredTrips`. */
  function FilteredTrips(trips: seq<Trip>, vehicles: seq<Vehicle>, f: Filters): (r: seq<Trip>)
    ensures SubsequenceOf(r, trips)
    ensures forall i :: 0 <= i < |r| ==> OfSelected(r[i].vehicleId, vehicles, f)
    ensures forall i :: 0 <= i < |trips| && OfSelected(trips[i].vehicleId, vehicles, f) ==> trips[i] in r
  {
    var ids := VehicleIds(FilteredVehicles(vehicles, f));
    Filter(trips, (t: Trip) => t.vehicleId in ids)
  }

  /** `filteredMaintenance`. */
  function FilteredMaintenance(logs: seq<Maintenance>, vehicles: seq<Vehicle>, f: Filters): (r: seq<Maintenance>)
    ensures SubsequenceOf(r, logs)
    ensures forall i :: 0 <= i < |r| ==> OfSelected(r[i].vehicleId, vehicles, f)
    ensures forall i :: 0 <= i < |logs| && OfSelected(logs[i].vehicleId, vehicles, f) ==> logs[i] in r
  {
    var ids := VehicleIds(FilteredVehicles(vehicles, f));
    Filter(logs, (m: Maintenance) => m.vehicleId in ids)
  }

  /** `filteredExpenses`. */
  function FilteredExpenses(expenses: seq<Expense>, vehicles: seq<Vehicle>, f: Filters): (r: seq<Expense>)
    ensures SubsequenceOf(r, expenses)
    ensures forall i :: 0 <= i < |r| ==> OfSelected(r[i].vehicleId, vehicles, f)
    ensures forall i :: 0 <= i < |expenses| && OfSelected(expenses[i].vehicleId, vehicles, f) ==> expenses[i] in r
  {
    var ids := VehicleIds(FilteredVehicles(vehicles, f));
    Filter(expenses, (e: Expense) => e.vehicleId in ids)
  }

  /** Even with every filter on "All", a trip whose vehicle is no longer in
      the registry is dropped from every figure, while a trip whose vehicle
      is registered is kept. */
  lemma UnfilteredTripsAreThoseOfRegisteredVehicles(trips: seq<Trip>, vehicles: seq<Vehicle>, t: Trip)
    requires t in trips
    ensures t in FilteredTrips(trips, vehicles, NoFilters) <==> exists i :: 0 <= i < |vehicles| && vehicles[i].id == t.vehicleId
  {
    var fv := FilteredVehicles(vehicles, NoFilters);
    RegionNarrowsLocal(vehicles, NoFilters);
    FilterAll(vehicles, (v: Vehicle) => Selected(v, NoFilters));
    assert fv == vehicles;
    var r := FilteredTrips(trips, vehicles, NoFilters);
    if t in r {
      var k :| 0 <= k < |r| && r[k] == t;
    }
  }

  /** The vehicles that are not Retired: the utilisation denominator. */
  function TotalActive(vehicles: seq<Vehicle>): (n: nat)
    ensures n <= |vehicles|
  {
    Count(vehicles, (v: Vehicle) => v.status != Retired)
  }

  /** A vehicle On Trip is never Retired, so the active fleet never exceeds
      the denominator. */
  lemma OnTripWithinActive(vehicles: seq<Vehicle>)
    ensures StatusCount(vehicles, OnTrip) <= TotalActive(vehicles)
  {
    CountMonotone(vehicles, (v: Vehicle) => v.status == OnTrip, (v: Vehicle) => v.status != Retired);
  }

  /** The key figures on the page. */
  datatype Summary = Summary(
    activeFleet: nat,
    inShop: nat,
    available: nat,
    totalActive: nat,
    utilisation: int,
    pendingTrips: nat,
    onDutyDrivers: nat,
    revenue: int,
    fuelCost: int,
    maintenanceCost: int,
    statusData: seq<PieSlice>,
    tripsByStatus: seq<Bar>,
    recentTrips: seq<Trip>)

  /** The figures over the selected vehicles and their records. Utilisation
      divides the vehicles On Trip by the selected vehicles that are not
      Retired; the revenue card adds up the Completed trips only; the driver
      figure ignores the filters. */
  function Summarise(s: AppState, f: Filters): (r: Summary)
    ensures r.activeFleet + r.inShop + r.available <= r.totalActive <= |FilteredVehicles(s.vehicles, f)|
    ensures 0 <= r.utilisation <= 100
    ensures r.totalActive == 0 ==> r.utilisation == 0
    ensures r.totalActive > 0 ==> RoundedPercent(r.utilisation, r.activeFleet, r.totalActive)
    ensures r.onDutyDrivers == OnDutyDrivers(s.drivers)
    ensures r.revenue == CompletedRevenue(FilteredTrips(s.trips, s.vehicles, f))
    ensures |r.recentTrips| <= 5 && |r.statusData| <= 4 && |r.tripsByStatus| == 4
  {
    var vs := FilteredVehicles(s.vehicles, f);
    var trips := FilteredTrips(s.trips, s.vehicles, f);
    OnTripWithinActive(vs);
    ActiveCountsWithin(vs);
    var onTrip := StatusCount(vs, OnTrip);
    var active := TotalActive(vs);
    var u := Utilisation(onTrip, active);
    Summary(onTrip, StatusCount(vs, InShop), StatusCount(vs, Available), active, u, TripCount(trips, Draft), OnDutyDrivers(s.drivers),
            CompletedRevenue(trips),
            FuelCost(FilteredExpenses(s.expenses, s.vehicles, f)),
            MaintenanceCost(FilteredMaintenance(s.maintenance, s.vehicles, f)),
            StatusData(vs), TripsByStatus(trips), RecentTrips(trips))
  }

  /** The three non-Retired status counts together stay within the non-Retired
      vehicles. */
  lemma {:induction false} ActiveCountsWithin(vehicles: seq<Vehicle>)
    ensures StatusCount(vehicles, Available) + StatusCount(vehicles, OnTrip) + StatusCount(vehicles, InShop)
            <= TotalActive(vehicles)
  {
    if |vehicles| > 0 {
      ActiveCountsWithin(vehicles[1..]);
      StatusCountCons(vehicles, Available);
      StatusCountCons(vehicles, OnTrip);
      StatusCountCons(vehicles, InShop);
      assert TotalActive(vehicles) == (if vehicles[0].status != Retired then 1 else 0) + TotalActive(vehicles[1..]);
    }
  }

  /** Over the same registry with no filter, this dashboard's utilisation is
      never below the local dashboard's, because it leaves Retired vehicles
      out of the denominator; without Retired vehicles the two agree. */
  lemma UtilisationAtLeastLocal(vehicles: seq<Vehicle>)
    ensures var onTrip := StatusCount(vehicles, OnTrip);
      Utilisation(onTrip, |vehicles|) <= Utilisation(onTrip, TotalActive(vehicles))
    ensures StatusCount(vehicles, Retired) == 0 ==>
      Utilisation(StatusCount(vehicles, OnTrip), |vehicles|) == Utilisation(StatusCount(vehicles, OnTrip), TotalActive(vehicles))
  {
    var onTrip := StatusCount(vehicles, OnTrip);
    OnTripWithinActive(vehicles);
    ActiveIsAllButRetired(vehicles);
    if TotalActive(vehicles) == 0 {
      if |vehicles| > 0 {
        RoundPercentExact(0, |vehicles|, 0);
      }
    } else {
      RoundPercentAntitone(onTrip, TotalActive(vehicles), |vehicles|);
    }
  }

  /** Every vehicle is either Retired or counted as active. */
  lemma {:induction false} ActiveIsAllButRetired(vehicles: seq<Vehicle>)
    ensures TotalActive(vehicles) + StatusCount(vehicles, Retired) == |vehicles|
  {
    if |vehicles| > 0 {
      ActiveIsAllButRetired(vehicles[1..]);
      StatusCountCons(vehicles, Retired);
      assert TotalActive(vehicles) == (if vehicles[0].status != Retired then 1 else 0) + TotalActive(vehicles[1..]);
    }
  }
}

=== FILE: frontend_trips_page.dfy ===
/** The trip dispatcher page of the API-backed front end
    (frontend/src/pages/TripsPage.jsx). It runs the same checks as the local
    page but sends HTTP requests instead of reducer actions, tracks an
    `isSaving` flag, renders the "New Trip" button only for managing roles,
    and asks for the row actions to be shown only to those roles too, a
    request the table does not honour. */
module FrontendTripsPage {
  import opened Basics
  import opened Fleet
  import opened Allocation
  import TripsPage

  /** The body of `POST /trips`. */
  datatype TripRequest = TripRequest(
    vehicleId: string,
    driverId: string,
    origin: string,
    destination: string,
    cargoWeight: int,
    revenue: int,
    startOdometer: int,
    status: string)

  datatype ApiRequest =
    | PostTrip(body: TripRequest)
    | PatchDispatch(tripId: string)
    | PatchComplete(tripId: string, endOdometer: int)
    | PatchCancel(tripId: string)

  /** The page's observable state right after `handleCreate` has run up to
      its first `await`: the request sent (if any), the error shown (if
      any), and the `isSaving` flag. */
  datatype Submission = Submission(request: Option<ApiRequest>, error: Option<CreateError>, isSaving: bool)

  /** The roles that may manage trips: Admin and Manager. */
  predicate CanManage(role: Option<string>) {
    role == Some("Admin") || role == Some(Manager)
  }

  /** `handleCreate` up to the request: every early return clears
      `isSaving` and sends nothing; a passing form sends a Draft trip whose
      start reading is the vehicle's odometer, with the request in flight. */
  function HandleCreate(vehicles: seq<Vehicle>, drivers: seq<Driver>, form: TripForm, today: string): (r: Submission)
    ensures r.request.None? <==> r.error.Some?
    ensures r.error == Validate(vehicles, drivers, form, today)
    ensures r.error.Some? ==> !r.isSaving
    ensures r.request.Some? ==>
      var v := VehicleById(vehicles, form.vehicleId).value;
      && VehicleById(vehicles, form.vehicleId).Some?
      && r.isSaving
      && r.request.value.PostTrip?
      && r.request.value.body.status == Draft
      && r.request.value.body.startOdometer == v.odometer
      && r.request.value.body.cargoWeight == form.cargoWeight <= v.maxCapacity
      && r.request.value.body.revenue == form.revenue.GetOr(0)
      && r.request.value.body.vehicleId == form.vehicleId
      && r.request.value.body.driverId == form.driverId
      && r.request.value.body.origin == form.origin
      && r.request.value.body.destination == form.destination
  {
    match Validate(vehicles, drivers, form, today)
    case Some(e) => Submission(None, Some(e), false)
    case None =>
      var v := VehicleById(vehicles, form.vehicleId).value;
      Submission(Some(PostTrip(TripRequest(form.vehicleId, form.driverId, form.origin, form.destination,
                                           form.cargoWeight, form.revenue.GetOr(0), v.odometer, Draft))),
                 None, true)
  }

  /** The create form as a signed-in role reaches it. The form opens only
      from the "New Trip" button, which the page renders for managing roles
      alone, so any other role has no submission at all; a managing role
      gets `handleCreate`'s outcome. */
  function CreateAs(role: Option<string>, vehicles: seq<Vehicle>, drivers: seq<Driver>, form: TripForm, today: string): (r: Option<Submission>)
    ensures r.None? <==> !CanManage(role)
    ensures r.Some? ==> r.value.error == Validate(vehicles, drivers, form, today)
    ensures r.Some? ==> (r.value.request.Some? <==> Validate(vehicles, drivers, form, today).None?)
  {
    if CanManage(role) then Some(HandleCreate(vehicles, drivers, form, today)) else None
  }

  /** No role outside Admin and Manager can post a trip from this page: a
      Dispatcher, say, never sends `POST /trips`, however valid the form. */
  lemma OnlyManagersPostTrips(role: Option<string>, vehicles: seq<Vehicle>, drivers: seq<Driver>, form: TripForm, today: string)
    ensures var r := CreateAs(role, vehicles, drivers, form, today);
      r.Some? && r.value.request.Some? ==> CanManage(role) && r.value.request.value.PostTrip?
    ensures CreateAs(Some(Dispatcher), vehicles, drivers, form, today).None?
  {
  }

  /** `handleComplete`: nothing is sent for an empty end-odometer field. */
  function HandleComplete(row: Trip, endOdometer: Option<int>): (r: Option<ApiRequest>)
    ensures r.None? <==> endOdometer.None?
    ensures r.Some? ==> r.value == PatchComplete(row.id, endOdometer.value)
  {
    match endOdometer
    case None => None
    case Some(e) => Some(PatchComplete(row.id, e))
  }

  /** Whether the page asks for the actions column to be hidden: the
      column carries `hidden: !canManage`. */
  predicate ActionsHidden(role: Option<string>) {
    !CanManage(role)
  }

  /** The row buttons as rendered. The table draws every column it is
      given and never reads a column's `hidden` flag, so the buttons depend
      on the row's status alone, whatever the user's role. */
  function VisibleActionsAsWritten(role: Option<string>, status: string): (r: seq<TripAction>)
    ensures forall act :: act in r <==> Offers(status, act)
    ensures |r| <= 2
  {
    OfferedActions(status)
  }

  /** As rendered, a role the page means to keep out of the actions column
      (a Dispatcher, say) still gets the Dispatch button on a Draft row. */
  lemma ActionsShownToEveryRole(role: Option<string>)
    requires ActionsHidden(role)
    ensures Dispatch in VisibleActionsAsWritten(role, Draft)
    ensures Dispatch !in VisibleActions(role, Draft)
  {
  }

  /** The row buttons as evidently intended: none unless the role may
      manage trips, otherwise the ones the row's status offers. */
  function VisibleActions(role: Option<string>, status: string): (r: seq<TripAction>)
    ensures ActionsHidden(role) ==> r == []
    ensures Dispatch in r <==> CanManage(role) && status == Draft
    ensures Complete in r <==> CanManage(role) && status == Dispatched
    ensures Cancel in r <==> CanManage(role) && (status == Draft || status == Dispatched)
  {
    if CanManage(role) then OfferedActions(status) else []
  }

  /** The intended buttons are the rendered ones cut down to managing
      roles: they agree for Admin and Manager and are empty for the rest. */
  lemma IntendedActionsRestrictRendered(role: Option<string>, status: string)
    ensures CanManage(role) ==> VisibleActions(role, status) == VisibleActionsAsWritten(role, status)
    ensures !CanManage(role) ==> VisibleActions(role, status) == []
    ensures forall act :: act in VisibleActions(role, status) ==> act in VisibleActionsAsWritten(role, status)
  {
  }

  /** The request a rendered row button sends; cancelling also needs the
      user to accept the confirmation prompt. No role is consulted. */
  function RowRequestAsWritten(row: Trip, act: TripAction, endOdometer: Option<int>, confirmed: bool): (r: Option<ApiRequest>)
    ensures r.Some? ==> Offers(row.status, act)
    ensures r.Some? && r.value.PatchDispatch? ==> row.status == Draft && r.value.tripId == row.id
    ensures r.Some? && r.value.PatchComplete? ==>
      row.status == Dispatched && endOdometer.Some? && r.value.tripId == row.id && r.value.endOdometer == endOdometer.value
    ensures r.Some? && r.value.PatchCancel? ==> confirmed && (row.status == Draft || row.status == Dispatched) && r.value.tripId == row.id
    ensures r.Some? ==> !r.value.PostTrip?
    ensures Offers(row.status, act) && act == Dispatch ==> r.Some?
  {
    if !Offers(row.status, act) then None
    else match act
      case Dispatch => Some(PatchDispatch(row.id))
      case Cancel => if confirmed then Some(PatchCancel(row.id)) else None
      case Complete => HandleComplete(row, endOdometer)
  }

  /** The request a row button would send with the column hidden from
      roles that may not manage trips. */
  function RowRequest(role: Option<string>, row: Trip, act: TripAction, endOdometer: Option<int>, confirmed: bool): (r: Option<ApiRequest>)
    ensures r.Some? ==> CanManage(role) && Offers(row.status, act)
    ensures r.Some? && r.value.PatchDispatch? ==> row.status == Draft && r.value.tripId == row.id
    ensures r.Some? && r.value.PatchComplete? ==>
      row.status == Dispatched && endOdometer.Some? && r.value.tripId == row.id && r.value.endOdometer == endOdometer.value
    ensures r.Some? && r.value.PatchCancel? ==> confirmed && (row.status == Draft || row.status == Dispatched) && r.value.tripId == row.id
  {
    if CanManage(role) then RowRequestAsWritten(row, act, endOdometer, confirmed) else None
  }

  /** Both trips pages make the same decision on a create form: the API
      page rejects exactly the forms the local page rejects, with the same
      error, and otherwise posts the trip the local page would create. */
  lemma CreateAgreesWithLocalPage(vehicles: seq<Vehicle>, drivers: seq<Driver>, form: TripForm, today: string)
    ensures var api, local := HandleCreate(vehicles, drivers, form, today), TripsPage.HandleCreate(vehicles, drivers, form, today);
      && (api.error.Some? <==> local.Rejected?)
      && (local.Rejected? ==> api.error == Some(local.error))
      && (local.Submitted? ==>
            var body, draft := api.request.value.body, local.action.draft;
            && body.vehicleId == draft.vehicleId && body.driverId == draft.driverId
            && body.origin == draft.origin && body.destination == draft.destination
            && body.cargoWeight == draft.cargoWeight && body.revenue == draft.revenue
            && body.startOdometer == draft.startOdometer)
  {
  }
}

=== FILE: kpis.dfy ===
/** The figures both dashboards compute from the fleet records: status
    counts, the utilisation rate, the drivers on duty, the status pie, the
    trip bar chart, the five most recent trips and the revenue total. The
    local dashboard (src/pages/DashboardPage.jsx) feeds them every record;
    the API-backed one (frontend/src/pages/DashboardPage.jsx) feeds them the
    records of the vehicles its filters select. */
module Kpis {
  import opened Basics
  import opened Fleet
  import opened Sorting
  import opened Metrics

  /** How many vehicles carry the given status. */
  function StatusCount(vehicles: seq<Vehicle>, status: string): (n: nat)
    ensures n <= |vehicles|
  {
    Count(vehicles, (v: Vehicle) => v.status == status)
  }

  /** A status counts zero exactly when no vehicle has it. */
  lemma StatusCountZero(vehicles: seq<Vehicle>, status: string)
    ensures StatusCount(vehicles, status) == 0 <==> forall i :: 0 <= i < |vehicles| ==> vehicles[i].status != status
  {
    var r := Filter(vehicles, (v: Vehicle) => v.status == status);
    if |r| > 0 {
      assert r[0] in vehicles;
    }
  }

  /** The four status counts never exceed the fleet, and they add up to it
      exactly when every vehicle carries one of the four statuses of the
      vehicle schema. */
  lemma {:induction false} StatusCountsCover(vehicles: seq<Vehicle>)
    ensures StatusCount(vehicles, Available) + StatusCount(vehicles, OnTrip)
          + StatusCount(vehicles, InShop) + StatusCount(vehicles, Retired) <= |vehicles|
    ensures (forall i :: 0 <= i < |vehicles| ==> IsVehicleStatus(vehicles[i].status)) ==>
      StatusCount(vehicles, Available) + StatusCount(vehicles, OnTrip)
      + StatusCount(vehicles, InShop) + StatusCount(vehicles, Retired) == |vehicles|
  {
    if |vehicles| > 0 {
      StatusCountsCover(vehicles[1..]);
      StatusCountCons(vehicles, Available);
      StatusCountCons(vehicles, OnTrip);
      StatusCountCons(vehicles, InShop);
      StatusCountCons(vehicles, Retired);
    }
  }

  lemma StatusCountCons(vehicles: seq<Vehicle>, status: string)
    requires |vehicles| > 0
    ensures StatusCount(vehicles, status) == (if vehicles[0].status == status then 1 else 0) + StatusCount(vehicles[1..], status)
  {
  }

  /** The utilisation rate: the rounded share of `whole` vehicles that are
      On Trip, to the nearest whole percent with halves rounded up, and 0
      for an empty denominator. */
  function Utilisation(onTrip: nat, whole: nat): (r: int)
    ensures whole == 0 ==> r == 0
    ensures whole > 0 ==> RoundedPercent(r, onTrip, whole)
    ensures onTrip <= whole ==> 0 <= r <= 100
  {
    if whole == 0 then 0 else RoundPercent(onTrip, whole)
  }

  /** A fully used fleet reads 100%, and an idle one 0%. */
  lemma UtilisationExtremes(whole: nat)
    requires whole > 0
    ensures Utilisation(whole, whole) == 100
    ensures Utilisation(0, whole) == 0
  {
    RoundPercentExact(whole, whole, 100);
    RoundPercentExact(0, whole, 0);
  }

  /** Drivers counted as on duty: On Duty or On Trip. */
  function OnDutyDrivers(drivers: seq<Driver>): (n: nat)
    ensures n <= |drivers|
  {
    Count(drivers, (d: Driver) => d.status == OnDuty || d.status == OnTrip)
  }

  /** The on-duty figure is zero exactly when no driver is On Duty or On
      Trip: Off Duty and Suspended drivers never count. */
  lemma OnDutyDriversOnlyCountsWorking(drivers: seq<Driver>)
    ensures OnDutyDrivers(drivers) == 0 <==>
      forall i :: 0 <= i < |drivers| ==> drivers[i].status != OnDuty && drivers[i].status != OnTrip
  {
    var r := Filter(drivers, (d: Driver) => d.status == OnDuty || d.status == OnTrip);
    if |r| > 0 {
      assert r[0] in drivers;
    }
  }

  /** A slice of the status pie. */
  datatype PieSlice = PieSlice(name: string, value: nat)

  /** The slice for one status, or none when it would be empty. */
  function SliceFor(vehicles: seq<Vehicle>, status: string): (r: seq<PieSlice>)
    ensures |r| <= 1
    ensures |r| == 1 <==> StatusCount(vehicles, status) > 0
    ensures |r| == 1 ==> r[0] == PieSlice(status, StatusCount(vehicles, status))
  {
    var n := StatusCount(vehicles, status);
    if n > 0 then [PieSlice(status, n)] else []
  }

  /** `statusData`: one slice per vehicle status, in schema order, with the
      empty ones dropped. */
  function StatusData(vehicles: seq<Vehicle>): (r: seq<PieSlice>)
    ensures |r| <= 4
  {
    SliceFor(vehicles, Available) + SliceFor(vehicles, OnTrip) + SliceFor(vehicles, InShop) + SliceFor(vehicles, Retired)
  }

  /** The pie has no empty slice, and each slice shows its status count. */
  lemma StatusDataSlices(vehicles: seq<Vehicle>)
    ensures var r := StatusData(vehicles);
      forall i :: 0 <= i < |r| ==> r[i].value > 0 && r[i].value == StatusCount(vehicles, r[i].name)
  {
    var a, o, s, t := SliceFor(vehicles, Available), SliceFor(vehicles, OnTrip), SliceFor(vehicles, InShop), SliceFor(vehicles, Retired);
    var r := a + o + s + t;
    forall i | 0 <= i < |r|
      ensures r[i].value > 0 && r[i].value == StatusCount(vehicles, r[i].name)
    {
      if i < |a| {
        assert r[i] == a[i];
      } else if i < |a| + |o| {
        assert r[i] == o[i - |a|];
      } else if i < |a| + |o| + |s| {
        assert r[i] == s[i - |a| - |o|];
      } else {
        assert r[i] == t[i - |a| - |o| - |s|];
      }
    }
  }

  /** A status has a slice exactly when some vehicle has it. */
  lemma StatusDataNames(vehicles: seq<Vehicle>, status: string)
    requires IsVehicleStatus(status)
    ensures PieSlice(status, StatusCount(vehicles, status)) in StatusData(vehicles)
        <==> exists i :: 0 <= i < |vehicles| && vehicles[i].status == status
  {
    StatusCountZero(vehicles, status);
    var a, o, i, r := SliceFor(vehicles, Available), SliceFor(vehicles, OnTrip), SliceFor(vehicles, InShop), SliceFor(vehicles, Retired);
    var x := PieSlice(status, StatusCount(vehicles, status));
    assert x in a + o + i + r <==> x in a || x in o || x in i || x in r;
  }

  function SliceValue(s: PieSlice): int {
    s.value
  }

  /** A status contributes its count to the pie total, whether or not its
      slice is drawn. */
  lemma SliceForTotal(vehicles: seq<Vehicle>, status: string)
    ensures Sum(SliceFor(vehicles, status), SliceValue) == StatusCount(vehicles, status)
  {
  }

  /** Dropping the empty slices loses nothing: the slices add up to the four
      status counts, so to the fleet size when every status is in the
      schema. */
  lemma StatusDataTotal(vehicles: seq<Vehicle>)
    ensures Sum(StatusData(vehicles), SliceValue) ==
      StatusCount(vehicles, Available) + StatusCount(vehicles, OnTrip)
      + StatusCount(vehicles, InShop) + StatusCount(vehicles, Retired)
    ensures (forall i :: 0 <= i < |vehicles| ==> IsVehicleStatus(vehicles[i].status)) ==>
      Sum(StatusData(vehicles), SliceValue) == |vehicles|
  {
    var a, o, i, r := SliceFor(vehicles, Available), SliceFor(vehicles, OnTrip), SliceFor(vehicles, InShop), SliceFor(vehicles, Retired);
    SumAppend(a + o + i, r, SliceValue);
    SumAppend(a + o, i, SliceValue);
    SumAppend(a, o, SliceValue);
    SliceForTotal(vehicles, Available);
    SliceForTotal(vehicles, OnTrip);
    SliceForTotal(vehicles, InShop);
    SliceForTotal(vehicles, Retired);
    StatusCountsCover(vehicles);
  }

  /** A bar of the trips chart. */
  datatype Bar = Bar(name: string, count: nat)

  function TripCount(trips: seq<Trip>, status: string): (n: nat)
    ensures n <= |trips|
  {
    Count(trips, (t: Trip) => t.status == status)
  }

  /** `tripsByStatus`: one bar per trip status, zeros included. */
  function TripsByStatus(trips: seq<Trip>): (r: seq<Bar>)
    ensures |r| == 4
    ensures r[0].name == Draft && r[1].name == Dispatched && r[2].name == Completed && r[3].name == Cancelled
    ensures r[0].count == TripCount(trips, Draft) && r[1].count == TripCount(trips, Dispatched)
    ensures r[2].count == TripCount(trips, Completed) && r[3].count == TripCount(trips, Cancelled)
  {
    [Bar(Draft, TripCount(trips, Draft)), Bar(Dispatched, TripCount(trips, Dispatched)),
     Bar(Completed, TripCount(trips, Completed)), Bar(Cancelled, TripCount(trips, Cancelled))]
  }

  lemma TripCountCons(trips: seq<Trip>, status: string)
    requires |trips| > 0
    ensures TripCount(trips, status) == (if trips[0].status == status then 1 else 0) + TripCount(trips[1..], status)
  {
  }

  /** The four bars never exceed the number of trips, and add up to it when
      every trip has one of the four trip statuses. */
  lemma {:induction false} TripCountsCover(trips: seq<Trip>)
    ensures var r := TripsByStatus(trips); r[0].count + r[1].count + r[2].count + r[3].count <= |trips|
    ensures (forall i :: 0 <= i < |trips| ==> IsTripStatus(trips[i].status)) ==>
      var r := TripsByStatus(trips); r[0].count + r[1].count + r[2].count + r[3].count == |trips|
  {
    if |trips| > 0 {
      TripCountsCover(trips[1..]);
      TripCountCons(trips, Draft);
      TripCountCons(trips, Dispatched);
      TripCountCons(trips, Completed);
      TripCountCons(trips, Cancelled);
    }
  }

  /** The recent-trips comparator: the difference of the two creation
      times, so that the newest trip comes first. */
  function NewestFirst(a: Trip, b: Trip): int {
    b.createdAt - a.createdAt
  }

  /** `recentTrips`: the trips sorted newest first, then the first five. */
  function RecentTrips(trips: seq<Trip>): (r: seq<Trip>)
    ensures |r| == if |trips| < 5 then |trips| else 5
  {
    var sorted := Sort(trips, NewestFirst);
    Slice(sorted, 0, 5)
  }

  /** Sorting newest first orders the trips by creation time, pairwise. */
  lemma SortedNewestFirst(trips: seq<Trip>)
    ensures forall i, j :: 0 <= i <= j < |Sort(trips, NewestFirst)| ==>
      Sort(trips, NewestFirst)[i].createdAt >= Sort(trips, NewestFirst)[j].createdAt
  {
    SortOrdered(trips, NewestFirst);
    OrderedByKey(Sort(trips, NewestFirst), (t: Trip) => -t.createdAt, NewestFirst);
  }

  /** The recent-trips list is the first entries of the sorted trips. */
  lemma RecentTripsPrefix(trips: seq<Trip>)
    ensures RecentTrips(trips) == Sort(trips, NewestFirst)[..|RecentTrips(trips)|]
  {
  }

  /** The recent-trips list is newest first. */
  lemma RecentTripsNewestFirst(trips: seq<Trip>)
    ensures var r := RecentTrips(trips);
      forall i, j :: 0 <= i <= j < |r| ==> r[i].createdAt >= r[j].createdAt
  {
    var sorted := Sort(trips, NewestFirst);
    var r := RecentTrips(trips);
    SortedNewestFirst(trips);
    RecentTripsPrefix(trips);
    forall i, j | 0 <= i <= j < |r|
      ensures r[i].createdAt >= r[j].createdAt
    {
      assert r[i] == sorted[i] && r[j] == sorted[j];
    }
  }

  /** The recent-trips list shows only known trips. */
  lemma RecentTripsKnown(trips: seq<Trip>)
    ensures var r := RecentTrips(trips);
      forall i :: 0 <= i < |r| ==> r[i] in trips
  {
    var sorted := Sort(trips, NewestFirst);
    var r := RecentTrips(trips);
    RecentTripsPrefix(trips);
    forall i | 0 <= i < |r|
      ensures r[i] in trips
    {
      assert r[i] == sorted[i];
      assert r[i] in multiset(sorted);
    }
  }

  /** No trip newer than the oldest one shown is left out of the list. */
  lemma RecentTripsMissNothingNewer(trips: seq<Trip>)
    ensures var r := RecentTrips(trips);
      forall t :: t in trips && |r| > 0 && t.createdAt > r[|r| - 1].createdAt ==> t in r
  {
    var sorted := Sort(trips, NewestFirst);
    var r := RecentTrips(trips);
    SortedNewestFirst(trips);
    RecentTripsPrefix(trips);
    forall t | t in trips && |r| > 0 && t.createdAt > r[|r| - 1].createdAt
      ensures t in r
    {
      assert t in multiset(sorted);
      var k :| 0 <= k < |sorted| && sorted[k] == t;
      assert r[|r| - 1] == sorted[|r| - 1];
      assert k < |r|;
      assert r[k] == t;
    }
  }

  /** `revenue || 0` summed over the Completed trips. */
  function CompletedRevenue(trips: seq<Trip>): int {
    Sum(Filter(trips, (t: Trip) => t.status == Completed), (t: Trip) => t.revenue.GetOr(0))
  }

  /** The revenue total adds up over any split of the trip list, and trips
      that are not Completed contribute nothing. */
  lemma {:induction false} CompletedRevenueAppend(s: seq<Trip>, t: seq<Trip>)
    ensures CompletedRevenue(s + t) == CompletedRevenue(s) + CompletedRevenue(t)
  {
    var p := (x: Trip) => x.status == Completed;
    FilterAppend(s, t, p);
    SumAppend(Filter(s, p), Filter(t, p), (x: Trip) => x.revenue.GetOr(0));
  }

  lemma {:induction false} CompletedRevenueIgnoresOpenTrips(trips: seq<Trip>)
    requires forall i :: 0 <= i < |trips| ==> trips[i].status != Completed
    ensures CompletedRevenue(trips) == 0
  {
    if |trips| > 0 {
      CompletedRevenueIgnoresOpenTrips(trips[1..]);
    }
  }

  /** The revenue card of the local dashboard: trips whose revenue is
      missing or zero are filtered out as falsy, and the rest are summed. */
  function TruthyRevenue(trips: seq<Trip>): int {
    Sum(Filter(trips, (t: Trip) => t.revenue.Some? && t.revenue.value != 0), (t: Trip) => t.revenue.GetOr(0))
  }

  /** Skipping the trips without revenue changes nothing: the total is the
      sum of all revenues, a missing one counting as 0. */
  lemma {:induction false} TruthyRevenueIsTotal(trips: seq<Trip>)
    ensures TruthyRevenue(trips) == Sum(trips, (t: Trip) => t.revenue.GetOr(0))
  {
    if |trips| > 0 {
      TruthyRevenueIsTotal(trips[1..]);
    }
  }

  /** The total cost of the expenses of type Fuel. */
  function FuelCost(expenses: seq<Expense>): int {
    Sum(Filter(expenses, (e: Expense) => e.expenseType == "Fuel"), (e: Expense) => e.cost)
  }

  /** Recording an expense raises the fuel cost by its cost if it is a Fuel
      expense, and leaves it unchanged otherwise. */
  lemma FuelCostAppend(expenses: seq<Expense>, e: Expense)
    ensures FuelCost(expenses + [e]) == FuelCost(expenses) + (if e.expenseType == "Fuel" then e.cost else 0)
  {
    var p := (x: Expense) => x.expenseType == "Fuel";
    FilterAppend(expenses, [e], p);
    SumAppend(Filter(expenses, p), Filter([e], p), (x: Expense) => x.cost);
  }

  /** The total cost of the service logs, whatever their status. */
  function MaintenanceCost(logs: seq<Maintenance>): int {
    Sum(logs, (m: Maintenance) => m.cost)
  }

  /** Logging a service raises the maintenance cost by the cost of the new
      log. */
  lemma MaintenanceCostAppend(logs: seq<Maintenance>, m: Maintenance)
    ensures MaintenanceCost(logs + [m]) == MaintenanceCost(logs) + m.cost
  {
    SumAppend(logs, [m], (x: Maintenance) => x.cost);
  }
}

=== FILE: lifecycle.dfy ===
/** The trip lifecycle as the local application enforces it: the reducer
    itself applies every trip action unconditionally, and the only guard is
    which row buttons the trips page renders. This module composes the two
    ("click a row button, then reduce") and proves the lifecycle properties
    that hold for the composition, together with the gaps the reducer alone
    leaves open. */
module Lifecycle {
  import opened Basics
  import opened Fleet
  import opened Store
  import opened Allocation
  import opened TripsPage

  /** The forward edges of the trip state machine, plus staying put. */
  predicate Advances(before: string, after: string) {
    || before == after
    || (before == Draft && (after == Dispatched || after == Cancelled))
    || (before == Dispatched && (after == Completed || after == Cancelled))
  }

  /** The user presses button `act` on the row showing trip `k` (typing
      `endOdometer` into the dialog for Complete), and whatever action the
      page fires is reduced. */
  function UiStep(s: AppState, k: nat, act: TripAction, endOdometer: Option<int>, now: nat, initial: AppState): AppState
    requires k < |s.trips|
  {
    match RowAction(s.trips[k], act, endOdometer)
    case None => s
    case Some(a) => Reduce(s, a, now, initial)
  }

  /** With unique trip ids, the reducer's `find` by id picks the row. */
  lemma TripByIdUnique(trips: seq<Trip>, k: nat)
    requires k < |trips| && UniqueKeys(trips, TripKey)
    ensures TripById(trips, trips[k].id) == Some(trips[k])
  {
    var r := TripById(trips, trips[k].id);
    var i :| 0 <= i < |trips| && trips[i] == r.value && forall j :: 0 <= j < i ==> trips[j].id != trips[k].id;
    assert TripKey(trips[i]) == TripKey(trips[k]);
  }

  /** The trip facts every status change shares: a step that rewrites only
      the records carrying row `k`'s id, keeps that row's id, vehicle and
      driver, and moves its status forward, moves every trip forward. */
  lemma {:induction false} RowUpdateAdvances(trips: seq<Trip>, k: nat, next: seq<Trip>)
    requires k < |trips| == |next| && UniqueKeys(trips, TripKey)
    requires forall i :: 0 <= i < |trips| && trips[i].id != trips[k].id ==> next[i] == trips[i]
    requires next[k].id == trips[k].id && next[k].vehicleId == trips[k].vehicleId && next[k].driverId == trips[k].driverId
    requires Advances(trips[k].status, next[k].status)
    ensures forall i :: 0 <= i < |trips| ==>
      && next[i].id == trips[i].id
      && next[i].vehicleId == trips[i].vehicleId
      && next[i].driverId == trips[i].driverId
      && Advances(trips[i].status, next[i].status)
    ensures UniqueKeys(next, TripKey)
  {
    forall i | 0 <= i < |trips| && trips[i].id == trips[k].id
      ensures i == k
    {
      assert TripKey(trips[i]) == TripKey(trips[k]);
    }
  }

  /** Through the page, every trip's status only moves forward along
      Draft -> Dispatched -> Completed, Draft -> Cancelled or
      Dispatched -> Cancelled; ids, vehicles and drivers of trips never
      change, so ids stay unique. */
  lemma {:induction false} UiStepAdvances(s: AppState, k: nat, act: TripAction, endOdometer: Option<int>, now: nat, initial: AppState)
    requires k < |s.trips| && UniqueKeys(s.trips, TripKey)
    ensures var r := UiStep(s, k, act, endOdometer, now, initial);
      && |r.trips| == |s.trips|
      && (forall i :: 0 <= i < |s.trips| ==>
            && r.trips[i].id == s.trips[i].id
            && r.trips[i].vehicleId == s.trips[i].vehicleId
            && r.trips[i].driverId == s.trips[i].driverId
            && Advances(s.trips[i].status, r.trips[i].status))
      && UniqueKeys(r.trips, TripKey)
  {
    var row := s.trips[k];
    UiStepCases(s, k, act, endOdometer, now, initial);
    if Offers(row.status, act) {
      match act
      case Dispatch => DispatchRowAdvances(s, k);
      case Cancel => CancelRowAdvances(s, k);
      case Complete =>
        if endOdometer.Some? {
          CompleteRowAdvances(s, k, endOdometer.value, now);
        }
    }
  }

  /** What a page step reduces to, by button. */
  lemma UiStepCases(s: AppState, k: nat, act: TripAction, endOdometer: Option<int>, now: nat, initial: AppState)
    requires k < |s.trips|
    ensures var r, id := UiStep(s, k, act, endOdometer, now, initial), s.trips[k].id;
      && (!Offers(s.trips[k].status, act) ==> r == s)
      && (Offers(s.trips[k].status, act) && act == Dispatch ==> r == DispatchTripIn(s, id))
      && (Offers(s.trips[k].status, act) && act == Cancel ==> r == CancelTripIn(s, id))
      && (Offers(s.trips[k].status, act) && act == Complete && endOdometer.None? ==> r == s)
      && (Offers(s.trips[k].status, act) && act == Complete && endOdometer.Some? ==>
            r == CompleteTripIn(s, id, endOdometer.value, now))
  {
    if Offers(s.trips[k].status, act) {
      match act
      case Dispatch => UiStepDispatch(s, k, endOdometer, now, initial);
      case Cancel => UiStepCancel(s, k, endOdometer, now, initial);
      case Complete => UiStepComplete(s, k, endOdometer, now, initial);
    }
  }

  /** The reducer's trip branches. */
  lemma ReduceTripAction(s: AppState, a: Action, now: nat, initial: AppState)
    ensures a.DispatchTrip? ==> Reduce(s, a, now, initial) == DispatchTripIn(s, a.tripId)
    ensures a.CompleteTrip? ==> Reduce(s, a, now, initial) == CompleteTripIn(s, a.tripId, a.endOdometer, now)
    ensures a.CancelTrip? ==> Reduce(s, a, now, initial) == CancelTripIn(s, a.tripId)
    ensures a.CreateTrip? ==> Reduce(s, a, now, initial) == CreateTripIn(s, a.draft, now)
  {
  }

  lemma UiStepDispatch(s: AppState, k: nat, endOdometer: Option<int>, now: nat, initial: AppState)
    requires k < |s.trips| && s.trips[k].status == Draft
    ensures UiStep(s, k, Dispatch, endOdometer, now, initial) == DispatchTripIn(s, s.trips[k].id)
  {
    var a := RowAction(s.trips[k], Dispatch, endOdometer);
    assert a == Some(DispatchTrip(s.trips[k].id));
    ReduceTripAction(s, a.value, now, initial);
  }

  lemma UiStepCancel(s: AppState, k: nat, endOdometer: Option<int>, now: nat, initial: AppState)
    requires k < |s.trips| && (s.trips[k].status == Draft || s.trips[k].status == Dispatched)
    ensures UiStep(s, k, Cancel, endOdometer, now, initial) == CancelTripIn(s, s.trips[k].id)
  {
    var a := RowAction(s.trips[k], Cancel, endOdometer);
    assert a == Some(CancelTrip(s.trips[k].id));
    ReduceTripAction(s, a.value, now, initial);
  }

  lemma UiStepComplete(s: AppState, k: nat, endOdometer: Option<int>, now: nat, initial: AppState)
    requires k < |s.trips| && s.trips[k].status == Dispatched
    ensures endOdometer.None? ==> UiStep(s, k, Complete, endOdometer, now, initial) == s
    ensures endOdometer.Some? ==>
      UiStep(s, k, Complete, endOdometer, now, initial) == CompleteTripIn(s, s.trips[k].id, endOdometer.value, now)
  {
    var a := RowAction(s.trips[k], Complete, endOdometer);
    if endOdometer.Some? {
      assert a == Some(CompleteTrip(s.trips[k].id, endOdometer.value));
      ReduceTripAction(s, a.value, now, initial);
    } else {
      assert a.None?;
    }
  }

  lemma {:induction false} DispatchRowAdvances(s: AppState, k: nat)
    requires k < |s.trips| && UniqueKeys(s.trips, TripKey) && s.trips[k].status == Draft
    ensures var r := DispatchTripIn(s, s.trips[k].id);
      && |r.trips| == |s.trips|
      && (forall i :: 0 <= i < |s.trips| ==>
            && r.trips[i].id == s.trips[i].id
            && r.trips[i].vehicleId == s.trips[i].vehicleId
            && r.trips[i].driverId == s.trips[i].driverId
            && Advances(s.trips[i].status, r.trips[i].status))
      && UniqueKeys(r.trips, TripKey)
  {
    TripByIdUnique(s.trips, k);
    RowUpdateAdvances(s.trips, k, DispatchTripIn(s, s.trips[k].id).trips);
  }

  lemma {:induction false} CompleteRowAdvances(s: AppState, k: nat, endOdometer: int, now: nat)
    requires k < |s.trips| && UniqueKeys(s.trips, TripKey) && s.trips[k].status == Dispatched
    ensures var r := CompleteTripIn(s, s.trips[k].id, endOdometer, now);
      && |r.trips| == |s.trips|
      && (forall i :: 0 <= i < |s.trips| ==>
            && r.trips[i].id == s.trips[i].id
            && r.trips[i].vehicleId == s.trips[i].vehicleId
            && r.trips[i].driverId == s.trips[i].driverId
            && Advances(s.trips[i].status, r.trips[i].status))
      && UniqueKeys(r.trips, TripKey)
  {
    TripByIdUnique(s.trips, k);
    RowUpdateAdvances(s.trips, k, CompleteTripIn(s, s.trips[k].id, endOdometer, now).trips);
  }

  lemma {:induction false} CancelRowAdvances(s: AppState, k: nat)
    requires k < |s.trips| && UniqueKeys(s.trips, TripKey)
    requires s.trips[k].status == Draft || s.trips[k].status == Dispatched
    ensures var r := CancelTripIn(s, s.trips[k].id);
      && |r.trips| == |s.trips|
      && (forall i :: 0 <= i < |s.trips| ==>
            && r.trips[i].id == s.trips[i].id
            && r.trips[i].vehicleId == s.trips[i].vehicleId
            && r.trips[i].driverId == s.trips[i].driverId
            && Advances(s.trips[i].status, r.trips[i].status))
      && UniqueKeys(r.trips, TripKey)
  {
    TripByIdUnique(s.trips, k);
    RowUpdateAdvances(s.trips, k, CancelTripIn(s, s.trips[k].id).trips);
  }

  /** A finished trip (Completed or Cancelled) never changes status through
      the page. */
  lemma TerminalStaysTerminal(s: AppState, k: nat, act: TripAction, endOdometer: Option<int>, now: nat, initial: AppState, i: nat)
    requires k < |s.trips| && UniqueKeys(s.trips, TripKey)
    requires i < |s.trips| && (s.trips[i].status == Completed || s.trips[i].status == Cancelled)
    ensures UiStep(s, k, act, endOdometer, now, initial).trips[i].status == s.trips[i].status
  {
    UiStepAdvances(s, k, act, endOdometer, now, initial);
  }

  /** Completing a trip through the page twice has the effect of completing
      it once: the second time the Complete button is gone, so the driver's
      trip counter goes up by exactly one. */
  lemma {:induction false} CompleteTwiceCountsOnce(s: AppState, k: nat, e1: Option<int>, e2: Option<int>, now1: nat, now2: nat, initial: AppState)
    requires k < |s.trips| && UniqueKeys(s.trips, TripKey)
    requires s.trips[k].status == Dispatched && e1.Some?
    ensures var s1 := UiStep(s, k, Complete, e1, now1, initial);
      && k < |s1.trips|
      && s1.trips[k].status == Completed
      && UiStep(s1, k, Complete, e2, now2, initial) == s1
      && |s1.drivers| == |s.drivers|
      && (forall i :: 0 <= i < |s.drivers| ==>
            s1.drivers[i].tripsCompleted ==
              s.drivers[i].tripsCompleted + (if s.drivers[i].id == s.trips[k].driverId then 1 else 0))
  {
    UiStepComplete(s, k, e1, now1, initial);
    TripByIdUnique(s.trips, k);
    var s1 := CompleteTripIn(s, s.trips[k].id, e1.value, now1);
    assert s1.trips[k].status == Completed;
    UiStepCases(s1, k, Complete, e2, now2, initial);
  }

  /** Two trip lists with the same ids in the same order: uniqueness carries
      over. */
  lemma SameIdsKeepUnique(a: seq<Trip>, b: seq<Trip>)
    requires |a| == |b| && UniqueKeys(a, TripKey)
    requires forall i :: 0 <= i < |a| ==> b[i].id == a[i].id
    ensures UniqueKeys(b, TripKey)
  {
    forall i, j | 0 <= i < |b| && 0 <= j < |b| && TripKey(b[i]) == TripKey(b[j])
      ensures i == j
    {
      assert TripKey(a[i]) == TripKey(a[j]);
    }
  }

  /** `DISPATCH_TRIP` on row `k` with unique trip ids. */
  lemma {:induction false} DispatchRow(s: AppState, k: nat)
    requires k < |s.trips| && UniqueKeys(s.trips, TripKey)
    ensures var t, s1 := s.trips[k], DispatchTripIn(s, s.trips[k].id);
      && |s1.trips| == |s.trips| && s1.trips[k] == t.(status := Dispatched)
      && UniqueKeys(s1.trips, TripKey)
      && |s1.vehicles| == |s.vehicles| && |s1.drivers| == |s.drivers|
      && (forall i :: 0 <= i < |s.trips| ==>
            s1.trips[i] == if s.trips[i].id == t.id then s.trips[i].(status := Dispatched) else s.trips[i])
      && (forall i :: 0 <= i < |s.vehicles| ==>
            s1.vehicles[i] == if s.vehicles[i].id == t.vehicleId then s.vehicles[i].(status := OnTrip) else s.vehicles[i])
      && (forall i :: 0 <= i < |s.drivers| ==>
            s1.drivers[i] == if s.drivers[i].id == t.driverId then s.drivers[i].(status := OnTrip) else s.drivers[i])
  {
    TripByIdUnique(s.trips, k);
    DispatchRowTrips(s, k);
  }

  /** The trip side of `DispatchRow`. */
  lemma {:induction false} DispatchRowTrips(s: AppState, k: nat)
    requires k < |s.trips| && UniqueKeys(s.trips, TripKey)
    requires TripById(s.trips, s.trips[k].id) == Some(s.trips[k])
    ensures var s1 := DispatchTripIn(s, s.trips[k].id);
      && |s1.trips| == |s.trips| && s1.trips[k] == s.trips[k].(status := Dispatched)
      && UniqueKeys(s1.trips, TripKey)
  {
    var s1 := DispatchTripIn(s, s.trips[k].id);
    assert forall i :: 0 <= i < |s.trips| ==> s1.trips[i].id == s.trips[i].id;
    SameIdsKeepUnique(s.trips, s1.trips);
  }

  /** `CANCEL_TRIP` on a Dispatched row `k` with unique trip ids. */
  lemma {:induction false} CancelDispatchedRow(s: AppState, k: nat)
    requires k < |s.trips| && UniqueKeys(s.trips, TripKey) && s.trips[k].status == Dispatched
    ensures var t, s1 := s.trips[k], CancelTripIn(s, s.trips[k].id);
      && |s1.trips| == |s.trips|
      && |s1.vehicles| == |s.vehicles| && |s1.drivers| == |s.drivers|
      && (forall i :: 0 <= i < |s.trips| ==>
            s1.trips[i] == if s.trips[i].id == t.id then s.trips[i].(status := Cancelled) else s.trips[i])
      && (forall i :: 0 <= i < |s.vehicles| ==>
            s1.vehicles[i] == if s.vehicles[i].id == t.vehicleId then s.vehicles[i].(status := Available) else s.vehicles[i])
      && (forall i :: 0 <= i < |s.drivers| ==>
            s1.drivers[i] == if s.drivers[i].id == t.driverId then s.drivers[i].(status := OnDuty) else s.drivers[i])
  {
    TripByIdUnique(s.trips, k);
  }

  /** `DISPATCH_TRIP` followed by `CANCEL_TRIP` on row `k`, at the level of
      the reducer's branches. */
  lemma {:induction false} DispatchCancelBranches(s: AppState, k: nat)
    requires k < |s.trips| && UniqueKeys(s.trips, TripKey)
    requires forall i :: 0 <= i < |s.vehicles| && s.vehicles[i].id == s.trips[k].vehicleId ==> s.vehicles[i].status == Available
    requires forall i :: 0 <= i < |s.drivers| && s.drivers[i].id == s.trips[k].driverId ==> s.drivers[i].status == OnDuty
    ensures var id := s.trips[k].id;
      var s1 := DispatchTripIn(s, id);
      var s2 := CancelTripIn(s1, id);
      && k < |s1.trips| && s1.trips[k] == s.trips[k].(status := Dispatched)
      && s2.vehicles == s.vehicles
      && s2.drivers == s.drivers
      && |s2.trips| == |s.trips|
      && (forall i :: 0 <= i < |s.trips| ==>
            s2.trips[i] == if s.trips[i].id == id then s.trips[i].(status := Cancelled) else s.trips[i])
  {
    var id := s.trips[k].id;
    DispatchRow(s, k);
    var s1 := DispatchTripIn(s, id);
    CancelDispatchedRow(s1, k);
    var s2 := CancelTripIn(s1, id);
    RestoredStatuses(s.vehicles, s1.vehicles, s2.vehicles, s.trips[k].vehicleId);
    RestoredDrivers(s.drivers, s1.drivers, s2.drivers, s.trips[k].driverId);
  }

  lemma RestoredStatuses(v0: seq<Vehicle>, v1: seq<Vehicle>, v2: seq<Vehicle>, id: string)
    requires |v1| == |v0| && |v2| == |v0|
    requires forall i :: 0 <= i < |v0| && v0[i].id == id ==> v0[i].status == Available
    requires forall i :: 0 <= i < |v0| ==> v1[i] == if v0[i].id == id then v0[i].(status := OnTrip) else v0[i]
    requires forall i :: 0 <= i < |v1| ==> v2[i] == if v1[i].id == id then v1[i].(status := Available) else v1[i]
    ensures v2 == v0
  {
    assert forall i :: 0 <= i < |v0| ==> v2[i] == v0[i];
  }

  lemma RestoredDrivers(d0: seq<Driver>, d1: seq<Driver>, d2: seq<Driver>, id: string)
    requires |d1| == |d0| && |d2| == |d0|
    requires forall i :: 0 <= i < |d0| && d0[i].id == id ==> d0[i].status == OnDuty
    requires forall i :: 0 <= i < |d0| ==> d1[i] == if d0[i].id == id then d0[i].(status := OnTrip) else d0[i]
    requires forall i :: 0 <= i < |d1| ==> d2[i] == if d1[i].id == id then d1[i].(status := OnDuty) else d1[i]
    ensures d2 == d0
  {
    assert forall i :: 0 <= i < |d0| ==> d2[i] == d0[i];
  }

  /** The reducer alone: dispatching and then cancelling the same trip puts
      every vehicle and driver record back as it was, provided the trip's
      vehicle was Available and its driver On Duty to begin with. No check
      on the trip's own status is needed, because the reducer makes no such
      check either. */
  lemma {:induction false} DispatchThenCancelRestores(s: AppState, k: nat, now: nat, initial: AppState)
    requires k < |s.trips| && UniqueKeys(s.trips, TripKey)
    requires forall i :: 0 <= i < |s.vehicles| && s.vehicles[i].id == s.trips[k].vehicleId ==> s.vehicles[i].status == Available
    requires forall i :: 0 <= i < |s.drivers| && s.drivers[i].id == s.trips[k].driverId ==> s.drivers[i].status == OnDuty
    ensures var id := s.trips[k].id;
      var s2 := Reduce(Reduce(s, DispatchTrip(id), now, initial), CancelTrip(id), now, initial);
      && s2.vehicles == s.vehicles
      && s2.drivers == s.drivers
      && |s2.trips| == |s.trips|
      && (forall i :: 0 <= i < |s.trips| ==>
            s2.trips[i] == if s.trips[i].id == id then s.trips[i].(status := Cancelled) else s.trips[i])
  {
    var id := s.trips[k].id;
    ReduceTripAction(s, DispatchTrip(id), now, initial);
    ReduceTripAction(DispatchTripIn(s, id), CancelTrip(id), now, initial);
    DispatchCancelBranches(s, k);
  }

  /** The same round trip through the page: a Draft trip whose vehicle is
      Available and driver On Duty, dispatched and then cancelled from its
      row, leaves vehicles and drivers as they were. */
  lemma {:induction false} UiDispatchThenCancel(s: AppState, k: nat, now1: nat, now2: nat, initial: AppState)
    requires k < |s.trips| && UniqueKeys(s.trips, TripKey)
    requires s.trips[k].status == Draft
    requires forall i :: 0 <= i < |s.vehicles| && s.vehicles[i].id == s.trips[k].vehicleId ==> s.vehicles[i].status == Available
    requires forall i :: 0 <= i < |s.drivers| && s.drivers[i].id == s.trips[k].driverId ==> s.drivers[i].status == OnDuty
    ensures var s1 := UiStep(s, k, Dispatch, None, now1, initial);
      && k < |s1.trips| && s1.trips[k].status == Dispatched
      && var s2 := UiStep(s1, k, Cancel, None, now2, initial);
      && s2.vehicles == s.vehicles && s2.drivers == s.drivers
      && s2.trips[k].status == Cancelled
  {
    UiStepDispatch(s, k, None, now1, initial);
    DispatchCancelBranches(s, k);
    var s1 := DispatchTripIn(s, s.trips[k].id);
    UiStepCancel(s1, k, None, now2, initial);
  }

  /** `DISPATCH_TRIP` on two different rows `k` and `j`, at the level of the
      reducer's branches. */
  lemma {:induction false} DispatchTwoRows(s: AppState, k: nat, j: nat)
    requires k < |s.trips| && j < |s.trips| && k != j && UniqueKeys(s.trips, TripKey)
    ensures var s1 := DispatchTripIn(s, s.trips[k].id);
      && |s1.trips| == |s.trips| && s1.trips[j] == s.trips[j] && UniqueKeys(s1.trips, TripKey)
      && (forall i :: 0 <= i < |s1.vehicles| && s1.vehicles[i].id == s.trips[k].vehicleId ==> s1.vehicles[i].status == OnTrip)
      && var s2 := DispatchTripIn(s1, s.trips[j].id);
      && |s2.trips| == |s.trips|
      && s2.trips[k].status == Dispatched && s2.trips[j].status == Dispatched
  {
    DispatchRow(s, k);
    var s1 := DispatchTripIn(s, s.trips[k].id);
    assert TripKey(s.trips[j]) != TripKey(s.trips[k]);
    assert s1.trips[j] == s.trips[j];
    DispatchRowTrips2(s1, j, k);
  }

  /** Dispatching row `j` leaves another row `k` alone and marks `j`
      Dispatched. */
  lemma {:induction false} DispatchRowTrips2(s: AppState, j: nat, k: nat)
    requires k < |s.trips| && j < |s.trips| && k != j && UniqueKeys(s.trips, TripKey)
    ensures var r := DispatchTripIn(s, s.trips[j].id);
      && |r.trips| == |s.trips| && r.trips[j].status == Dispatched && r.trips[k] == s.trips[k]
  {
    TripByIdUnique(s.trips, j);
    assert TripKey(s.trips[j]) != TripKey(s.trips[k]);
  }

  /** Nothing stops two Draft trips of the same vehicle: after the first is
      dispatched and its vehicle is On Trip, the second still shows its
      Dispatch button, and pressing it dispatches the vehicle a second
      time. */
  lemma {:induction false} SameVehicleDispatchedTwice(s: AppState, k: nat, j: nat, now: nat, initial: AppState)
    requires k < |s.trips| && j < |s.trips| && k != j && UniqueKeys(s.trips, TripKey)
    requires s.trips[k].status == Draft && s.trips[j].status == Draft
    requires s.trips[k].vehicleId == s.trips[j].vehicleId
    ensures var s1 := UiStep(s, k, Dispatch, None, now, initial);
      && |s1.trips| == |s.trips| && s1.trips[j].status == Draft
      && (forall i :: 0 <= i < |s1.vehicles| && s1.vehicles[i].id == s.trips[j].vehicleId ==> s1.vehicles[i].status == OnTrip)
      && var s2 := UiStep(s1, j, Dispatch, None, now, initial);
      && |s2.trips| == |s.trips|
      && s2.trips[k].status == Dispatched && s2.trips[j].status == Dispatched
  {
    UiStepDispatch(s, k, None, now, initial);
    DispatchTwoRows(s, k, j);
    var s1 := DispatchTripIn(s, s.trips[k].id);
    UiStepDispatch(s1, j, None, now, initial);
  }

  /** The page does not compare the entered end reading with the start
      reading, and the reducer copies it onto the vehicle: completing with a
      reading below the start winds the vehicle's odometer back. */
  lemma {:induction false} CompleteAcceptsAnyReading(s: AppState, k: nat, e: int, now: nat, initial: AppState)
    requires k < |s.trips| && UniqueKeys(s.trips, TripKey)
    requires s.trips[k].status == Dispatched
    ensures var r := UiStep(s, k, Complete, Some(e), now, initial);
      && k < |r.trips|
      && r.trips[k].status == Completed
      && r.trips[k].endOdometer == Some(e)
      && |r.vehicles| == |s.vehicles|
      && (forall i :: 0 <= i < |s.vehicles| && s.vehicles[i].id == s.trips[k].vehicleId ==>
            r.vehicles[i].odometer == e && r.vehicles[i].status == Available)
  {
    UiStepComplete(s, k, Some(e), now, initial);
    TripByIdUnique(s.trips, k);
  }

  /** Submitting the create form and reducing the resulting action appends
      one Draft trip whose cargo fits its vehicle, whose driver's license is
      valid for that vehicle, and whose start reading is the vehicle's
      odometer; vehicles and drivers are untouched. A rejected form fires no
      action at all. */
  lemma CreateThroughPage(s: AppState, form: TripForm, today: string, now: nat, initial: AppState)
    requires HandleCreate(s.vehicles, s.drivers, form, today).Submitted?
    ensures var r := Reduce(s, HandleCreate(s.vehicles, s.drivers, form, today).action, now, initial);
      var v := VehicleById(s.vehicles, form.vehicleId).value;
      && |r.trips| == |s.trips| + 1 && r.trips[..|s.trips|] == s.trips
      && r.vehicles == s.vehicles && r.drivers == s.drivers
      && r.trips[|s.trips|].status == Draft
      && r.trips[|s.trips|].vehicleId == v.id
      && r.trips[|s.trips|].cargoWeight <= v.maxCapacity
      && r.trips[|s.trips|].startOdometer == v.odometer
      && LicenseValid(DriverById(s.drivers, form.driverId), v.vehicleType, today)
  {
    ReduceTripAction(s, HandleCreate(s.vehicles, s.drivers, form, today).action, now, initial);
  }

  /** With unique vehicle ids, a vehicle id picked from the create form's
      list names an Available vehicle; likewise for drivers and On Duty.
      This is the only place the page ties creation to status: the check
      chain itself looks the ids up among all records. */
  lemma SelectionImpliesStatus(vehicles: seq<Vehicle>, drivers: seq<Driver>, form: TripForm)
    requires UniqueKeys(vehicles, VehicleKey) && UniqueKeys(drivers, DriverKey)
    requires exists v :: v in SelectableVehicles(vehicles) && v.id == form.vehicleId
    requires exists d :: d in SelectableDrivers(drivers) && d.id == form.driverId
    ensures VehicleById(vehicles, form.vehicleId).Some? && VehicleById(vehicles, form.vehicleId).value.status == Available
    ensures DriverById(drivers, form.driverId).Some? && DriverById(drivers, form.driverId).value.status == OnDuty
  {
    var v :| v in SelectableVehicles(vehicles) && v.id == form.vehicleId;
    var d :| d in SelectableDrivers(drivers) && d.id == form.driverId;
    var iv :| 0 <= iv < |vehicles| && vehicles[iv] == v;
    var id :| 0 <= id < |drivers| && drivers[id] == d;
    var fv := VehicleById(vehicles, form.vehicleId).value;
    var jv :| 0 <= jv < |vehicles| && vehicles[jv] == fv;
    assert VehicleKey(vehicles[jv]) == VehicleKey(vehicles[iv]);
    var fd := DriverById(drivers, form.driverId).value;
    var jd :| 0 <= jd < |drivers| && drivers[jd] == fd;
    assert DriverKey(drivers[jd]) == DriverKey(drivers[id]);
  }
}

=== FILE: maintenance_page.dfy ===
/** The service log page of the local-store application
    (src/pages/MaintenancePage.jsx): logging a service sends the vehicle to
    the shop, and the Mark Complete button on an open log brings it back. */
module MaintenancePage {
  import opened Basics
  import opened Fleet
  import opened Store

  /** The vehicles the service form offers: every vehicle not Retired, in
      registry order. */
  function ServicePool(vehicles: seq<Vehicle>): (r: seq<Vehicle>)
    ensures SubsequenceOf(r, vehicles)
    ensures forall v :: v in r <==> v in vehicles && v.status != Retired
  {
    Filter(vehicles, (v: Vehicle) => v.status != Retired)
  }

  /** A vehicle that is On Trip is still offered: the pool only leaves out
      Retired vehicles, so a service can be logged for a vehicle that is on
      the road. */
  lemma PoolKeepsVehiclesOnTrip(vehicles: seq<Vehicle>, v: Vehicle)
    requires v in vehicles && v.status == OnTrip
    ensures v in ServicePool(vehicles)
  {
  }

  /** The service form after `Number(form.cost)`. */
  datatype MaintenanceForm = MaintenanceForm(
    vehicleId: string,
    serviceType: string,
    description: string,
    cost: int,
    serviceDate: string,
    nextDueDate: string)

  /** The form `Log Service` opens with, and is reset to after saving. */
  const EmptyForm: MaintenanceForm := MaintenanceForm("", "Oil Change", "", 0, "", "")

  /** `handleAdd`: the form fields become the service log payload. */
  function HandleAdd(form: MaintenanceForm): (r: Action)
    ensures r.AddMaintenance?
    ensures r.log.vehicleId == form.vehicleId && r.log.cost == form.cost
    ensures r.log.serviceType == form.serviceType && r.log.serviceDate == form.serviceDate
    ensures r.log.description == form.description && r.log.nextDueDate == form.nextDueDate
  {
    AddMaintenance(MaintenanceDraft(form.vehicleId, form.serviceType, form.description, form.cost,
                                    form.serviceDate, form.nextDueDate))
  }

  /** Logging a service through the page appends one open log for the chosen
      vehicle and sends that vehicle, and no other, to the shop. */
  lemma LogServiceThroughPage(s: AppState, form: MaintenanceForm, now: nat, initial: AppState)
    ensures var r := Reduce(s, HandleAdd(form), now, initial);
      && |r.maintenance| == |s.maintenance| + 1 && r.maintenance[..|s.maintenance|] == s.maintenance
      && r.maintenance[|s.maintenance|].id == FreshId("m", now)
      && r.maintenance[|s.maintenance|].status == InProgress
      && r.maintenance[|s.maintenance|].vehicleId == form.vehicleId
      && r.maintenance[|s.maintenance|].cost == form.cost
      && |r.vehicles| == |s.vehicles|
      && (forall i :: 0 <= i < |s.vehicles| ==>
            && (s.vehicles[i].id == form.vehicleId ==> r.vehicles[i].status == InShop)
            && (s.vehicles[i].id != form.vehicleId ==> r.vehicles[i] == s.vehicles[i]))
      && r.trips == s.trips && r.drivers == s.drivers
  {
  }

  /** The Mark Complete button: shown only on a log In Progress, and it sends
      the log's id together with its vehicle's id. */
  function MarkComplete(row: Maintenance): (r: Option<Action>)
    ensures r.Some? <==> row.status == InProgress
    ensures r.Some? ==> r.value.CompleteMaintenance? && r.value.logId == row.id && r.value.logVehicleId == row.vehicleId
  {
    if row.status == InProgress then Some(CompleteMaintenance(row.id, row.vehicleId)) else None
  }

  /** Pressing Mark Complete on row `k` of the service log and reducing. */
  function MarkCompleteStep(s: AppState, k: nat, now: nat, initial: AppState): AppState
    requires k < |s.maintenance|
  {
    match MarkComplete(s.maintenance[k])
    case None => s
    case Some(a) => Reduce(s, a, now, initial)
  }

  /** With unique log ids, pressing Mark Complete on an open log closes that
      log, makes its vehicle Available, and changes nothing else; on a closed
      log nothing happens. */
  lemma MarkCompleteEffect(s: AppState, k: nat, now: nat, initial: AppState)
    requires k < |s.maintenance| && UniqueKeys(s.maintenance, MaintenanceKey)
    ensures var r := MarkCompleteStep(s, k, now, initial);
      && (s.maintenance[k].status != InProgress ==> r == s)
      && (s.maintenance[k].status == InProgress ==>
            && |r.maintenance| == |s.maintenance| && |r.vehicles| == |s.vehicles|
            && r.maintenance[k] == s.maintenance[k].(status := Completed)
            && (forall i :: 0 <= i < |s.maintenance| && i != k ==> r.maintenance[i] == s.maintenance[i])
            && (forall i :: 0 <= i < |s.vehicles| ==>
                  r.vehicles[i] == if s.vehicles[i].id == s.maintenance[k].vehicleId
                                   then s.vehicles[i].(status := Available) else s.vehicles[i])
            && r.trips == s.trips && r.drivers == s.drivers)
  {
    forall i | 0 <= i < |s.maintenance| && s.maintenance[i].id == s.maintenance[k].id
      ensures i == k
    {
      assert MaintenanceKey(s.maintenance[i]) == MaintenanceKey(s.maintenance[k]);
    }
  }

  /** Two logs open on the same vehicle: completing one leaves the other In
      Progress while the vehicle is already back to Available, so a vehicle
      can be dispatchable with an open service log. */
  lemma CompletingOneOfTwoOpenLogs(s: AppState, k: nat, j: nat, now: nat, initial: AppState)
    requires k < |s.maintenance| && j < |s.maintenance| && UniqueKeys(s.maintenance, MaintenanceKey)
    requires k != j && s.maintenance[k].status == InProgress && s.maintenance[j].status == InProgress
    requires s.maintenance[k].vehicleId == s.maintenance[j].vehicleId
    ensures var r := MarkCompleteStep(s, k, now, initial);
      && r.maintenance[j].status == InProgress
      && (forall i :: 0 <= i < |r.vehicles| && r.vehicles[i].id == s.maintenance[j].vehicleId ==>
            r.vehicles[i].status == Available)
  {
    MarkCompleteEffect(s, k, now, initial);
  }

  /** `ADD_MAINTENANCE` followed by `COMPLETE_MAINTENANCE` of the new log,
      at the level of the reducer's branches. */
  lemma {:induction false} AddCompleteBranches(s: AppState, m: MaintenanceDraft, now: nat)
    requires forall i :: 0 <= i < |s.vehicles| && s.vehicles[i].id == m.vehicleId ==> s.vehicles[i].status == Available
    ensures CompleteMaintenanceIn(AddMaintenanceIn(s, m, now), FreshId("m", now), m.vehicleId).vehicles == s.vehicles
  {
    var s2 := CompleteMaintenanceIn(AddMaintenanceIn(s, m, now), FreshId("m", now), m.vehicleId);
    forall i | 0 <= i < |s.vehicles|
      ensures s2.vehicles[i] == s.vehicles[i]
    {
      if s.vehicles[i].id == m.vehicleId {
        assert s2.vehicles[i] == s.vehicles[i].(status := InShop).(status := Available);
      }
    }
  }

  /** Logging a service and completing the new log returns every vehicle
      record to the state it was in, provided the serviced vehicle was
      Available to begin with. */
  lemma {:induction false} ServiceRoundTrip(s: AppState, form: MaintenanceForm, now: nat, initial: AppState)
    requires forall i :: 0 <= i < |s.vehicles| && s.vehicles[i].id == form.vehicleId ==> s.vehicles[i].status == Available
    ensures var s1 := Reduce(s, HandleAdd(form), now, initial);
      var log := s1.maintenance[|s.maintenance|];
      var s2 := Reduce(s1, CompleteMaintenance(log.id, log.vehicleId), now, initial);
      s2.vehicles == s.vehicles
  {
    var m := HandleAdd(form).log;
    var s1 := AddMaintenanceIn(s, m, now);
    assert Reduce(s, HandleAdd(form), now, initial) == s1;
    assert s1.maintenance[|s.maintenance|] == NewMaintenance(m, now);
    assert Reduce(s1, CompleteMaintenance(FreshId("m", now), m.vehicleId), now, initial)
        == CompleteMaintenanceIn(s1, FreshId("m", now), m.vehicleId);
    AddCompleteBranches(s, m, now);
  }
}

=== FILE: metrics.dfy ===
/** The integer percentages the pages display: `Math.round(part / whole *
    100)` for a whole that the caller has checked to be positive. */
module Metrics {

  /** `r` is `100 * part / whole` rounded to the nearest integer, halves
      rounding up: `r - 1/2 <= 100 * part / whole < r + 1/2`, scaled by the
      positive `2 * whole`. */
  predicate RoundedPercent(r: int, part: int, whole: int) {
    2 * whole * r <= 200 * part + whole < 2 * whole * (r + 1)
  }

  /** `Math.round(100 * part / whole)` computed on exact rationals:
      `Math.round(x)` is `floor(x + 1/2)`, so halves round up. */
  function RoundPercent(part: nat, whole: nat): (r: int)
    requires whole > 0
    ensures 2 * whole * r <= 200 * part + whole < 2 * whole * (r + 1)
    ensures part <= whole ==> 0 <= r <= 100
  {
    var r := (200 * part + whole) / (2 * whole);
    assert part <= whole ==> 200 * part + whole < 2 * whole * 101;
    r
  }

  /** Cancelling a positive factor from a strict inequality. */
  lemma CancelFactor(w: int, x: int, y: int)
    requires w > 0 && w * x < w * y
    ensures x < y
  {
    if x >= y {
      MultiplyMonotone(w, y, x);
    }
  }

  lemma MultiplyMonotone(w: int, x: int, y: int)
    requires w > 0 && x <= y
    ensures w * x <= w * y
  {
  }

  /** Exact percentages come out unchanged; in particular none of the whole
      is 0 and all of it is 100. */
  lemma RoundPercentExact(part: nat, whole: nat, p: int)
    requires whole > 0 && 100 * part == p * whole
    ensures RoundPercent(part, whole) == p
  {
    var r, w := RoundPercent(part, whole), whole as int;
    assert 2 * w * r < 2 * w * (p + 1);
    CancelFactor(2 * w, r, p + 1);
    assert 2 * w * p < 2 * w * (r + 1);
    CancelFactor(2 * w, p, r + 1);
  }

  /** A larger part never gives a smaller percentage. */
  lemma RoundPercentMonotone(a: nat, b: nat, whole: nat)
    requires whole > 0 && a <= b
    ensures RoundPercent(a, whole) <= RoundPercent(b, whole)
  {
    var ra, rb, w := RoundPercent(a, whole), RoundPercent(b, whole), whole as int;
    assert 2 * w * ra < 2 * w * (rb + 1);
    CancelFactor(2 * w, ra, rb + 1);
  }

  /** Measured against a larger whole, the same part never gives a larger
      percentage. */
  lemma RoundPercentAntitone(part: nat, w1: nat, w2: nat)
    requires 0 < w1 <= w2
    ensures RoundPercent(part, w2) <= RoundPercent(part, w1)
  {
    var r1, r2 := RoundPercent(part, w1), RoundPercent(part, w2);
    var a, v1, v2 := part as int, w1 as int, w2 as int;
    assert 0 <= r2 by {
      assert 2 * v2 * 0 < 2 * v2 * (r2 + 1);
      CancelFactor(2 * v2, 0, r2 + 1);
    }
    if r1 < r2 {
      // v2 * (2r2 - 1) <= 200a < v1 * (2r1 + 1) <= v1 * (2r2 - 1) <= v2 * (2r2 - 1)
      MultiplyMonotone(v1, 2 * r1 + 1, 2 * r2 - 1);
      MultiplyMonotone(2 * r2 - 1, v1, v2);
      assert false;
    }
  }
}

=== FILE: routes.dfy ===
/** The routing of the local-store application (src/App.jsx): the login
    route, the layout that stands in the login page for a signed-out user,
    the route table with the roles each page admits, and `ProtectedRoute`,
    which decides between rendering a page and redirecting. */
module Routes {
  import opened Basics
  import opened Fleet

  datatype Page = DashboardView | VehiclesView | TripsView | MaintenanceView
                | ExpensesView | DriversView | AnalyticsView | LoginView

  /** What a navigation ends in: a page on screen, or a redirect (`Navigate
      replace`) to another path. */
  datatype Outcome = Render(page: Page) | Redirect(to: string)

  /** A route: its path, its page, and the roles allowed on it (`None` when
      the route gives no `allowedRoles`). */
  datatype Route = Route(path: string, page: Page, allowedRoles: Option<seq<string>>)

  /** The routes inside the layout, in declaration order. */
  const RouteTable: seq<Route> := [
    Route("/", DashboardView, None),
    Route("/vehicles", VehiclesView, Some([Manager, Dispatcher])),
    Route("/trips", TripsView, Some([Manager, Dispatcher])),
    Route("/maintenance", MaintenanceView, Some([Manager])),
    Route("/expenses", ExpensesView, Some([Manager, FinancialAnalyst])),
    Route("/drivers", DriversView, Some([Manager, Dispatcher, SafetyOfficer])),
    Route("/analytics", AnalyticsView, Some([Manager, FinancialAnalyst]))
  ]

  const LoginPath: string := "/login"
  const HomePath: string := "/"

  /** Whether the route's role list contains the user's role; a signed-out
      user has no role, which no list contains. */
  predicate RoleAllowed(role: Option<string>, allowed: seq<string>) {
    role.Some? && role.value in allowed
  }

  /** `ProtectedRoute`. */
  function Protect(auth: Auth, route: Route): (r: Outcome)
    ensures !auth.isAuthenticated <==> r == Redirect(LoginPath)
    ensures r == Redirect(HomePath) <==>
      auth.isAuthenticated && route.allowedRoles.Some? && !RoleAllowed(RoleOf(auth), route.allowedRoles.value)
    ensures r.Render? <==>
      auth.isAuthenticated && (route.allowedRoles.None? || RoleAllowed(RoleOf(auth), route.allowedRoles.value))
    ensures r.Render? ==> r.page == route.page
  {
    if !auth.isAuthenticated then Redirect(LoginPath)
    else if route.allowedRoles.Some? && !RoleAllowed(RoleOf(auth), route.allowedRoles.value) then Redirect(HomePath)
    else Render(route.page)
  }

  /** The route of the table whose path is `path`, if any. */
  function Lookup(path: string): (r: Option<Route>)
    ensures r.Some? <==> exists i :: 0 <= i < |RouteTable| && RouteTable[i].path == path
    ensures r.Some? ==> r.value in RouteTable && r.value.path == path
  {
    LookupIn(RouteTable, path)
  }

  function LookupIn(routes: seq<Route>, path: string): (r: Option<Route>)
    ensures r.Some? <==> exists i :: 0 <= i < |routes| && routes[i].path == path
    ensures r.Some? ==> r.value in routes && r.value.path == path
  {
    if |routes| == 0 then None
    else if routes[0].path == path then Some(routes[0])
    else
      var r := LookupIn(routes[1..], path);
      assert forall i :: 1 <= i < |routes| ==> routes[i] == routes[1..][i - 1];
      r
  }

  /** Where navigating to `path` ends: `/login` shows the login page; any
      other path goes through the layout, which shows the login page to a
      signed-out user, then through the route table, whose catch-all sends an
      unknown path home. */
  function Navigate(auth: Auth, path: string): (r: Outcome)
    ensures path == LoginPath || !auth.isAuthenticated ==> r == Render(LoginView)
    ensures r.Redirect? ==> r.to == HomePath
  {
    if path == LoginPath then Render(LoginView)
    else if !auth.isAuthenticated then Render(LoginView)
    else match Lookup(path)
      case Some(route) => Protect(auth, route)
      case None => Redirect(HomePath)
  }

  /** `ProtectedRoute`'s redirect to `/login` is never taken: the layout has
      already shown the login page to a signed-out user, so every redirect
      goes home. */
  lemma LoginRedirectUnreachable(auth: Auth, path: string)
    ensures Navigate(auth, path) != Redirect(LoginPath)
  {
  }

  /** A signed-in user on a table path sees its page exactly when the route
      admits every role or lists the user's role, and is sent home
      otherwise; an unknown path always goes home. */
  lemma NavigateDecides(auth: Auth, path: string)
    requires auth.isAuthenticated && path != LoginPath
    ensures forall i :: 0 <= i < |RouteTable| && RouteTable[i].path == path ==>
      var route := RouteTable[i];
      Navigate(auth, path) == (if route.allowedRoles.None? || RoleAllowed(RoleOf(auth), route.allowedRoles.value)
                               then Render(route.page) else Redirect(HomePath))
    ensures (forall i :: 0 <= i < |RouteTable| ==> RouteTable[i].path != path) ==> Navigate(auth, path) == Redirect(HomePath)
  {
    UniquePaths();
  }

  /** No two routes of the table share a path. */
  lemma UniquePaths()
    ensures forall i, j :: 0 <= i < j < |RouteTable| ==> RouteTable[i].path != RouteTable[j].path
  {
  }

  /** The home page renders for every signed-in user whatever the role, so
      the redirects home never loop. */
  lemma HomeAlwaysRenders(auth: Auth)
    requires auth.isAuthenticated
    ensures Navigate(auth, HomePath) == Render(DashboardView)
  {
  }

  /** Navigating to the path of route `k` of the table goes through that
      route's guard. */
  lemma NavigateToRoute(auth: Auth, k: nat)
    requires auth.isAuthenticated && k < |RouteTable|
    ensures Navigate(auth, RouteTable[k].path) == Protect(auth, RouteTable[k])
  {
    UniquePaths();
    assert RouteTable[k].path != LoginPath;
  }

  /** The service log page is for Managers only; expenses and analytics for
      Managers and Financial Analysts. */
  lemma RoleRestrictions(auth: Auth)
    requires auth.isAuthenticated
    ensures Navigate(auth, "/maintenance") == Render(MaintenanceView) <==> RoleOf(auth) == Some(Manager)
    ensures Navigate(auth, "/expenses") == Render(ExpensesView) <==> RoleOf(auth) in {Some(Manager), Some(FinancialAnalyst)}
    ensures Navigate(auth, "/analytics") == Render(AnalyticsView) <==> RoleOf(auth) in {Some(Manager), Some(FinancialAnalyst)}
  {
    NavigateToRoute(auth, 3);
    NavigateToRoute(auth, 4);
    NavigateToRoute(auth, 6);
  }
}

=== FILE: sidebar.dfy ===
/** The navigation menu of the local-store application
    (src/components/layout/Sidebar.jsx): the menu entries with the roles that
    see them, and the filter by the signed-in user's role. */
module Sidebar {
  import opened Basics
  import opened Fleet
  import opened Routes

  datatype NavItem = NavItem(path: string, title: string, roles: seq<string>)

  const AllRoles: seq<string> := [Manager, Dispatcher, SafetyOfficer, FinancialAnalyst]

  /** `navItems`, in menu order. */
  const NavItems: seq<NavItem> := [
    NavItem("/", "Dashboard", AllRoles),
    NavItem("/vehicles", "Vehicles", [Manager, Dispatcher]),
    NavItem("/trips", "Trips", [Manager, Dispatcher]),
    NavItem("/maintenance", "Maintenance", [Manager]),
    NavItem("/expenses", "Expenses", [Manager, FinancialAnalyst]),
    NavItem("/drivers", "Drivers", [Manager, Dispatcher, SafetyOfficer]),
    NavItem("/analytics", "Analytics", [Manager, FinancialAnalyst])
  ]

  /** The menu entries whose role list includes the user's role, in menu
      order. */
  function VisibleNav(role: Option<string>): (r: seq<NavItem>)
    ensures SubsequenceOf(r, NavItems)
    ensures forall i :: 0 <= i < |NavItems| ==> (NavItems[i] in r <==> RoleAllowed(role, NavItems[i].roles))
    ensures role.None? ==> r == []
  {
    Filter(NavItems, (item: NavItem) => RoleAllowed(role, item.roles))
  }

  /** Each menu entry leads to the route of the same position in the route
      table, and lists exactly the roles that route admits; the dashboard
      route admits everyone and its entry lists all four roles. */
  lemma NavMatchesRoutes()
    ensures |NavItems| == |RouteTable|
    ensures forall i :: 0 <= i < |NavItems| ==> NavItems[i].path == RouteTable[i].path
    ensures forall i :: 1 <= i < |NavItems| ==> RouteTable[i].allowedRoles == Some(NavItems[i].roles)
    ensures RouteTable[0].allowedRoles.None? && NavItems[0].roles == AllRoles
  {
  }

  /** For a signed-in user with one of the four roles, a menu entry is shown
      exactly when following it renders its page rather than redirecting
      home. */
  lemma VisibleIffRenders(auth: Auth, k: nat)
    requires auth.isAuthenticated && k < |NavItems|
    requires RoleOf(auth).Some? && RoleOf(auth).value in AllRoles
    ensures NavItems[k] in VisibleNav(RoleOf(auth)) <==> Navigate(auth, NavItems[k].path) == Render(RouteTable[k].page)
    ensures NavItems[k] !in VisibleNav(RoleOf(auth)) <==> Navigate(auth, NavItems[k].path) == Redirect(HomePath)
  {
    NavMatchesRoutes();
    NavigateToRoute(auth, k);
  }
}

=== FILE: sorting.dfy ===
/** `Array.prototype.sort` with a comparator, as the application calls it on
    a copy (`[...xs].sort(cmp)`). Since ECMAScript 2019 the sort is stable; it
    is modelled here as a stable insertion sort, which places each element
    after every earlier element that the comparator does not rank above it. A
    comparator result of NaN counts as 0 in the language, so callers map NaN
    to 0 before it reaches this module. */
module Sorting {

  /** A three-way comparator: negative, zero or positive. */
  type Comparator<!T> = (T, T) -> int

  /** Neighbours appear in comparator order. */
  ghost predicate Ordered<T>(s: seq<T>, cmp: Comparator<T>) {
    forall i :: 0 <= i < |s| - 1 ==> cmp(s[i], s[i + 1]) <= 0
  }

  /** On the elements of `s`, `cmp` ranks `a` above `b` only if it ranks `b`
      strictly below `a`: this is what makes a sorted order well defined. */
  ghost predicate ConsistentOn<T>(s: seq<T>, cmp: Comparator<T>) {
    forall a, b :: a in s && b in s && cmp(a, b) > 0 ==> cmp(b, a) < 0
  }

  /** Insert `x` after the last element of `s` that `cmp` does not rank above
      `x`, scanning from the right. */
  function Insert<T>(x: T, s: seq<T>, cmp: Comparator<T>): (r: seq<T>)
    ensures multiset(r) == multiset(s) + multiset{x}
    ensures |r| == |s| + 1
    ensures r[|r| - 1] == x || (|s| > 0 && r[|r| - 1] == s[|s| - 1])
  {
    if |s| == 0 then [x]
    else if cmp(s[|s| - 1], x) > 0 then
      assert s == s[..|s| - 1] + [s[|s| - 1]];
      Insert(x, s[..|s| - 1], cmp) + [s[|s| - 1]]
    else s + [x]
  }

  /** Stable insertion sort of `s` under `cmp`. */
  function Sort<T>(s: seq<T>, cmp: Comparator<T>): (r: seq<T>)
    ensures multiset(r) == multiset(s)
    ensures |r| == |s|
  {
    if |s| == 0 then []
    else
      assert s == s[..|s| - 1] + [s[|s| - 1]];
      Insert(s[|s| - 1], Sort(s[..|s| - 1], cmp), cmp)
  }

  lemma {:induction false} InsertOrdered<T>(x: T, s: seq<T>, cmp: Comparator<T>)
    requires Ordered(s, cmp)
    requires ConsistentOn(s + [x], cmp)
    ensures Ordered(Insert(x, s, cmp), cmp)
  {
    if |s| > 0 && cmp(s[|s| - 1], x) > 0 {
      var init, last := s[..|s| - 1], s[|s| - 1];
      assert last in s + [x] && x in s + [x];
      assert forall a :: a in init + [x] ==> a in s + [x];
      assert Ordered(init, cmp) by {
        forall i | 0 <= i < |init| - 1
          ensures cmp(init[i], init[i + 1]) <= 0
        {
          assert init[i] == s[i] && init[i + 1] == s[i + 1];
        }
      }
      InsertOrdered(x, init, cmp);
      var r0 := Insert(x, init, cmp);
      assert cmp(r0[|r0| - 1], last) <= 0 by {
        if r0[|r0| - 1] != x {
          assert init[|init| - 1] == s[|s| - 2];
        }
      }
      var r := r0 + [last];
      assert Insert(x, s, cmp) == r;
      forall i | 0 <= i < |r| - 1
        ensures cmp(r[i], r[i + 1]) <= 0
      {
        if i < |r0| - 1 {
          assert r[i] == r0[i] && r[i + 1] == r0[i + 1];
        } else {
          assert r[i] == r0[|r0| - 1] && r[i + 1] == last;
        }
      }
    } else if |s| > 0 {
      var r := s + [x];
      assert Insert(x, s, cmp) == r;
      forall i | 0 <= i < |r| - 1
        ensures cmp(r[i], r[i + 1]) <= 0
      {
        if i < |s| - 1 {
          assert r[i] == s[i] && r[i + 1] == s[i + 1];
        } else {
          assert r[i] == s[|s| - 1] && r[i + 1] == x;
        }
      }
    }
  }

  /** The sort yields a comparator-ordered permutation whenever the
      comparator is consistent on the input. */
  lemma {:induction false} SortOrdered<T>(s: seq<T>, cmp: Comparator<T>)
    requires ConsistentOn(s, cmp)
    ensures Ordered(Sort(s, cmp), cmp)
  {
    if |s| > 0 {
      var init, last := s[..|s| - 1], s[|s| - 1];
      assert forall a :: a in init ==> a in s;
      SortOrdered(init, cmp);
      var sorted := Sort(init, cmp);
      assert forall a :: a in sorted + [last] ==> a in s by {
        forall a | a in sorted + [last] ensures a in s {
          if a in sorted {
            assert a in multiset(sorted);
            assert a in multiset(init);
          }
        }
      }
      InsertOrdered(last, sorted, cmp);
    }
  }

  /** When the comparator never ranks an earlier element above a later one
      (for instance a comparator that always answers 0), sorting leaves the
      sequence exactly as it was: the sort is stable. */
  lemma {:induction false} SortKeepsTies<T>(s: seq<T>, cmp: Comparator<T>)
    requires forall a, b :: a in s && b in s ==> cmp(a, b) <= 0
    ensures Sort(s, cmp) == s
  {
    if |s| > 0 {
      var init, last := s[..|s| - 1], s[|s| - 1];
      assert s == init + [last];
      assert forall a :: a in init ==> a in s;
      SortKeepsTies(init, cmp);
      assert Sort(s, cmp) == Insert(last, init, cmp);
      if |init| > 0 {
        assert init[|init| - 1] in s && last in s;
        assert cmp(init[|init| - 1], last) <= 0;
      }
      assert Insert(last, init, cmp) == init + [last];
    }
  }

  /** For an integer sort key, a comparator-ordered sequence is ordered
      pairwise, not only between neighbours. */
  lemma {:induction false} OrderedByKey<T>(s: seq<T>, key: T -> int, cmp: Comparator<T>)
    requires forall a, b :: cmp(a, b) == key(a) - key(b)
    requires Ordered(s, cmp)
    ensures forall i, j :: 0 <= i <= j < |s| ==> key(s[i]) <= key(s[j])
  {
    forall i, j | 0 <= i <= j < |s|
      ensures key(s[i]) <= key(s[j])
    {
      var k := i;
      while k < j
        invariant i <= k <= j
        invariant key(s[i]) <= key(s[k])
      {
        assert cmp(s[k], s[k + 1]) <= 0;
        k := k + 1;
      }
    }
  }

  /** Every element satisfying `last` comes after every element that does
      not. */
  ghost predicate LastGroup<T>(s: seq<T>, last: T -> bool) {
    forall i, j :: 0 <= i < j < |s| && last(s[i]) ==> last(s[j])
  }

  /** On the elements of `s`, the comparator ranks every `last` element
      above everything, and no other element above a `last` one. */
  ghost predicate SendsLast<T>(s: seq<T>, cmp: Comparator<T>, last: T -> bool) {
    forall a, b :: a in s && b in s ==> (last(a) ==> cmp(a, b) > 0) && (!last(a) && last(b) ==> cmp(a, b) <= 0)
  }

  lemma {:induction false} InsertKeepsLastGroup<T>(x: T, s: seq<T>, cmp: Comparator<T>, last: T -> bool)
    requires SendsLast(s + [x], cmp, last) && LastGroup(s, last)
    ensures LastGroup(Insert(x, s, cmp), last)
  {
    var r := Insert(x, s, cmp);
    if |s| > 0 && cmp(s[|s| - 1], x) > 0 {
      var init, tail := s[..|s| - 1], s[|s| - 1];
      assert tail in s + [x] && x in s + [x];
      assert forall a :: a in init + [x] ==> a in s + [x];
      InsertKeepsLastGroup(x, init, cmp, last);
      var r0 := Insert(x, init, cmp);
      assert r == r0 + [tail];
      forall i | 0 <= i < |r0| && last(r0[i])
        ensures last(tail)
      {
        assert r0[i] in multiset(init) + multiset{x};
        if r0[i] != x {
          assert r0[i] in init;
        }
      }
    } else if |s| > 0 {
      assert r == s + [x];
      assert s[|s| - 1] in s + [x] && x in s + [x];
    }
  }

  /** The sort gathers the `last` elements at the end. */
  lemma {:induction false} SortKeepsLastGroup<T>(s: seq<T>, cmp: Comparator<T>, last: T -> bool)
    requires SendsLast(s, cmp, last)
    ensures LastGroup(Sort(s, cmp), last)
  {
    if |s| > 0 {
      var init, x := s[..|s| - 1], s[|s| - 1];
      assert forall a :: a in init ==> a in s;
      SortKeepsLastGroup(init, cmp, last);
      var sorted := Sort(init, cmp);
      forall a | a in sorted + [x] ensures a in s {
        if a in sorted {
          assert a in multiset(sorted);
          assert a in multiset(init);
        }
      }
      InsertKeepsLastGroup(s[|s| - 1], Sort(init, cmp), cmp, last);
    }
  }

  /** A comparator-ordered sequence is ordered pairwise by any transitive
      relation `le` that holds wherever the comparator does not rank the
      first element above the second. */
  lemma {:induction false} OrderedPairwise<T>(s: seq<T>, cmp: Comparator<T>, le: (T, T) -> bool)
    requires Ordered(s, cmp)
    requires forall a, b :: a in s && b in s && cmp(a, b) <= 0 ==> le(a, b)
    requires forall a, b, c :: a in s && b in s && c in s && le(a, b) && le(b, c) ==> le(a, c)
    ensures forall i, j :: 0 <= i < j < |s| ==> le(s[i], s[j])
  {
    forall i, j | 0 <= i < j < |s|
      ensures le(s[i], s[j])
    {
      var k := i + 1;
      assert cmp(s[i], s[i + 1]) <= 0;
      while k < j
        invariant i < k <= j
        invariant le(s[i], s[k])
      {
        assert cmp(s[k], s[k + 1]) <= 0;
        assert le(s[k], s[k + 1]);
        k := k + 1;
      }
    }
  }
}

=== FILE: store.dfy ===
/** The application reducer (`appReducer` in src/context/AppContext.jsx): one
    total function per action from a state to the next state. `now` is the
    clock reading `Date.now()` that the reducer uses both for fresh ids
    (`'t' + Date.now()`) and for timestamps. The reducer checks nothing about
    statuses or odometer readings: every guard lives in the pages. */
module Store {
  import opened Basics
  import opened Text
  import opened Fleet

  /** An id stamped from the clock: the prefix followed by the decimal
      digits of the reading. */
  function FreshId(prefix: string, now: nat): string {
    prefix + NatToString(now)
  }

  /** Two ids stamped with the same prefix are equal only when they were
      stamped at the same clock reading. */
  lemma FreshIdInjective(prefix: string, a: nat, b: nat)
    requires FreshId(prefix, a) == FreshId(prefix, b)
    ensures a == b
  {
    assert FreshId(prefix, a)[|prefix|..] == NatToString(a);
    assert FreshId(prefix, b)[|prefix|..] == NatToString(b);
    NatToStringRoundTrip(a);
    NatToStringRoundTrip(b);
  }

  /** The first trip carrying the given id, if any. */
  function TripById(trips: seq<Trip>, id: string): (r: Option<Trip>)
    ensures r.None? <==> forall i :: 0 <= i < |trips| ==> trips[i].id != id
    ensures r.Some? ==> r.value in trips && r.value.id == id
    ensures r.Some? ==> exists k :: 0 <= k < |trips| && trips[k] == r.value
                                    && forall j :: 0 <= j < k ==> trips[j].id != id
  {
    Find(trips, (t: Trip) => t.id == id)
  }

  /** The first user whose email and password both match, if any. */
  function UserByCredentials(users: seq<User>, email: string, password: string): (r: Option<User>)
    ensures r.None? <==> forall i :: 0 <= i < |users| ==> !(users[i].email == email && users[i].password == password)
    ensures r.Some? ==> r.value in users && r.value.email == email && r.value.password == password
    ensures r.Some? ==> exists k :: 0 <= k < |users| && users[k] == r.value
                                    && forall j :: 0 <= j < k ==> !(users[j].email == email && users[j].password == password)
  {
    Find(users, (u: User) => u.email == email && u.password == password)
  }

  // ---------------------------------------------------------------- auth

  function Login(s: AppState, email: string, password: string): (r: AppState)
    ensures r == s.(auth := r.auth)
    ensures UserByCredentials(s.users, email, password).None? ==> r == s
    ensures UserByCredentials(s.users, email, password).Some? ==>
      r.auth.isAuthenticated && r.auth.user.Some? && r.auth.user.value in s.users
      && r.auth.user.value.email == email && r.auth.user.value.password == password
  {
    match UserByCredentials(s.users, email, password)
    case None => s
    case Some(u) => s.(auth := Auth(Some(u), true))
  }

  function Logout(s: AppState): (r: AppState)
    ensures r == s.(auth := r.auth)
    ensures !r.auth.isAuthenticated && r.auth.user.None?
  {
    s.(auth := Auth(None, false))
  }

  // ------------------------------------------------------------ vehicles

  function AddVehicleTo(s: AppState, v: Vehicle, now: nat): (r: AppState)
    ensures r == s.(vehicles := r.vehicles)
    ensures |r.vehicles| == |s.vehicles| + 1 && r.vehicles[..|s.vehicles|] == s.vehicles
    ensures r.vehicles[|s.vehicles|] == v.(id := FreshId("v", now))
  {
    s.(vehicles := s.vehicles + [v.(id := FreshId("v", now))])
  }

  /** The payload's fields are spread over every vehicle whose id matches;
      the payload carries every vehicle field, so those records become it. */
  function UpdateVehicleIn(s: AppState, v: Vehicle): (r: AppState)
    ensures r == s.(vehicles := r.vehicles)
    ensures |r.vehicles| == |s.vehicles|
    ensures forall i :: 0 <= i < |s.vehicles| ==>
      r.vehicles[i] == if s.vehicles[i].id == v.id then v else s.vehicles[i]
  {
    s.(vehicles := Update(s.vehicles, (x: Vehicle) => x.id == v.id, (x: Vehicle) => v))
  }

  function DeleteVehicleFrom(s: AppState, id: string): (r: AppState)
    ensures r == s.(vehicles := r.vehicles)
    ensures forall i :: 0 <= i < |r.vehicles| ==> r.vehicles[i].id != id && r.vehicles[i] in s.vehicles
    ensures forall i :: 0 <= i < |s.vehicles| && s.vehicles[i].id != id ==> s.vehicles[i] in r.vehicles
    ensures SubsequenceOf(r.vehicles, s.vehicles)
  {
    s.(vehicles := Filter(s.vehicles, (x: Vehicle) => x.id != id))
  }

  function SetVehicleStatusIn(s: AppState, id: string, status: string): (r: AppState)
    ensures r == s.(vehicles := r.vehicles)
    ensures |r.vehicles| == |s.vehicles|
    ensures forall i :: 0 <= i < |s.vehicles| ==>
      r.vehicles[i] == if s.vehicles[i].id == id then s.vehicles[i].(status := status) else s.vehicles[i]
  {
    s.(vehicles := Update(s.vehicles, (x: Vehicle) => x.id == id, (x: Vehicle) => x.(status := status)))
  }

  // ------------------------------------------------------------- drivers

  function AddDriverTo(s: AppState, d: Driver, now: nat): (r: AppState)
    ensures r == s.(drivers := r.drivers)
    ensures |r.drivers| == |s.drivers| + 1 && r.drivers[..|s.drivers|] == s.drivers
    ensures r.drivers[|s.drivers|] == d.(id := FreshId("d", now))
  {
    s.(drivers := s.drivers + [d.(id := FreshId("d", now))])
  }

  /** The patch spread over a stored driver: the edited fields replace the
      stored ones; the status, trip counter and join date are kept. */
  function MergeDriver(d: Driver, p: DriverPatch): Driver {
    d.(id := p.id, name := p.name, phone := p.phone, licenseCategories := p.licenseCategories,
       licenseExpiry := p.licenseExpiry, safetyScore := p.safetyScore)
  }

  function UpdateDriverIn(s: AppState, p: DriverPatch): (r: AppState)
    ensures r == s.(drivers := r.drivers)
    ensures |r.drivers| == |s.drivers|
    ensures forall i :: 0 <= i < |s.drivers| && s.drivers[i].id != p.id ==> r.drivers[i] == s.drivers[i]
    ensures forall i :: 0 <= i < |s.drivers| && s.drivers[i].id == p.id ==>
      && r.drivers[i].id == p.id
      && r.drivers[i].status == s.drivers[i].status
      && r.drivers[i].tripsCompleted == s.drivers[i].tripsCompleted
      && r.drivers[i].joinDate == s.drivers[i].joinDate
      && r.drivers[i].name == p.name
      && r.drivers[i].phone == p.phone
      && r.drivers[i].licenseCategories == p.licenseCategories
      && r.drivers[i].licenseExpiry == p.licenseExpiry
      && r.drivers[i].safetyScore == p.safetyScore
  {
    s.(drivers := Update(s.drivers, (x: Driver) => x.id == p.id, (x: Driver) => MergeDriver(x, p)))
  }

  function DeleteDriverFrom(s: AppState, id: string): (r: AppState)
    ensures r == s.(drivers := r.drivers)
    ensures forall i :: 0 <= i < |r.drivers| ==> r.drivers[i].id != id && r.drivers[i] in s.drivers
    ensures forall i :: 0 <= i < |s.drivers| && s.drivers[i].id != id ==> s.drivers[i] in r.drivers
    ensures SubsequenceOf(r.drivers, s.drivers)
  {
    s.(drivers := Filter(s.drivers, (x: Driver) => x.id != id))
  }

  function SetDriverStatusIn(s: AppState, id: string, status: string): (r: AppState)
    ensures r == s.(drivers := r.drivers)
    ensures |r.drivers| == |s.drivers|
    ensures forall i :: 0 <= i < |s.drivers| ==>
      r.drivers[i] == if s.drivers[i].id == id then s.drivers[i].(status := status) else s.drivers[i]
  {
    s.(drivers := Update(s.drivers, (x: Driver) => x.id == id, (x: Driver) => x.(status := status)))
  }

  // --------------------------------------------------------------- trips

  /** The record `CREATE_TRIP` appends for a payload. */
  function NewTrip(d: TripDraft, now: nat): Trip {
    Trip(FreshId("t", now), d.vehicleId, d.driverId, d.origin, d.destination, d.cargoWeight,
         Some(d.revenue), d.startOdometer, d.endOdometer, Draft, now, None)
  }

  function CreateTripIn(s: AppState, d: TripDraft, now: nat): (r: AppState)
    ensures r == s.(trips := r.trips)
    ensures |r.trips| == |s.trips| + 1 && r.trips[..|s.trips|] == s.trips
    ensures var t := r.trips[|s.trips|];
      && t.id == FreshId("t", now) && t.origin == d.origin && t.destination == d.destination
      && t.status == Draft && t.completedAt.None? && t.createdAt == now
      && t.vehicleId == d.vehicleId && t.driverId == d.driverId
      && t.cargoWeight == d.cargoWeight && t.startOdometer == d.startOdometer
      && t.endOdometer == d.endOdometer && t.revenue == Some(d.revenue)
  {
    s.(trips := s.trips + [NewTrip(d, now)])
  }

  /** A new trip's id is unused as long as every trip so far was stamped
      by this reducer at an earlier clock reading, so creating it keeps trip
      ids unique. */
  lemma CreateTripKeepsIdsUnique(s: AppState, d: TripDraft, now: nat)
    requires UniqueKeys(s.trips, TripKey)
    requires forall i :: 0 <= i < |s.trips| ==> exists c: nat :: c < now && s.trips[i].id == FreshId("t", c)
    ensures UniqueKeys(CreateTripIn(s, d, now).trips, TripKey)
    ensures TripById(CreateTripIn(s, d, now).trips, FreshId("t", now)) == Some(NewTrip(d, now))
  {
    var r := CreateTripIn(s, d, now).trips;
    forall i | 0 <= i < |s.trips|
      ensures s.trips[i].id != FreshId("t", now)
    {
      var c: nat :| c < now && s.trips[i].id == FreshId("t", c);
      if s.trips[i].id == FreshId("t", now) {
        FreshIdInjective("t", c, now);
      }
    }
    assert r == s.trips + [NewTrip(d, now)];
    assert r[|s.trips|].id == FreshId("t", now);
  }

  function DispatchTripIn(s: AppState, id: string): (r: AppState)
    ensures r == s.(trips := r.trips, vehicles := r.vehicles, drivers := r.drivers)
    ensures TripById(s.trips, id).None? ==> r == s
    ensures TripById(s.trips, id).Some? ==>
      var t := TripById(s.trips, id).value;
      && |r.trips| == |s.trips| && |r.vehicles| == |s.vehicles| && |r.drivers| == |s.drivers|
      && (forall i :: 0 <= i < |s.trips| ==>
            r.trips[i] == if s.trips[i].id == id then s.trips[i].(status := Dispatched) else s.trips[i])
      && (forall i :: 0 <= i < |s.vehicles| ==>
            r.vehicles[i] == if s.vehicles[i].id == t.vehicleId then s.vehicles[i].(status := OnTrip) else s.vehicles[i])
      && (forall i :: 0 <= i < |s.drivers| ==>
            r.drivers[i] == if s.drivers[i].id == t.driverId then s.drivers[i].(status := OnTrip) else s.drivers[i])
  {
    match TripById(s.trips, id)
    case None => s
    case Some(t) =>
      s.(trips := Update(s.trips, (x: Trip) => x.id == id, (x: Trip) => x.(status := Dispatched)),
         vehicles := Update(s.vehicles, (v: Vehicle) => v.id == t.vehicleId, (v: Vehicle) => v.(status := OnTrip)),
         drivers := Update(s.drivers, (d: Driver) => d.id == t.driverId, (d: Driver) => d.(status := OnTrip)))
  }

  function CompleteTripIn(s: AppState, id: string, endOdometer: int, now: nat): (r: AppState)
    ensures r == s.(trips := r.trips, vehicles := r.vehicles, drivers := r.drivers)
    ensures TripById(s.trips, id).None? ==> r == s
    ensures TripById(s.trips, id).Some? ==>
      var t := TripById(s.trips, id).value;
      && |r.trips| == |s.trips| && |r.vehicles| == |s.vehicles| && |r.drivers| == |s.drivers|
      && (forall i :: 0 <= i < |s.trips| ==>
            r.trips[i] == if s.trips[i].id == id
                          then s.trips[i].(status := Completed, endOdometer := Some(endOdometer), completedAt := Some(now))
                          else s.trips[i])
      && (forall i :: 0 <= i < |s.vehicles| ==>
            r.vehicles[i] == if s.vehicles[i].id == t.vehicleId
                             then s.vehicles[i].(status := Available, odometer := endOdometer)
                             else s.vehicles[i])
      && (forall i :: 0 <= i < |s.drivers| ==>
            r.drivers[i] == if s.drivers[i].id == t.driverId
                            then s.drivers[i].(status := OnDuty, tripsCompleted := s.drivers[i].tripsCompleted + 1)
                            else s.drivers[i])
  {
    match TripById(s.trips, id)
    case None => s
    case Some(t) =>
      s.(trips := Update(s.trips, (x: Trip) => x.id == id,
                         (x: Trip) => x.(status := Completed, endOdometer := Some(endOdometer), completedAt := Some(now))),
         vehicles := Update(s.vehicles, (v: Vehicle) => v.id == t.vehicleId,
                            (v: Vehicle) => v.(status := Available, odometer := endOdometer)),
         drivers := Update(s.drivers, (d: Driver) => d.id == t.driverId,
                           (d: Driver) => d.(status := OnDuty, tripsCompleted := d.tripsCompleted + 1)))
  }

  function CancelTripIn(s: AppState, id: string): (r: AppState)
    ensures r == s.(trips := r.trips, vehicles := r.vehicles, drivers := r.drivers)
    ensures TripById(s.trips, id).None? ==> r == s
    ensures TripById(s.trips, id).Some? ==>
      var t := TripById(s.trips, id).value;
      && |r.trips| == |s.trips|
      && (forall i :: 0 <= i < |s.trips| ==>
            r.trips[i] == if s.trips[i].id == id then s.trips[i].(status := Cancelled) else s.trips[i])
      && (t.status != Dispatched ==> r.vehicles == s.vehicles && r.drivers == s.drivers)
      && (t.status == Dispatched ==>
            && |r.vehicles| == |s.vehicles| && |r.drivers| == |s.drivers|
            && (forall i :: 0 <= i < |s.vehicles| ==>
                  r.vehicles[i] == if s.vehicles[i].id == t.vehicleId then s.vehicles[i].(status := Available) else s.vehicles[i])
            && (forall i :: 0 <= i < |s.drivers| ==>
                  r.drivers[i] == if s.drivers[i].id == t.driverId then s.drivers[i].(status := OnDuty) else s.drivers[i]))
  {
    match TripById(s.trips, id)
    case None => s
    case Some(t) =>
      var trips := Update(s.trips, (x: Trip) => x.id == id, (x: Trip) => x.(status := Cancelled));
      if t.status == Dispatched then
        s.(trips := trips,
           vehicles := Update(s.vehicles, (v: Vehicle) => v.id == t.vehicleId, (v: Vehicle) => v.(status := Available)),
           drivers := Update(s.drivers, (d: Driver) => d.id == t.driverId, (d: Driver) => d.(status := OnDuty)))
      else
        s.(trips := trips)
  }

  // --------------------------------------------------------- maintenance

  function NewMaintenance(m: MaintenanceDraft, now: nat): Maintenance {
    Maintenance(FreshId("m", now), m.vehicleId, m.serviceType, m.description, m.cost,
                m.serviceDate, m.nextDueDate, InProgress)
  }

  function AddMaintenanceIn(s: AppState, m: MaintenanceDraft, now: nat): (r: AppState)
    ensures r == s.(maintenance := r.maintenance, vehicles := r.vehicles)
    ensures |r.maintenance| == |s.maintenance| + 1 && r.maintenance[..|s.maintenance|] == s.maintenance
    ensures var log := r.maintenance[|s.maintenance|];
      && log.id == FreshId("m", now) && log.status == InProgress
      && log.vehicleId == m.vehicleId && log.serviceType == m.serviceType
      && log.description == m.description && log.cost == m.cost
      && log.serviceDate == m.serviceDate && log.nextDueDate == m.nextDueDate
    ensures |r.vehicles| == |s.vehicles|
    ensures forall i :: 0 <= i < |s.vehicles| ==>
      r.vehicles[i] == if s.vehicles[i].id == m.vehicleId then s.vehicles[i].(status := InShop) else s.vehicles[i]
  {
    s.(maintenance := s.maintenance + [NewMaintenance(m, now)],
       vehicles := Update(s.vehicles, (v: Vehicle) => v.id == m.vehicleId, (v: Vehicle) => v.(status := InShop)))
  }

  /** Marks the log completed and frees the vehicle, whatever else is still
      open for it. */
  function CompleteMaintenanceIn(s: AppState, id: string, vehicleId: string): (r: AppState)
    ensures r == s.(maintenance := r.maintenance, vehicles := r.vehicles)
    ensures |r.maintenance| == |s.maintenance| && |r.vehicles| == |s.vehicles|
    ensures forall i :: 0 <= i < |s.maintenance| ==>
      r.maintenance[i] == if s.maintenance[i].id == id then s.maintenance[i].(status := Completed) else s.maintenance[i]
    ensures forall i :: 0 <= i < |s.vehicles| ==>
      r.vehicles[i] == if s.vehicles[i].id == vehicleId then s.vehicles[i].(status := Available) else s.vehicles[i]
  {
    s.(maintenance := Update(s.maintenance, (m: Maintenance) => m.id == id, (m: Maintenance) => m.(status := Completed)),
       vehicles := Update(s.vehicles, (v: Vehicle) => v.id == vehicleId, (v: Vehicle) => v.(status := Available)))
  }

  // ------------------------------------------------------------ expenses

  function AddExpenseTo(s: AppState, e: Expense, now: nat): (r: AppState)
    ensures r == s.(expenses := r.expenses)
    ensures |r.expenses| == |s.expenses| + 1 && r.expenses[..|s.expenses|] == s.expenses
    ensures r.expenses[|s.expenses|] == e.(id := FreshId("e", now))
  {
    s.(expenses := s.expenses + [e.(id := FreshId("e", now))])
  }

  function DeleteExpenseFrom(s: AppState, id: string): (r: AppState)
    ensures r == s.(expenses := r.expenses)
    ensures forall i :: 0 <= i < |r.expenses| ==> r.expenses[i].id != id && r.expenses[i] in s.expenses
    ensures forall i :: 0 <= i < |s.expenses| && s.expenses[i].id != id ==> s.expenses[i] in r.expenses
    ensures SubsequenceOf(r.expenses, s.expenses)
  {
    s.(expenses := Filter(s.expenses, (e: Expense) => e.id != id))
  }

  /** Deleting the expense just added, under an id no earlier expense
      carries, gives back the expenses as they were. */
  lemma {:induction false} AddThenDeleteExpense(s: AppState, e: Expense, now: nat)
    requires forall i :: 0 <= i < |s.expenses| ==> s.expenses[i].id != FreshId("e", now)
    ensures DeleteExpenseFrom(AddExpenseTo(s, e, now), FreshId("e", now)) == s
  {
    var id := FreshId("e", now);
    var p := (x: Expense) => x.id != id;
    FilterAppend(s.expenses, [e.(id := id)], p);
    FilterAll(s.expenses, p);
    assert Filter([e.(id := id)], p) == [];
  }

  // ------------------------------------------------------------- reducer

  /** `appReducer(state, action)`. `initial` is the state the store started
      from, which `RESET_DATA` restores while keeping the session. */
  function Reduce(s: AppState, a: Action, now: nat, initial: AppState): AppState {
    match a
    case Login(email, password) => Login(s, email, password)
    case Logout => Logout(s)
    case AddVehicle(v) => AddVehicleTo(s, v, now)
    case UpdateVehicle(v) => UpdateVehicleIn(s, v)
    case DeleteVehicle(id) => DeleteVehicleFrom(s, id)
    case SetVehicleStatus(id, st) => SetVehicleStatusIn(s, id, st)
    case AddDriver(d) => AddDriverTo(s, d, now)
    case UpdateDriver(p) => UpdateDriverIn(s, p)
    case DeleteDriver(id) => DeleteDriverFrom(s, id)
    case SetDriverStatus(id, st) => SetDriverStatusIn(s, id, st)
    case CreateTrip(d) => CreateTripIn(s, d, now)
    case DispatchTrip(id) => DispatchTripIn(s, id)
    case CompleteTrip(id, e) => CompleteTripIn(s, id, e, now)
    case CancelTrip(id) => CancelTripIn(s, id)
    case AddMaintenance(m) => AddMaintenanceIn(s, m, now)
    case CompleteMaintenance(id, vid) => CompleteMaintenanceIn(s, id, vid)
    case AddExpense(e) => AddExpenseTo(s, e, now)
    case DeleteExpense(id) => DeleteExpenseFrom(s, id)
    case ResetData => initial.(auth := s.auth)
  }

  /** `RESET_DATA` brings back the records the store started with and keeps
      the session; resetting twice is the same as resetting once. */
  lemma ResetRestoresData(s: AppState, now: nat, initial: AppState)
    ensures var r := Reduce(s, ResetData, now, initial);
      && r.auth == s.auth
      && r.vehicles == initial.vehicles && r.drivers == initial.drivers && r.trips == initial.trips
      && r.maintenance == initial.maintenance && r.expenses == initial.expenses && r.users == initial.users
      && Reduce(r, ResetData, now, initial) == r
  {
  }

  /** Through the reducer: an `ADD_EXPENSE` followed, at any later time,
      by a `DELETE_EXPENSE` of the id it stamped leaves the state as it was. */
  lemma ExpenseAddDeleteThroughReducer(s: AppState, e: Expense, now: nat, later: nat, initial: AppState)
    requires forall i :: 0 <= i < |s.expenses| ==> s.expenses[i].id != FreshId("e", now)
    ensures Reduce(Reduce(s, AddExpense(e), now, initial), DeleteExpense(FreshId("e", now)), later, initial) == s
  {
    AddThenDeleteExpense(s, e, now);
  }

  /** Signing in and then out leaves every record as it was and ends signed
      out, whether or not the credentials matched a user. */
  lemma LoginThenLogout(s: AppState, email: string, password: string, now: nat, initial: AppState)
    ensures var r := Reduce(Reduce(s, Action.Login(email, password), now, initial), Action.Logout, now, initial);
      r == s.(auth := Auth(None, false))
  {
  }
}

=== FILE: text.dfy ===
/** The JavaScript string operations the application uses: relational `<`
    (lexicographic order), `toLowerCase` on the ASCII range, `includes`, and
    `String(n)` for integers. A Dafny `char` is a Unicode scalar value, not a
    UTF-16 code unit as in JavaScript; the two orders agree on characters of
    the Basic Multilingual Plane, which is what the application's dates, ids
    and names are written in. */
module Text {

  /** JavaScript `a < b` on strings: the first differing character decides,
      and a proper prefix is smaller. (Dafny's own `<` on sequences means
      "proper prefix", which is a different relation.) */
  predicate StrLess(a: string, b: string)
    decreases |a|
  {
    if |a| == 0 then |b| > 0
    else if |b| == 0 then false
    else if a[0] == b[0] then StrLess(a[1..], b[1..])
    else a[0] < b[0]
  }

  /** No string is below itself: `x < x` is false. */
  lemma {:induction false} StrLessIrreflexive(a: string)
    ensures !StrLess(a, a)
  {
    if |a| > 0 {
      StrLessIrreflexive(a[1..]);
    }
  }

  /** The order is asymmetric: at most one of `a < b` and `b < a` holds. */
  lemma {:induction false} StrLessAsymmetric(a: string, b: string)
    ensures !(StrLess(a, b) && StrLess(b, a))
    decreases |a|
  {
    if |a| > 0 && |b| > 0 && a[0] == b[0] {
      StrLessAsymmetric(a[1..], b[1..]);
    }
  }

  /** The order is transitive. */
  lemma {:induction false} StrLessTransitive(a: string, b: string, c: string)
    requires StrLess(a, b) && StrLess(b, c)
    ensures StrLess(a, c)
    decreases |a|
  {
    if |a| > 0 && a[0] == b[0] && b[0] == c[0] {
      StrLessTransitive(a[1..], b[1..], c[1..]);
    }
  }

  /** The order is total: distinct strings are comparable. */
  lemma {:induction false} StrLessTotal(a: string, b: string)
    ensures a == b || StrLess(a, b) || StrLess(b, a)
    decreases |a|
  {
    if |a| > 0 && |b| > 0 && a[0] == b[0] {
      StrLessTotal(a[1..], b[1..]);
      if a[1..] == b[1..] {
        assert a == [a[0]] + a[1..] && b == [b[0]] + b[1..];
      }
    }
  }

  /** "Not below" is transitive: if `b < a` and `c < b` both fail, so
      does `c < a`. */
  lemma NotLessTransitive(a: string, b: string, c: string)
    requires !StrLess(b, a) && !StrLess(c, b)
    ensures !StrLess(c, a)
  {
    StrLessTotal(a, b);
    StrLessTotal(b, c);
    if StrLess(c, a) {
      if StrLess(a, b) {
        StrLessTransitive(c, a, b);
      }
    }
  }

  /** A three-way comparison built on `StrLess`: negative, zero or positive. */
  function StrCompare(a: string, b: string): int
  {
    if StrLess(a, b) then -1 else if StrLess(b, a) then 1 else 0
  }

  /** `StrCompare` is zero exactly on equal strings and flips sign when its
      arguments are swapped. */
  lemma StrCompareProperties(a: string, b: string)
    ensures StrCompare(a, b) == 0 <==> a == b
    ensures StrCompare(b, a) == -StrCompare(a, b)
  {
    StrLessIrreflexive(a);
    StrLessAsymmetric(a, b);
    StrLessTotal(a, b);
  }

  /** `toLowerCase` on one character; only ASCII capitals are mapped. */
  function LowerChar(c: char): char {
    if 'A' <= c <= 'Z' then (c as int + 32) as char else c
  }

  /** `s.toLowerCase()` restricted to the ASCII range. */
  function Lower(s: string): (r: string)
    ensures |r| == |s|
    ensures forall i :: 0 <= i < |s| ==> r[i] == LowerChar(s[i])
  {
    if |s| == 0 then "" else [LowerChar(s[0])] + Lower(s[1..])
  }

  /** `hay.includes(needle)`: `needle` occurs as a contiguous block. */
  predicate Includes(hay: string, needle: string)
    decreases |hay|
  {
    needle <= hay || (|hay| > 0 && Includes(hay[1..], needle))
  }

  /** `needle` sits in `hay` starting at position `k`. */
  predicate OccursAt(hay: string, needle: string, k: nat) {
    k + |needle| <= |hay| && hay[k..k + |needle|] == needle
  }

  /** `Includes` agrees with the positional reading of "occurs somewhere". */
  lemma {:induction false} IncludesAt(hay: string, needle: string)
    ensures Includes(hay, needle) <==> exists k: nat :: OccursAt(hay, needle, k)
    decreases |hay|
  {
    if needle <= hay {
      assert OccursAt(hay, needle, 0);
    } else if |hay| > 0 {
      IncludesAt(hay[1..], needle);
      if Includes(hay[1..], needle) {
        var k: nat :| OccursAt(hay[1..], needle, k);
        assert hay[k + 1..k + 1 + |needle|] == hay[1..][k..k + |needle|];
        assert OccursAt(hay, needle, k + 1);
      }
      if exists k: nat :: OccursAt(hay, needle, k) {
        var k: nat :| OccursAt(hay, needle, k);
        if k > 0 {
          assert hay[1..][k - 1..k - 1 + |needle|] == hay[k..k + |needle|];
          assert OccursAt(hay[1..], needle, k - 1);
        }
      }
    }
  }

  /** The empty string is included in every string. */
  lemma {:induction false} IncludesEmpty(hay: string)
    ensures Includes(hay, "")
  {
  }

  function DigitChar(d: nat): char
    requires d < 10
  {
    "0123456789"[d]
  }

  /** Decimal digits of a natural number, without leading zeros. */
  function NatToString(n: nat): (r: string)
    ensures |r| > 0
    ensures forall i :: 0 <= i < |r| ==> '0' <= r[i] <= '9'
    decreases n
  {
    if n < 10 then [DigitChar(n)] else NatToString(n / 10) + [DigitChar(n % 10)]
  }

  /** `String(n)` for an integer-valued JavaScript number. */
  function IntToString(n: int): (r: string)
    ensures |r| > 0
  {
    if n < 0 then "-" + NatToString(-n) else NatToString(n)
  }

  /** The value of a string of decimal digits. */
  function DigitsValue(s: string): int
    requires forall i :: 0 <= i < |s| ==> '0' <= s[i] <= '9'
  {
    if |s| == 0 then 0 else 10 * DigitsValue(s[..|s| - 1]) + (s[|s| - 1] as int - '0' as int)
  }

  /** Printing a natural number and reading the digits back gives it again,
      so the decimal text of distinct numbers differs. */
  lemma {:induction false} NatToStringRoundTrip(n: nat)
    ensures DigitsValue(NatToString(n)) == n
    decreases n
  {
    var r := NatToString(n);
    if n >= 10 {
      NatToStringRoundTrip(n / 10);
      assert r[..|r| - 1] == NatToString(n / 10);
    }
  }
}

=== FILE: trips_page.dfy ===
/** The trip dispatcher page of the local-store application
    (src/pages/TripsPage.jsx): it validates the create form, builds the
    `CREATE_TRIP` payload, and decides which reducer action each row button
    may fire. */
module TripsPage {
  import opened Basics
  import opened Fleet
  import opened Allocation

  /** What submitting the create form does: show an error, or dispatch. */
  datatype CreateOutcome = Rejected(error: CreateError) | Submitted(action: Action)

  /** `handleCreate`: the check chain, then `CREATE_TRIP` with the cargo
      weight and revenue as numbers, the vehicle's odometer as the start
      reading and no end reading. */
  function HandleCreate(vehicles: seq<Vehicle>, drivers: seq<Driver>, form: TripForm, today: string): (r: CreateOutcome)
    ensures r.Rejected? <==> Validate(vehicles, drivers, form, today).Some?
    ensures r.Rejected? ==> r.error == Validate(vehicles, drivers, form, today).value
    ensures r.Submitted? ==>
      var v := VehicleById(vehicles, form.vehicleId).value;
      && VehicleById(vehicles, form.vehicleId).Some?
      && DriverById(drivers, form.driverId).Some?
      && r.action.CreateTrip?
      && r.action.draft.vehicleId == form.vehicleId
      && r.action.draft.driverId == form.driverId
      && r.action.draft.origin == form.origin
      && r.action.draft.destination == form.destination
      && r.action.draft.cargoWeight == form.cargoWeight <= v.maxCapacity
      && r.action.draft.startOdometer == v.odometer
      && r.action.draft.endOdometer.None?
      && r.action.draft.revenue == form.revenue.GetOr(0)
      && LicenseValid(DriverById(drivers, form.driverId), v.vehicleType, today)
  {
    match Validate(vehicles, drivers, form, today)
    case Some(e) => Rejected(e)
    case None =>
      var v := VehicleById(vehicles, form.vehicleId).value;
      Submitted(CreateTrip(TripDraft(form.vehicleId, form.driverId, form.origin, form.destination,
                                     form.cargoWeight, form.revenue.GetOr(0), v.odometer, None)))
  }

  /** `handleComplete`: an empty end-odometer field dispatches nothing. The
      entered reading is not compared with the start reading. */
  function HandleComplete(row: Trip, endOdometer: Option<int>): (r: Option<Action>)
    ensures r.None? <==> endOdometer.None?
    ensures r.Some? ==> r.value.CompleteTrip? && r.value.tripId == row.id && r.value.endOdometer == endOdometer.value
  {
    match endOdometer
    case None => None
    case Some(e) => Some(CompleteTrip(row.id, e))
  }

  /** The reducer action a row button fires, if that button is rendered for
      the row: Dispatch and Cancel dispatch at once, Complete goes through
      the end-odometer dialog. */
  function RowAction(row: Trip, act: TripAction, endOdometer: Option<int>): (r: Option<Action>)
    ensures r.Some? ==> Offers(row.status, act)
    ensures r.Some? && r.value.DispatchTrip? ==> row.status == Draft && r.value.tripId == row.id
    ensures r.Some? && r.value.CompleteTrip? ==> row.status == Dispatched && r.value.tripId == row.id
    ensures r.Some? && r.value.CancelTrip? ==> (row.status == Draft || row.status == Dispatched) && r.value.tripId == row.id
    ensures r.Some? ==> r.value.DispatchTrip? || r.value.CompleteTrip? || r.value.CancelTrip?
    ensures Offers(row.status, act) && act != Complete ==> r.Some?
  {
    if !Offers(row.status, act) then None
    else match act
      case Dispatch => Some(DispatchTrip(row.id))
      case Cancel => Some(CancelTrip(row.id))
      case Complete => HandleComplete(row, endOdometer)
  }
}

=== FILE: vehicles_page.dfy ===
/** The vehicle registry page of the local-store application
    (src/pages/VehiclesPage.jsx): the add/edit form, the retire toggle and
    the delete button. */
module VehiclesPage {
  import opened Basics
  import opened Fleet
  import opened Store

  /** The vehicle form after its numeric fields have been parsed; an empty
      acquisition cost is `None`. */
  datatype VehicleForm = VehicleForm(
    name: string,
    model: string,
    licensePlate: string,
    vehicleType: string,
    maxCapacity: int,
    odometer: int,
    region: string,
    acquisitionCost: Option<int>)

  /** `handleSave`. Editing opens the form on a copy of the vehicle, so the
      fields the form does not show (status, acquisition date) are those of
      that copy; a new vehicle is Available and acquired today. The id of a
      new vehicle is assigned by the reducer, so the one carried here is a
      placeholder. */
  function HandleSave(editing: Option<Vehicle>, form: VehicleForm, today: string): (r: Action)
    ensures editing.Some? <==> r.UpdateVehicle?
    ensures editing.None? <==> r.AddVehicle?
    ensures r.UpdateVehicle? ==>
      && r.vehicle.id == editing.value.id
      && r.vehicle.status == editing.value.status
      && r.vehicle.acquiredDate == editing.value.acquiredDate
    ensures r.AddVehicle? ==> r.vehicle.status == Available && r.vehicle.acquiredDate == today
    ensures r.AddVehicle? || r.UpdateVehicle? ==>
      && r.vehicle.name == form.name && r.vehicle.model == form.model
      && r.vehicle.licensePlate == form.licensePlate
      && r.vehicle.vehicleType == form.vehicleType && r.vehicle.region == form.region
      && r.vehicle.maxCapacity == form.maxCapacity
      && r.vehicle.odometer == form.odometer
      && r.vehicle.acquisitionCost == form.acquisitionCost.GetOr(0)
  {
    match editing
    case Some(v) =>
      UpdateVehicle(v.(name := form.name, model := form.model, licensePlate := form.licensePlate,
                       vehicleType := form.vehicleType, maxCapacity := form.maxCapacity,
                       odometer := form.odometer, region := form.region,
                       acquisitionCost := form.acquisitionCost.GetOr(0)))
    case None =>
      AddVehicle(Vehicle("", form.name, form.model, form.licensePlate, form.vehicleType, form.maxCapacity,
                         form.odometer, Available, form.region, form.acquisitionCost.GetOr(0), today))
  }

  /** Saving a new vehicle and reducing appends one Available vehicle with a
      fresh id, keeping every earlier vehicle. */
  lemma AddVehicleThroughPage(s: AppState, form: VehicleForm, today: string, now: nat, initial: AppState)
    ensures var r := Reduce(s, HandleSave(None, form, today), now, initial);
      && |r.vehicles| == |s.vehicles| + 1 && r.vehicles[..|s.vehicles|] == s.vehicles
      && r.vehicles[|s.vehicles|].id == FreshId("v", now)
      && r.vehicles[|s.vehicles|].status == Available
      && r.vehicles[|s.vehicles|].acquiredDate == today
      && r.drivers == s.drivers && r.trips == s.trips
  {
  }

  /** Saving an edit and reducing overwrites the vehicles with the edited id
      by the form's values, and writes back the status the vehicle had when
      the dialog was opened, whatever its status is now. */
  lemma EditVehicleThroughPage(s: AppState, snapshot: Vehicle, form: VehicleForm, today: string, now: nat, initial: AppState)
    ensures var r := Reduce(s, HandleSave(Some(snapshot), form, today), now, initial);
      && |r.vehicles| == |s.vehicles|
      && r.drivers == s.drivers && r.trips == s.trips
      && (forall i :: 0 <= i < |s.vehicles| && s.vehicles[i].id != snapshot.id ==> r.vehicles[i] == s.vehicles[i])
      && (forall i :: 0 <= i < |s.vehicles| && s.vehicles[i].id == snapshot.id ==>
            && r.vehicles[i].status == snapshot.status
            && r.vehicles[i].odometer == form.odometer
            && r.vehicles[i].maxCapacity == form.maxCapacity)
  {
  }

  /** The status `toggleRetire` sets: Retired becomes Available and every
      other status becomes Retired. */
  function RetireTarget(status: string): (r: string)
    ensures r == Available <==> status == Retired
    ensures r == Retired <==> status != Retired
  {
    if status == Retired then Available else Retired
  }

  /** Two toggles bring back a Retired or an Available vehicle, but a
      vehicle On Trip or In Shop comes back Available, not in its earlier
      status. */
  lemma RetireTwice(status: string)
    ensures RetireTarget(RetireTarget(status)) == (if status == Retired then Retired else Available)
    ensures status == Available || status == Retired ==> RetireTarget(RetireTarget(status)) == status
    ensures status == OnTrip || status == InShop ==> RetireTarget(RetireTarget(status)) != status
  {
  }

  /** The power button on row `v`. */
  function ToggleRetire(v: Vehicle): (r: Action)
    ensures r.SetVehicleStatus? && r.vehicleId == v.id
    ensures r.vehicleStatus == RetireTarget(v.status)
  {
    SetVehicleStatus(v.id, RetireTarget(v.status))
  }

  /** With unique vehicle ids, toggling row `k` twice through the reducer
      leaves the other vehicles alone and leaves row `k` Retired if it
      started Retired, and Available otherwise. */
  lemma {:induction false} ToggleRetireTwice(s: AppState, k: nat, now: nat, initial: AppState)
    requires k < |s.vehicles| && UniqueKeys(s.vehicles, VehicleKey)
    ensures var s1 := Reduce(s, ToggleRetire(s.vehicles[k]), now, initial);
      && k < |s1.vehicles|
      && var s2 := Reduce(s1, ToggleRetire(s1.vehicles[k]), now, initial);
      && |s2.vehicles| == |s.vehicles|
      && s2.vehicles[k] == s.vehicles[k].(status := if s.vehicles[k].status == Retired then Retired else Available)
      && (forall i :: 0 <= i < |s.vehicles| && i != k ==> s2.vehicles[i] == s.vehicles[i])
  {
    var v := s.vehicles[k];
    forall i | 0 <= i < |s.vehicles| && s.vehicles[i].id == v.id
      ensures i == k
    {
      assert VehicleKey(s.vehicles[i]) == VehicleKey(s.vehicles[k]);
    }
    var s1 := SetVehicleStatusIn(s, v.id, RetireTarget(v.status));
    assert s1.vehicles[k] == v.(status := RetireTarget(v.status));
    var s2 := SetVehicleStatusIn(s1, v.id, RetireTarget(RetireTarget(v.status)));
    RetireTwice(v.status);
  }

  /** The delete button on row `v`. */
  function DeleteButton(v: Vehicle): (r: Action)
    ensures r.DeleteVehicle? && r.vehicleId == v.id
  {
    DeleteVehicle(v.id)
  }

  /** Deleting row `v` through the reducer removes exactly the vehicles that
      carry its id and keeps the rest in order. */
  lemma DeleteThroughPage(s: AppState, v: Vehicle, now: nat, initial: AppState)
    ensures var r := Reduce(s, DeleteButton(v), now, initial);
      && (forall i :: 0 <= i < |r.vehicles| ==> r.vehicles[i].id != v.id && r.vehicles[i] in s.vehicles)
      && (forall i :: 0 <= i < |s.vehicles| && s.vehicles[i].id != v.id ==> s.vehicles[i] in r.vehicles)
      && SubsequenceOf(r.vehicles, s.vehicles)
      && r.drivers == s.drivers && r.trips == s.trips
  {
  }
}
